=== FILE: README.md ===
# Multibot core in Dafny

A model of the core of Multibot: a Discord bot with a web dashboard (FastAPI
backend, MongoDB storage, React frontend). It covers:

- **The bot's message rules** (`leveling.dfy`, `bot.dfy`): the XP level curve,
  the custom-command lookup, the XP cooldown and award, and the warning
  threshold. Also the welcome and goodbye texts and the scheduled-news tick.
- **The storage layer** (`store.dfy`):
  - guild configurations merged with `DEFAULT_GUILD_CONFIG`;
  - user records and their defaults;
  - warnings and the per-user warning counter;
  - the XP leaderboard, custom commands and news items.
- **The translations** (`translations.py` → `translations.dfy`): table lookup,
  German fallback and `{name}` placeholder formatting.
- **The dashboard server** (`server.dfy`, `envfile.dfy`):
  - the `.env` rewrite of `configure_bot`;
  - the field and `None` filter of `update_guild` and the single-command update of
    `update_permissions`;
  - the account rules of `register`, `toggle_admin` and `delete_user`;
  - the `require_auth` and `require_admin` gates.
- **The dashboard's list editors** (`permissions_page.dfy`, `selector.dfy`,
  `moderation_page.dfy`, `reaction_roles_page.dfy`, `tickets_page.dfy`,
  `welcome_page.dfy`, `layout.dfy`): the state changes behind the buttons of
  the Permissions, Moderation, Reaction Roles, Tickets and Welcome pages, the
  server-data dropdown and the sidebar.

Shared pieces:

- `wrappers.dfy`: `Option` and `Result`.
- `values.dfy`: configuration values, plus Python and JavaScript truthiness.
- `text.dfy`: the Python and JavaScript string operations the code uses:
  `strip`, `split`, `lower`, `replace`, `startswith`/`includes` and `str(int)`.
- `seqops.dfy`: the array idioms the pages repeat: filter, remove-all,
  toggle and remove-at-index.

How the source's machinery appears in the model:

- **Database state.** MongoDB collections become one immutable `Store.Db`
  value. `find_one`/`update_one` act on the first matching document.
- **Handlers.** Every handler is a function from the state and the request to
  the answer and the new state.
- **Supplied values.** Clocks (integer seconds), fresh ids, JWT verification
  and password hashes are passed in as parameters.
- **Failures.** A Python exception becomes `None` or `Err`.

## Model

| member | source | states |
|---|---|---|
| Leveling.CalculateLevel | backend/discord_bot.py:58-67 | the level is the unique L with xp_for_level(L) <= xp < xp_for_level(L+1) (0 for negative XP) |
| Leveling.CalculateLevelLoop | backend/discord_bot.py:58-67 | the source's while loop returns the same level as the bracketing definition |
| Leveling.XpForLevelStrictlyIncreasing | backend/discord_bot.py:69-74 | the cumulative curve strictly increases, by at least 100 XP per level |
| Leveling.CalculateLevelUnique | backend/discord_bot.py:58-74 | any level whose bracket contains xp is the level calculate_level returns |
| Leveling.CalculateLevelMonotone | backend/discord_bot.py:58-67 | more XP never gives a lower level |
| Leveling.CalculateLevelBelowFirstStep | backend/discord_bot.py:61-63 | fewer than 100 XP is level 0 |
| Leveling.FirstThresholds | backend/discord_bot.py:58-74 | 100 XP reach level 1, 210 XP reach level 2 |
| Leveling.RankProgressBounded | backend/discord_bot.py:405-410 | for the level the curve assigns, the rank bar's progress is in [0, needed) and needed >= 100 |
| Translations.TablesShareKeys | backend/translations.py:2-47 | German and English define the same message keys |
| Translations.UnknownLanguageIsGerman | backend/translations.py:51 | any language other than en reads the German table |
| Translations.TableFor | backend/translations.py:51 | English exactly for "en"; every other language reads German |
| Translations.KeyFallback | backend/translations.py:52 | a key missing from the chosen table falls back to German, then to the key itself |
| Translations.NoArgumentsNoFormatting | backend/translations.py:53-58 | without keyword arguments the looked-up text is returned untouched |
| Translations.MissingArgumentKeepsText | backend/translations.py:54-57 | when the first placeholder of the looked-up message has no matching argument, t returns the unformatted message |
| Translations.SinglePlaceholderSubstituted | backend/translations.py:55 | a{name}b with a matching argument formats to a + argument + b |
| Translations.FormatPlain | backend/translations.py:55 | text without placeholders formats to itself |
| Store.WithDefaults | backend/database.py:71-75 | the merged config has the default keys plus the stored ones; stored values win |
| Store.GetGuildConfig | backend/database.py:61-76 | a known guild reads stored values over defaults; an unknown guild gets the defaults plus its id, and that document is inserted |
| Store.GetGuildConfigStable | backend/database.py:61-76 | a second read gives the same config and stores nothing more |
| Store.FindUser | backend/database.py:89 | the position of the first document of (guild, user), or the end when there is none |
| Store.UpdateGuildConfig | backend/database.py:78-85 | every update key is set, other stored keys and other guilds are kept, and no other collection changes |
| Store.UpdateReadsBack | backend/database.py:60-85 | the configuration returned is the one read before with the updated keys replaced, and a second read agrees with it |
| Store.GetUserDataAsWritten | backend/database.py:87-104 | returns the first stored document of (guild, user) as it is, else inserts a fresh zero record |
| Store.GetUserData | backend/database.py:87-104 | the record returned is always complete: missing counters read as their defaults |
| Store.FreshUserIsZero | backend/database.py:93-102 | a user never seen starts with 0 XP, level 0, 0 messages, no last award and 0 warnings |
| Store.GetUserDataStable | backend/database.py:87-104 | reading a user twice gives the same record and stores nothing more |
| Store.UpdateUserData | backend/database.py:106-113 | the set fields take the new values, the rest of the record is kept, and the record is the user's first match |
| Store.AddWarning | backend/database.py:115-132 | one warning document is appended; the user's counter goes up by one, in their first document or in a new counter-only document when they have none; every other user document is unchanged |
| Store.WarningsAfterAdd | backend/database.py:115-140 | after a warning, the user's warning list gains it at the end (while under 100) and every other user's list is unchanged |
| Store.AddWarningKeepsCounters | backend/database.py:115-132 | adding a warning keeps every user's counter equal to their number of warnings |
| Store.GetUserDataKeepsCounters | backend/database.py:87-104 | creating a fresh user record keeps every counter equal to that user's number of warnings |
| Store.GetWarnings | backend/database.py:134-140 | the first min(count, 100) of the user's warnings, in stored order |
| Store.Take100 | backend/database.py:136-139 | the first min(n, 100) items, as to_list(100) returns |
| Store.ClearWarnings | backend/database.py:142-151 | deletes all of the user's warnings and returns how many; the user's first document gets counter 0, no document is created and every other document is unchanged |
| Store.WarningsAfterClear | backend/database.py:134-151 | after clearing, the user has no warnings and every other user's list is unchanged |
| Store.ClearWarningsKeepsCounters | backend/database.py:142-151 | clearing keeps every counter consistent and leaves other users' warnings untouched |
| Store.GetLeaderboard | backend/database.py:153-159 | at most limit users of the guild, sorted by XP descending with missing XP last, drawn from the guild's users |
| Store.GuildUsers | backend/database.py:155-157 | exactly the user documents of the guild |
| Store.SortByXp | backend/database.py:158 | a permutation of its input, ordered by XP descending with missing XP last |
| Store.LeaderboardIsTop | backend/database.py:153-159 | every guild user left off the leaderboard ranks no higher than every user on it |
| Store.AddCustomCommand | backend/database.py:161-176 | the entry is keyed by guild and lowercased name and holds the latest response |
| Store.AddCustomCommandTwice | backend/database.py:161-176 | adding one name twice in any capitalisation leaves one entry with the last response |
| Store.DeleteCustomCommand | backend/database.py:186-191 | true exactly when the entry existed; it is gone afterwards and nothing else changes |
| Store.AddThenDelete | backend/database.py:161-191 | a command added under one capitalisation is deleted under any other |
| Store.AddNews | backend/database.py:193-208 | appends one unposted item with the given fields |
| Store.AddedNewsIsListed | backend/database.py:193-216 | while the guild has fewer than 100 items, the list read back holds the new item and every earlier one |
| Store.GetNews | backend/database.py:210-216 | min(count, 100) of the guild's items, newest first, drawn from them without repetition; all of them when there are at most 100 |
| Store.GuildNews | backend/database.py:212-214 | exactly the news items of the guild |
| Store.SortNewestFirst | backend/database.py:215 | a permutation of its input, newest first |
| Store.NewsIsNewest | backend/database.py:210-216 | no item left out of the list is newer than an item in it |
| Store.DeleteNews | backend/database.py:218-221 | true exactly when an item had the id; the first such item is removed and the others keep their order |
| Store.AddThenDeleteNews | backend/database.py:193-221 | deleting an item just added under a fresh id restores the database |
| Store.MarkNewsPosted | backend/database.py:223-229 | true exactly when the first item with the id was unposted; only its posted flag changes |
| Bot.DefaultXpSettings | backend/database.py:23-59 | an unknown guild reads prefix "!", leveling on, AI off, 15 XP per message, 60 s cooldown, no ignored channels |
| Bot.DefaultModerationSettings | backend/database.py:23-59 | an unknown guild reads German, threshold 3, action mute, welcomes off |
| Bot.CommandNameAsWritten | backend/discord_bot.py:145-146 | the first word after one dropped character, lowercased; None (IndexError) when no word follows |
| Bot.BarePrefixRaises | backend/discord_bot.py:145-146 | a one-character prefix followed only by whitespace makes the command lookup raise |
| Bot.LongPrefixKeepsPart | backend/discord_bot.py:146 | with prefix "??" the message "??hi" looks up "?hi" |
| Bot.CommandName | backend/discord_bot.py:145-146 | the corrected lookup: the whole prefix is dropped and a bare prefix is no command |
| Bot.CommandNameOfWord | backend/discord_bot.py:145-146 | prefix, word, then a space: the command is the lowercased word for any prefix length |
| Bot.InvokedCommand | backend/discord_bot.py:144-151 | a command is found exactly when the message names (by the corrected Bot.CommandName) a command stored for the guild, and it is that stored command |
| Bot.CommandNameAgreesOnOneCharPrefix | backend/discord_bot.py:145-146 | for a one-character prefix followed by a word, the corrected lookup equals the source's |
| Bot.AwardXp | backend/discord_bot.py:180-203 | XP and messages go up, the new level is the curve's level for the new XP, and levelUp and the role follow from that level |
| Bot.AwardXpAsWritten | backend/discord_bot.py:182-189 | the award fails (KeyError) exactly when xp, level or messages is missing from the record |
| Bot.AwardNeverLowersLevel | backend/discord_bot.py:182-184 | with a non-negative gain, the new level is at least the stored one |
| Bot.RoleOnlyOnLevelUp | backend/discord_bot.py:194-198 | a role is granted only on a level-up and only for a configured level |
| Bot.RankAfterAward | backend/discord_bot.py:401-410 | after an award, the rank card's progress bar is within bounds |
| Bot.OnMessage | backend/discord_bot.py:132-212 | bots and DMs are ignored; a reply only for a stored command, an award only with leveling on, the channel not ignored and the cooldown over; it uses the corrected command-name and user-record reads (Bot.CommandName, Store.GetUserData), not the reads at lines 146 and 169 |
| Bot.GuildMessage | backend/discord_bot.py:144-191 | in this order: a stored command is answered, a message in the AI channel goes to the AI, leveling off or an ignored channel gives nothing, otherwise the XP step runs; both directions, on the corrected reads |
| Bot.CommandIsAnswered | backend/discord_bot.py:144-151 | a message naming a stored command under the prefix is answered with its response, and only the configuration read is stored |
| Bot.AiChannelIsAnswered | backend/discord_bot.py:153-162 | a message in the AI channel that is no stored command goes to the AI and earns no XP |
| Bot.XpStep | backend/discord_bot.py:169-191 | XP is awarded exactly when the cooldown since the last award is over; only the users collection can change |
| Bot.XpStepRecord | backend/discord_bot.py:180-191 | an award raises XP by xp_per_message and messages by one, stores the curve's level and the award time, and keeps warnings; no award leaves the record unchanged |
| Bot.OnMessageUpdatesRecord | backend/discord_bot.py:164-191 | an award stores exactly the new XP, level, message count and award time; any other outcome leaves the record as it was |
| Bot.XpAwardedIffCooldownOver | backend/discord_bot.py:165-191 | with leveling on, outside ignored channels and no command or AI reply, XP is awarded exactly when the cooldown is over |
| Bot.WarnedNewcomerNeverEarnsXp | backend/discord_bot.py:182 | after a first warning the stored record has no xp, and the award on the next message fails with KeyError |
| Bot.WarnedNewcomerEarnsXp | backend/discord_bot.py:169-191 | a user whose record came from a warning earns xp_per_message on their next message and keeps the warning count |
| Bot.SanctionFor | backend/discord_bot.py:282-289 | kick or ban only when the count reaches the threshold and the action names it |
| Bot.Warn | backend/discord_bot.py:263-289 | the configuration is read (and an unknown guild's defaults stored) first; refused without the kick permission; otherwise exactly one warning is appended, the user's counter goes up by one (at most one document is created, the others are kept), and the count read back decides the sanction |
| Bot.WarnCountsNewWarning | backend/discord_bot.py:271-284 | the count warn checks is the user's warnings including the new one, capped at 100 |
| Bot.DefaultGuildNeverSanctions | backend/discord_bot.py:280-289 | in a guild with no stored configuration the default `mute` action applies, so `warn` never kicks or bans, whatever the count |
| Bot.TemplateOr | backend/discord_bot.py:114 | a truthy configured template is used, otherwise the fallback |
| Bot.DefaultGreeting | backend/discord_bot.py:114-115 | without a configured template, the translated default is sent with the member in its {user} slot |
| Bot.GreetingText | backend/discord_bot.py:110-129 | a join or leave text only when that greeting is on and the welcome channel is set; the configured template, else the translated default, filled |
| Bot.FillRendersTemplate | backend/discord_bot.py:115 | every {user} and every {server} is replaced and all other text is kept, for templates whose literal text holds no { and user values without { |
| Bot.SlotInMemberName | backend/discord_bot.py:128 | the restriction is needed: a member named {server} is replaced by the server's name |
| Bot.ConfiguredGreeting | backend/discord_bot.py:110-129 | a configured join or leave template is sent as written with its slots filled, under the same brace-free restrictions |
| Bot.DueNews | backend/discord_bot.py:488-495 | corrected reading: an item is due exactly when it is unposted, scheduled and its time has come, with a time that has no offset read as UTC |
| Bot.UnscheduledNeverDue | backend/discord_bot.py:492-493 | an item without a schedule is never posted by the tick |
| Bot.MarkAll | backend/discord_bot.py:505 | items keep their ids and only ever gain the posted flag; items whose id is not listed and every other collection are unchanged |
| Bot.MarkedWhenListed | backend/discord_bot.py:505 | the first item carrying any listed id is posted afterwards |
| Bot.NewsTick | backend/discord_bot.py:480-505 | nothing is posted without a news channel; otherwise exactly the due items among get_news are posted; only those items gain the posted flag, and besides the configuration read no other collection changes |
| Bot.TickPostsExactlyTheDue | backend/discord_bot.py:480-505 | with unique news ids, after a tick an item is marked posted exactly when the tick posted it, and is otherwise as it was |
| Bot.MarkAllMarksOnly | backend/discord_bot.py:505 | marking the ids of stored items marks those items and leaves every item with another id alone |
| Bot.PostScheduledAsWritten | backend/discord_bot.py:488-505 | the item loop as written raises exactly when an unposted, scheduled item has a time without an offset; the items before the first such item are posted and marked as the corrected tick would, and nothing after it |
| Bot.NewsTickAsWritten | backend/discord_bot.py:480-505 | one guild as written: no news channel means nothing happens; otherwise it raises exactly when some waiting get_news item is naive, whether or not the channel is found; when it does not raise it equals NewsTick |
| Bot.TickAgreesWithoutNaive | backend/discord_bot.py:478-507 | while no waiting item has a naive time, the run as written over all guilds never raises and posts what the corrected run posts |
| Bot.GuildTickWithoutNaive | backend/discord_bot.py:480-505 | per guild: without naive waiting items the tick as written agrees with NewsTick and leaves none behind |
| Bot.AbortSkipsLaterGuilds | backend/discord_bot.py:478-507 | an exception in one guild's tick ends the run: it is reported as raised and every posted item belongs to that guild |
| Bot.NaiveScheduleNeverPosted | backend/discord_bot.py:493-495 | a waiting item with a long-due time from the datetime-local input is not posted as written, though the corrected tick posts it |
| EnvFile.Put | backend/server.py:340 | assignment: the key reads back the value, an existing key keeps its place, a new key goes last |
| EnvFile.Get | backend/server.py:342-348 | none exactly when no entry has the key; otherwise a value stored under it |
| EnvFile.PutDistinct | backend/server.py:340 | assignment keeps each key named once |
| EnvFile.ParseLine | backend/server.py:338-340 | a line with = and no leading # gives the stripped name and the stripped, unquoted value |
| EnvFile.ParseBlank | backend/server.py:335 | blank content parses to no entries |
| EnvFile.ParseLinesAppend | backend/server.py:337-340 | each entry line is an assignment, so the last line naming a key wins |
| EnvFile.ParseDistinct | backend/server.py:335-340 | a parsed file never names a key twice |
| EnvFile.ParseRenderLine | backend/server.py:338-351 | a written line parses back to the entry it came from |
| EnvFile.RoundTrip | backend/server.py:335-351 | writing writable distinct entries and parsing them back gives the same entries in the same order |
| EnvFile.Configure | backend/server.py:342-348 | each given token replaces its key's value; an empty token leaves the file's value |
| EnvFile.ConfigureDistinct | backend/server.py:342-348 | the rewritten dictionary names each key once |
| EnvFile.ConfigureNothingKeepsFile | backend/server.py:333-352 | configuring without tokens rewrites a file in the written format to itself |
| Server.DropNone | backend/server.py:138-182 | only GuildConfigUpdate fields are kept and exactly the None ones are dropped; false, 0 and "" are sent on |
| Server.UpdateGuild | backend/server.py:484-488 | every non-None model field is stored; every other stored field, other guild and collection is kept |
| Server.UpdateGuildReadsBack | backend/server.py:484-488 | the configuration returned, and read afterwards, is the one read before with exactly the sent non-None model fields replaced |
| Server.UpdateGuildKeepsPermissions | backend/server.py:138-182 | a guild update never changes the permission table or the guild id |
| Server.UnknownFieldIgnored | backend/server.py:138-182 | a key outside the model changes nothing beyond the upsert |
| Server.FalseIsNotDropped | backend/server.py:486 | a model field sent as false is stored as false |
| Server.UpdatePermissions | backend/server.py:621-624 | the command maps to the new roles, other stored keys and other guilds are unchanged |
| Server.OtherCommandsUnchanged | backend/server.py:621-624 | every other command's roles are as before |
| Server.UpdatePermissionsIsolated | backend/server.py:621-624 | every other guild reads the same configuration as before |
| Server.UpdatePermissionsAsWritten | backend/server.py:621-624 | the command maps to the new roles in the stored document; when the guild's permissions came from the defaults, the live default table becomes that same new table, otherwise the defaults are unchanged; other guilds are kept |
| Server.GetGuildConfigShared | backend/database.py:61-76 | a new guild's stored document is the configuration handed back, sharing the default permissions |
| Server.PermissionsLeakToNewGuilds | backend/database.py:65 | after setting a permission for a new guild, the next new guild is created with it |
| Server.Register | backend/server.py:199-227 | 422 for a username outside 3..50 or a password under 6, then 400 for a taken email, then a taken username; otherwise one account appended, admin exactly when it is the first |
| Server.RegisterChecksEmailFirst | backend/server.py:203-210 | with both taken, the email error is reported |
| Server.RegisterKeepsAccountsUnique | backend/server.py:203-227 | registration keeps emails and usernames unique |
| Server.OnlyFirstRegistrationIsAdmin | backend/server.py:213-214 | the first account is admin, the second is not |
| Server.ToggleAdminAsWritten | backend/server.py:282-295 | 400 for oneself; success only when the first match's flag actually changed |
| Server.ToggleAdminExistingReportsMissing | backend/server.py:287-293 | promoting an existing admin answers 404 |
| Server.ToggleAdmin | backend/server.py:282-295 | 400 for oneself, 404 exactly when no account has the id, otherwise only the matched account's flag changes |
| Server.ToggleAdminAgrees | backend/server.py:282-295 | where the source succeeds, the corrected handler gives the same accounts |
| Server.DeleteUser | backend/server.py:298-308 | 400 for oneself, 404 exactly when no account has the id, otherwise the first match is removed and the rest keep their order |
| Server.DeleteKeepsAccountsUnique | backend/server.py:298-308 | deletion keeps emails and usernames unique |
| Server.RequireAuth | backend/server.py:98-107 | 401 without credentials or when they do not verify; otherwise the token's claims |
| Server.RequireAdmin | backend/server.py:109-114 | 401 exactly when authentication fails, 403 exactly when it succeeds without the admin claim |
| Server.AdminRoute | backend/server.py:109-114 | the gate's error comes before anything the handler does |
| Server.UnauthenticatedBeforeEverything | backend/server.py:98-105 | without a valid token even a self-deletion is answered 401 |
| Server.NonAdminForbidden | backend/server.py:112-113 | a valid non-admin token gets 403 whatever the request |
| PermissionsPage.AddRole | frontend/src/pages/Permissions.jsx:65-82 | empty input changes nothing; a listed role is refused with a notice; otherwise appended to the chosen list only and that input cleared |
| PermissionsPage.RemoveRole | frontend/src/pages/Permissions.jsx:84-90 | every copy of the id leaves the chosen list, the rest are kept, and nothing else changes |
| PermissionsPage.AddThenRemoveRole | frontend/src/pages/Permissions.jsx:65-90 | adding a new role then removing it restores the settings |
| PermissionsPage.AddRoleKeepsNoDups | frontend/src/pages/Permissions.jsx:70-78 | the role lists stay free of duplicates |
| PermissionsPage.UpdateCommandPermission | frontend/src/pages/Permissions.jsx:92-110 | a present role is filtered out, an absent one appended; only that command changes, and only when the server accepted |
| PermissionsPage.ToggleOnAndOff | frontend/src/pages/Permissions.jsx:93-96 | toggling an absent role twice restores the command's list |
| PermissionsPage.PageAgreesWithServer | frontend/src/pages/Permissions.jsx:98-110 | after the request, the page's permissions equal the server's |
| Selector.ItemsFor | frontend/src/components/ServerDataSelector.jsx:67-118 | nothing before data arrives or for an unknown type; roles, categories and emojis listed as they are; channels with their type; text and voice channels are the channels of that type |
| Selector.OfTypeMembers | frontend/src/components/ServerDataSelector.jsx:87-99 | an item is offered exactly when a channel of that type produces it |
| Selector.OfTypeConcat | frontend/src/components/ServerDataSelector.jsx:87-99 | the type filter keeps channel order |
| Selector.TextAndVoiceDisjoint | frontend/src/components/ServerDataSelector.jsx:87-99 | with unique channel ids, no item is both a text and a voice channel |
| Selector.SelectedItem | frontend/src/components/ServerDataSelector.jsx:120-123 | none for an empty value or an id list; otherwise the first item with that id |
| Selector.SelectedItems | frontend/src/components/ServerDataSelector.jsx:125-128 | empty unless in multiple mode with an id list; then exactly the listed items |
| Selector.HandleSelect | frontend/src/components/ServerDataSelector.jsx:130-142 | multiple mode toggles the id in the list; single mode clears the current id and sets any other |
| Selector.SelectFlipsOne | frontend/src/components/ServerDataSelector.jsx:125-137 | picking an item in multiple mode flips that item's selection and no other |
| Selector.SingleSelectTwiceClears | frontend/src/components/ServerDataSelector.jsx:139 | picking the same item twice in single mode leaves nothing selected |
| Selector.DisplayText | frontend/src/components/ServerDataSelector.jsx:144-151 | placeholder for none, the name for one, "<n> ausgewählt" otherwise; single mode shows the selected name or the placeholder |
| Selector.DisplayCountReadsBack | frontend/src/components/ServerDataSelector.jsx:148 | for two or more the text is the count in decimal followed by " ausgewählt" |
| ModerationPage.FilterWarnings | frontend/src/pages/Moderation.jsx:100-102 | all warnings for an empty search, else exactly those whose user id contains the term |
| ModerationPage.FilterWarningsConcat | frontend/src/pages/Moderation.jsx:100-102 | the search keeps list order |
| ModerationPage.GroupByUserGroups | frontend/src/pages/Moderation.jsx:105-111 | distinct keys; each group is exactly its user's warnings in list order; every warning is grouped; the sizes add up |
| ModerationPage.GroupsOfSearch | frontend/src/pages/Moderation.jsx:100-111 | each shown group is non-empty and holds exactly that user's warnings matching the search |
| ModerationPage.SavePayload | frontend/src/pages/Moderation.jsx:78-82 | only mod_log_channel, warn_threshold and warn_action are sent, with the page's values |
| ModerationPage.SaveTouchesOnlyModeration | frontend/src/pages/Moderation.jsx:78-82 | saving changes no stored setting besides those three |
| ReactionRolesPage.AddRoleSlot | frontend/src/pages/ReactionRoles.jsx:128-137 | refused at ten slots; otherwise one empty slot appended and nothing else changes |
| ReactionRolesPage.RemoveRoleSlot | frontend/src/pages/ReactionRoles.jsx:139-144 | exactly slot i is removed and the others keep their order |
| ReactionRolesPage.SlotsStayCapped | frontend/src/pages/ReactionRoles.jsx:128-144 | starting from at most ten slots, the count never exceeds ten |
| ReactionRolesPage.AddThenRemoveSlot | frontend/src/pages/ReactionRoles.jsx:128-144 | removing the slot just added restores the draft |
| ReactionRolesPage.ValidRoles | frontend/src/pages/ReactionRoles.jsx:85 | exactly the slots with both an emoji and a role |
| ReactionRolesPage.CreateReactionRole | frontend/src/pages/ReactionRoles.jsx:79-96 | accepted exactly with a title, a channel and a complete slot; the payload is the draft with only its complete slots |
| ReactionRolesPage.NewDraftIsRefused | frontend/src/pages/ReactionRoles.jsx:46-53 | the fresh draft cannot be submitted |
| ReactionRolesPage.CreateIdempotent | frontend/src/pages/ReactionRoles.jsx:85-96 | submitting the payload again gives the same payload |
| TicketsPage.AddCategory | frontend/src/pages/Tickets.jsx:236-243 | no-op without a name; otherwise one category appended and the inputs reset |
| TicketsPage.RemoveCategory | frontend/src/pages/Tickets.jsx:245-250 | exactly category i is removed and the rest keep their order |
| TicketsPage.AddField | frontend/src/pages/Tickets.jsx:252-259 | no-op without a label; otherwise one field appended and the inputs reset |
| TicketsPage.RemoveField | frontend/src/pages/Tickets.jsx:261-266 | exactly field i is removed and the rest keep their order |
| TicketsPage.AddThenRemoveCategory | frontend/src/pages/Tickets.jsx:236-250 | removing the category just added restores the panel |
| TicketsPage.AddThenRemoveField | frontend/src/pages/Tickets.jsx:252-266 | removing the field just added restores the panel |
| TicketsPage.CreatePanel | frontend/src/pages/Tickets.jsx:120-136 | refused exactly without a channel; otherwise the draft is sent and the dialog resets once accepted |
| TicketsPage.CreatePanelThenAgain | frontend/src/pages/Tickets.jsx:120-136 | after a refused or unaccepted submission the dialog is unchanged and sends the same draft again; after an accepted one it is reset and refuses |
| TicketsPage.DefaultPanelNeedsChannel | frontend/src/pages/Tickets.jsx:157-176 | the freshly reset dialog cannot create a panel |
| TicketsPage.OpenEditPanel | frontend/src/pages/Tickets.jsx:178-186 | all panel fields kept; each missing list becomes empty |
| TicketsPage.OpenEditPanelIdempotent | frontend/src/pages/Tickets.jsx:178-186 | opening an opened panel changes nothing |
| TicketsPage.AddCategoryToEdit | frontend/src/pages/Tickets.jsx:204-211 | no-op without a name; otherwise the category is appended to the edited panel |
| TicketsPage.RemoveCategoryFromEdit | frontend/src/pages/Tickets.jsx:213-218 | removes exactly index i; fails only when the list is missing |
| TicketsPage.AddFieldToEdit | frontend/src/pages/Tickets.jsx:220-227 | no-op without a label; otherwise the field is appended to the edited panel |
| TicketsPage.RemoveFieldFromEdit | frontend/src/pages/Tickets.jsx:229-234 | removes exactly index i; fails only when the list is missing |
| TicketsPage.EditorsKeepPanelOpened | frontend/src/pages/Tickets.jsx:178-234 | after openEditPanel the edit variants never hit a missing list |
| TicketsPage.EditorsAgree | frontend/src/pages/Tickets.jsx:204-266 | the edit variants change the edited panel's lists as the new-panel editors change the draft's |
| WelcomePage.FetchConfig | frontend/src/pages/Welcome.jsx:36-43 | exactly the six form fields; each is the config's value when truthy, else false, "" or [] |
| WelcomePage.FetchConfigIdempotent | frontend/src/pages/Welcome.jsx:36-43 | loading the form from its own contents changes nothing |
| WelcomePage.LoadSaveRoundTrip | frontend/src/pages/Welcome.jsx:33-58 | loading then saving keeps truthy and unshown settings; falsy form settings come back as defaults |
| WelcomePage.AddAutoRole | frontend/src/pages/Welcome.jsx:64-75 | empty input changes nothing; a listed role is refused; otherwise appended and the input cleared |
| WelcomePage.RemoveAutoRole | frontend/src/pages/Welcome.jsx:77-82 | every copy is removed, the rest are kept, and the input is unchanged |
| WelcomePage.AddThenRemoveAutoRole | frontend/src/pages/Welcome.jsx:64-82 | adding a new role then removing it restores the list |
| WelcomePage.AddAutoRoleKeepsNoDups | frontend/src/pages/Welcome.jsx:66-72 | the auto-role list stays free of duplicates |
| Layout.AllNavItems | frontend/src/components/DashboardLayout.jsx:77-79 | the common entries first; the admin entries after them exactly for an admin |
| Layout.RootOnlyOnRoot | frontend/src/components/DashboardLayout.jsx:136-138 | the root entry is active on / and nowhere else |
| Layout.OneEntryPerRoute | frontend/src/components/DashboardLayout.jsx:37-55 | on each sidebar route exactly its own entry is active |
| Layout.HeaderTitle | frontend/src/components/DashboardLayout.jsx:220-224 | the label of the first active entry, else "Dashboard" |
| Layout.FirstActive | frontend/src/components/DashboardLayout.jsx:220-224 | the first entry active on the path, with no active entry before it |
| Layout.NoPathIsAnotherPrefix | frontend/src/components/DashboardLayout.jsx:37-55 | no sidebar route is active on another sidebar route |
| Layout.HeaderNamesTheRoute | frontend/src/components/DashboardLayout.jsx:220-224 | on a route or below it, the header shows that route's label |

## Left out

- MongoDB, FastAPI routing, axios, React rendering, toasts and `localStorage`:
  collections are values and handlers are functions on them.
- discord.py calls: sending, roles, kicks and bans, `tree.sync`. Outcomes such
  as the chosen sanction or a message text are returned instead.
- The AI chat call: the model only decides that the AI answers.
- `bot.process_commands` and the auto roles on join.
- `add_mod_log`, `get_mod_logs` and the modlog list on the Moderation page.
- The bot process start/stop and its log files. The `.env` rewrite is modelled
  on strings; reading and writing the file and `os.environ` are not.
- JWT encoding and expiry, and SHA-256 hashing. Token verification arrives as
  an optional payload; the password hash is a parameter.
- `login` and `get_me`.
- The payload is the token's claim as issued. An admin flag changed later is
  not seen until a new token is issued.
- Floating point: `int(100 * 1.1 ** i)` is computed exactly as
  ⌊100·11^i/10^i⌋. The proofs use only that each step costs at least 100 XP.
- ISO-8601 timestamps are integer seconds plus whether the string carried an
  offset (`Store.Stamp`). The offset itself and calendar arithmetic are not
  modelled.
- `str.format` is modelled for `{name}` placeholders only.
- `lower()` is modelled for ASCII and Latin-1 letters only.
- Store.GetLeaderboard: requires a positive limit. MongoDB's `limit(0)` ("no
  limit") and negative limits are not modelled, and the order of XP ties is
  left open.
- Bot.OnMessage: custom commands are looked up in a map keyed by name.
  `get_custom_commands`' cap of 100 documents is not modelled.
- Bot.OnMessage: configuration values of an unexpected type read as the
  field's default.
- Bot.DueNews: an empty `scheduled_for` string counts as unscheduled, as
  Python's truthiness has it. A string `fromisoformat` rejects (ValueError)
  is not modelled. It would end the run as a naive time does.
- Bot.NewsTick: the corrected tick reads a time without an offset as UTC.
  The source raises TypeError on it instead (see Findings), and that stops
  the run for this guild and every later guild. NewsTickAsWritten and
  TickAsWritten model that behaviour.
- Bot.GreetingText: a non-string truthy template is not modelled.
- WelcomePage.AddAutoRole: works on a list of ids. A truthy non-list
  `auto_roles` value from the server is not modelled.
- JavaScript key order for the grouped warnings is taken to be insertion
  order. That holds for Discord ids: they are too large to be array indices.
- `updateRole` on the Reaction Roles page mutates the shared slot objects in
  place and is not modelled.
- `Date.now()` ids are passed in as parameters.
- The endpoints behind ticket panels, temp channels, reaction roles, level
  rewards, server data, games and voice sessions are not modelled: their
  database functions are not in `backend/database.py`.
- Server.Register: emails are compared as given; pydantic's string handling
  beyond the length limits is not modelled.
- Layout.IsActive: matches by plain prefix, so an entry would also be active
  on a longer path such as `/newsletter` under `/news`. No such route exists,
  and the model states this only for the sidebar's own routes.
- PermissionsPage.ToggleOnAndOff: toggling twice restores a command's list
  only when the role was absent. When it was present it moves to the end
  (SeqOps.ToggleTwicePresent, SeqOps.ToggleTwiceReorders).
- Store.UpdateUserData: returns the completed record (missing counters read
  as their defaults), as the corrected Store.GetUserData does. The source
  returns the stored document as written, so for a counter-only document the
  API answers without the missing fields.
- Server.UpdateGuild: pydantic's coercion of mistyped values and its 422
  answer for values it cannot coerce are not modelled. Values are stored as
  they arrive; only unknown keys are dropped.
- Server.RegisterKeepsAccountsUnique: holds for requests handled one at a
  time. The handler awaits between its lookups and the insert, and there is no
  unique index, so two concurrent registrations can create duplicates.
- Server.OnlyFirstRegistrationIsAdmin: holds for requests handled one at a
  time. Two concurrent first registrations can both count zero accounts and
  both become admin.
- Bot.XpStep: the read-modify-write of a user's XP is modelled for one message
  at a time. Two messages handled concurrently can lose an award.
- Bot.FillRendersTemplate: proved only for templates whose literal text holds
  no `{` and for user values without `{`. Otherwise the replacement chain can
  form or rewrite slots of its own; Bot.SlotInMemberName shows a member named
  `{server}` being replaced by the server's name.
- Bot.ConfiguredGreeting: inherits the same restrictions on the template and
  the member's mention or name.

## Findings

| source | as written | input that shows it | evidently intended | confidence | as-written member | corrected member |
|---|---|---|---|---|---|---|
| backend/discord_bot.py:145-146 | `message.content[1:].split()[0]` raises IndexError when only whitespace follows the prefix, so the message never reaches the AI or XP steps | prefix "!" and the message "!" (or "!  ") | a bare prefix is no command and the message is handled like any other | not executed | Bot.BarePrefixRaises | Bot.CommandName |
| backend/discord_bot.py:146 | `[1:]` drops one character whatever the prefix's length | prefix "??" and the message "??hi" look up "?hi" | the whole prefix is dropped | not executed | Bot.LongPrefixKeepsPart | Bot.CommandNameOfWord |
| backend/server.py:287-293 | success is judged by `modified_count`, which is 0 when the account already has the requested flag | set is_admin=true on an existing admin: answered 404 "Benutzer nicht gefunden" | 404 only when no account has the id | not executed | Server.ToggleAdminExistingReportsMissing | Server.ToggleAdmin |
| backend/database.py:87-131 | the `$inc` upsert of `add_warning` creates a user document holding only `warnings`; `get_user_data` returns it as it is, and `user_data['xp']` (backend/discord_bot.py:182) raises KeyError on every later message | warn a member who has never written, then let them write | missing counters read as their defaults, as `get_guild_config` does for configurations | not executed | Bot.WarnedNewcomerNeverEarnsXp | Bot.WarnedNewcomerEarnsXp |
| backend/discord_bot.py:493-495 | `fromisoformat` of the News page's `datetime-local` value gives an offset-naive time, and comparing it with the aware `now` raises TypeError. The `try` around the guild loop (:478, :506-507) swallows it, so that item, the later items and every later guild are skipped on every run | a news item scheduled from the dashboard for "2025-03-01T14:30", with the run at any later minute | the item is posted once its time has come, reading the time in a fixed zone | not executed | Bot.NaiveScheduleNeverPosted | Bot.NewsTick |
| backend/server.py:621-624 | the merged configuration shares `DEFAULT_GUILD_CONFIG`'s `command_permissions` dictionary (backend/database.py:65, 73-75), and `permissions[command] = role_ids` writes into it | set a permission for a new guild A, then open a new guild B: B is created with A's permission | each guild gets its own copy of the defaults | not executed | Server.PermissionsLeakToNewGuilds | Server.UpdatePermissionsIsolated |

=== FILE: bot.dfy ===
/** backend/discord_bot.py: the decisions the bot's event handlers and slash
    commands take, with every Discord call (sending, roles, kicks) replaced by
    the outcome it would act on. */
module Bot {
  import opened Wrappers
  import opened Values
  import Text
  import Leveling
  import Translations
  import Store

  // ----------------------------------------------------------- config reads

  /** `config.get(key, default)` for a text field. */
  function StrField(config: Doc, key: string, default: string): string {
    if key in config && config[key].Str? then config[key].text else default
  }

  /** `config.get(key, default)` for a number field. */
  function IntField(config: Doc, key: string, default: int): int {
    if key in config && config[key].Int? then config[key].number else default
  }

  /** `config.get(key, [])` for an id list. */
  function ListField(config: Doc, key: string): seq<string> {
    if key in config && config[key].StrList? then config[key].items else []
  }

  /** `config.get(key, {})` for a `{level: role_id}` dictionary. */
  function MapField(config: Doc, key: string): map<string, string> {
    if key in config && config[key].StrMap? then config[key].entries else map[]
  }

  /** An unknown guild reads the documented message and XP defaults: prefix
      `!`, leveling on, AI off, 15 XP per message, a 60-second cooldown and
      no ignored channels. */
  lemma DefaultXpSettings(db: Store.Db, guild: string)
    requires guild !in db.guilds
    ensures var config := Store.GetGuildConfig(db, guild).0;
            && StrField(config, "prefix", "!") == "!"
            && FieldTruthy(config, "leveling_enabled")
            && !FieldTruthy(config, "ai_enabled")
            && IntField(config, "xp_per_message", 15) == 15
            && IntField(config, "xp_cooldown", 60) == 60
            && ListField(config, "ignored_channels") == []
  {
    Store.DefaultMessageEntries();
    Store.DefaultXpEntries();
    Store.UnknownGuildReadsDefault(db, guild, "prefix");
    Store.UnknownGuildReadsDefault(db, guild, "leveling_enabled");
    Store.UnknownGuildReadsDefault(db, guild, "ai_enabled");
    Store.UnknownGuildReadsDefault(db, guild, "xp_per_message");
    Store.UnknownGuildReadsDefault(db, guild, "xp_cooldown");
    Store.UnknownGuildReadsDefault(db, guild, "ignored_channels");
  }

  /** An unknown guild reads the documented moderation defaults: German,
      three warnings, the `mute` action, welcomes off. */
  lemma DefaultModerationSettings(db: Store.Db, guild: string)
    requires guild !in db.guilds
    ensures var config := Store.GetGuildConfig(db, guild).0;
            && StrField(config, "language", "de") == "de"
            && IntField(config, "warn_threshold", 3) == 3
            && StrField(config, "warn_action", "mute") == "mute"
            && !FieldTruthy(config, "welcome_enabled")
  {
    Store.DefaultModerationEntries();
    Store.DefaultWelcomeEntries();
    Store.UnknownGuildReadsDefault(db, guild, "language");
    Store.UnknownGuildReadsDefault(db, guild, "warn_threshold");
    Store.UnknownGuildReadsDefault(db, guild, "warn_action");
    Store.UnknownGuildReadsDefault(db, guild, "welcome_enabled");
  }

  // ------------------------------------------------------- command names

  /** The command name `on_message` looks up, as written:
      `content[1:].split()[0].lower()`; `None` is the `IndexError` raised
      when nothing but whitespace follows the first character. */
  function CommandNameAsWritten(content: string): (r: Option<string>)
    ensures r.None? <==> forall i :: 1 <= i < |content| ==> Text.IsSpace(content[i])
    ensures r.Some? ==> |r.value| > 0 && Text.IsLowercase(r.value)
  {
    var rest := if |content| >= 1 then content[1..] else "";
    assert forall i :: 1 <= i < |content| ==> content[i] == rest[i - 1];
    match Text.FirstToken(rest)
    case None => None
    case Some(token) =>
      Text.LowerIsLowercase(token);
      Some(Text.Lower(token))
  }

  /** A message that is just the one-character prefix passes the
      `startswith(prefix)` test and then raises: the handler stops there, so
      the message neither reaches the AI channel nor earns XP. */
  lemma BarePrefixRaises(prefix: string, padding: string)
    requires |prefix| == 1
    requires forall i :: 0 <= i < |padding| ==> Text.IsSpace(padding[i])
    ensures Text.StartsWith(prefix + padding, prefix)
    ensures CommandNameAsWritten(prefix + padding) == None
  {
    var content := prefix + padding;
    assert content[..|prefix|] == prefix;
    assert forall i :: 1 <= i < |content| ==> content[i] == padding[i - 1];
  }

  /** With a two-character prefix only one character is dropped: `??hi`
      looks up the command `?hi`, never the stored `hi`. */
  lemma LongPrefixKeepsPart()
    ensures Text.StartsWith("??hi", "??")
    ensures CommandNameAsWritten("??hi") == Some("?hi")
  {
    assert "??hi"[1..] == "?hi";
    var t := Text.DropWhile("?hi", Text.IsSpace);
    assert Text.CountWhile("?hi", Text.IsSpace) == 0;
    assert t == "?hi";
    assert Text.CountWhile(t, c => !Text.IsSpace(c)) == 3;
    assert t[..3] == "?hi";
    assert Text.Lower("?hi") == "?hi";
  }

  /** The command name, corrected: the configured prefix is dropped whole, and
      a message with no word after it is not a command. */
  function CommandName(prefix: string, content: string): (r: Option<string>)
    ensures r.Some? ==> Text.StartsWith(content, prefix)
    ensures r.Some? ==> |r.value| > 0 && Text.IsLowercase(r.value)
    ensures Text.StartsWith(content, prefix) ==>
              (r.None? <==> forall i :: |prefix| <= i < |content| ==> Text.IsSpace(content[i]))
  {
    if !Text.StartsWith(content, prefix) then None
    else
      var rest := content[|prefix|..];
      assert forall i :: |prefix| <= i < |content| ==> content[i] == rest[i - |prefix|];
      match Text.FirstToken(rest)
      case None => None
      case Some(token) =>
        Text.LowerIsLowercase(token);
        Some(Text.Lower(token))
  }

  /** The first word of a text that starts with a word. */
  lemma FirstTokenOf(word: string, rest: string)
    requires |word| > 0 && forall i :: 0 <= i < |word| ==> !Text.IsSpace(word[i])
    requires |rest| == 0 || Text.IsSpace(rest[0])
    ensures Text.FirstToken(word + rest) == Some(word)
  {
    var s := word + rest;
    assert !Text.IsSpace(s[0]);
    assert Text.CountWhile(s, Text.IsSpace) == 0;
    assert Text.DropWhile(s, Text.IsSpace) == s;
    var n := Text.CountWhile(s, c => !Text.IsSpace(c));
    if |rest| > 0 {
      assert s[|word|] == rest[0];
    }
    assert n == |word| by {
      if n < |word| { assert false; }
      if n > |word| { assert false; }
    }
    assert s[..|word|] == word;
  }

  /** The prefix, a word and anything from a space on: the command is the
      word, lowercased, whatever the prefix's length. */
  lemma CommandNameOfWord(prefix: string, word: string, rest: string)
    requires |word| > 0 && forall i :: 0 <= i < |word| ==> !Text.IsSpace(word[i])
    requires |rest| == 0 || Text.IsSpace(rest[0])
    ensures CommandName(prefix, prefix + word + rest) == Some(Text.Lower(word))
  {
    var tail := word + rest;
    var content := prefix + tail;
    assert prefix + word + rest == content;
    assert content[..|prefix|] == prefix;
    assert content[|prefix|..] == tail;
    FirstTokenOf(word, rest);
    CommandNameOfToken(prefix, content, word);
  }

  /** A message that starts with the prefix names the first word after it. */
  lemma CommandNameOfToken(prefix: string, content: string, token: string)
    requires Text.StartsWith(content, prefix)
    requires Text.FirstToken(content[|prefix|..]) == Some(token)
    ensures CommandName(prefix, content) == Some(Text.Lower(token))
  {
  }

  /** For the one-character prefixes the code was written for, and a message
      that has a word, the corrected name is the one the source computes. */
  lemma CommandNameAgreesOnOneCharPrefix(prefix: string, content: string)
    requires |prefix| == 1 && CommandName(prefix, content).Some?
    ensures CommandNameAsWritten(content) == CommandName(prefix, content)
  {
  }

  // ----------------------------------------------------------------- XP

  /** XP may be awarded: no earlier award, or at least `cooldown` seconds since. */
  predicate CooldownOver(lastXp: Option<int>, now: int, cooldown: int) {
    lastXp.None? || now - lastXp.value >= cooldown
  }

  /** One XP award: the new totals and whether a level role is due. */
  datatype Award = Award(xp: int, level: nat, messages: int, levelUp: bool, role: Option<string>)

  /** The award for a complete user record: `xp_per_message` more XP, one more
      message, the level the curve gives, and the role configured for the new
      level if the level went up. */
  function AwardXp(user: Store.UserDoc, gain: int, levelRoles: map<string, string>): (a: Award)
    requires Store.Complete(user)
    ensures a.xp - user.xp.value == gain && a.messages == user.messages.value + 1
    ensures a.level == 0 || Leveling.XpForLevel(a.level) <= a.xp
    ensures a.xp < Leveling.XpForLevel(a.level + 1)
    ensures a.levelUp <==> a.level > user.level.value
    ensures a.role.Some? <==> a.levelUp && Text.NatToString(a.level) in levelRoles
    ensures a.role.Some? ==> a.role.value == levelRoles[Text.NatToString(a.level)]
  {
    var xp := user.xp.value + gain;
    var level := Leveling.CalculateLevel(xp);
    var key := Text.NatToString(level);
    var up := level > user.level.value;
    Award(xp, level, user.messages.value + 1, up,
          if up && key in levelRoles then Some(levelRoles[key]) else None)
  }

  /** The award step as written reads `user_data['xp']`, `['level']` and
      `['messages']`; `None` is the `KeyError` raised when one is missing. */
  function AwardXpAsWritten(user: Store.UserDoc, gain: int, levelRoles: map<string, string>): (r: Option<Award>)
    ensures r.Some? <==> user.xp.Some? && user.level.Some? && user.messages.Some?
    ensures r.Some? && Store.Complete(user) ==> r.value == AwardXp(user, gain, levelRoles)
  {
    if user.xp.Some? && user.level.Some? && user.messages.Some? then
      Some(AwardXp(Store.CompleteUser(user), gain, levelRoles))
    else None
  }

  /** With a non-negative gain, an award never lowers a level the curve gave. */
  lemma AwardNeverLowersLevel(user: Store.UserDoc, gain: int, levelRoles: map<string, string>)
    requires Store.Complete(user) && gain >= 0
    requires user.level.value == Leveling.CalculateLevel(user.xp.value)
    ensures AwardXp(user, gain, levelRoles).level >= user.level.value
  {
    Leveling.CalculateLevelMonotone(user.xp.value, user.xp.value + gain);
  }

  /** A level role is granted only on a level-up and only for a configured level. */
  lemma RoleOnlyOnLevelUp(user: Store.UserDoc, gain: int, levelRoles: map<string, string>)
    requires Store.Complete(user)
    ensures var a := AwardXp(user, gain, levelRoles);
            a.role.Some? ==> a.level > user.level.value && exists k :: k in levelRoles && k == Text.NatToString(a.level)
  {
  }

  /** The rank card reads the stored level; when the stored level is the one
      the curve gives (as every award stores it), the bar is within bounds. */
  lemma RankAfterAward(user: Store.UserDoc, gain: int, levelRoles: map<string, string>)
    requires Store.Complete(user)
    requires user.xp.value + gain >= 0
    ensures var a := AwardXp(user, gain, levelRoles);
            var p := Leveling.RankProgress(a.level, a.xp);
            0 <= p.progress < p.needed && p.needed >= 100
  {
    Leveling.RankProgressBounded(user.xp.value + gain);
  }

  // ---------------------------------------------------------- on_message

  datatype Message = Message(fromBot: bool, guild: Option<string>, channel: string,
                             author: string, content: string)

  /** What `on_message` does with one message. */
  datatype Outcome =
    | Ignored                      // a bot's message, or a direct message
    | CommandReply(response: string)
    | AiReply                      // handed to the AI chat
    | NoXp                         // leveling off, ignored channel or cooldown
    | Awarded(award: Award)

  /** The stored configuration the handler reads. */
  function ConfigOf(db: Store.Db, guild: string): Doc {
    Store.GetGuildConfig(db, guild).0
  }

  /** `on_message` with the corrected command-name and user-record reads. */
  function OnMessage(db: Store.Db, m: Message, now: int): (r: (Outcome, Store.Db))
    ensures m.fromBot || m.guild.None? <==> r.0.Ignored?
    ensures r.0.Ignored? ==> r.1 == db
    ensures r.0.CommandReply? ==>
              var config := ConfigOf(db, m.guild.value);
              var cmd := InvokedCommand(db, m.guild.value, config, m.content);
              && Text.StartsWith(m.content, StrField(config, "prefix", "!"))
              && cmd.Some? && r.0.response == cmd.value.response
    ensures r.0.Awarded? ==>
              var config := ConfigOf(db, m.guild.value);
              && FieldTruthy(config, "leveling_enabled")
              && m.channel !in ListField(config, "ignored_channels")
              && CooldownOver(Store.GetUserData(db, m.guild.value, m.author).0.lastXp, now,
                              IntField(config, "xp_cooldown", 60))
    ensures r.1.warnings == db.warnings && r.1.commands == db.commands && r.1.news == db.news
  {
    if m.fromBot || m.guild.None? then (Ignored, db)
    else
      var guild := m.guild.value;
      var (config, db1) := Store.GetGuildConfig(db, guild);
      assert db1.users == db.users && db1.commands == db.commands;
      assert InvokedCommand(db1, guild, config, m.content) == InvokedCommand(db, guild, config, m.content);
      GuildMessage(db1, guild, config, m, now)
  }

  /** The stored custom command a message invokes under the guild's prefix, if any. */
  function InvokedCommand(db: Store.Db, guild: string, config: Doc, content: string): (c: Option<Store.Command>)
    ensures c.Some? <==> var name := CommandName(StrField(config, "prefix", "!"), content);
                         name.Some? && (guild, name.value) in db.commands
    ensures c.Some? ==> var name := CommandName(StrField(config, "prefix", "!"), content);
                        c.value == db.commands[(guild, name.value)]
  {
    var name := CommandName(StrField(config, "prefix", "!"), content);
    if name.Some? && (guild, name.value) in db.commands then Some(db.commands[(guild, name.value)]) else None
  }

  /** The message was written in the guild's AI channel while the AI is on. */
  predicate InAiChannel(config: Doc, channel: string) {
    FieldTruthy(config, "ai_enabled") && FieldTruthy(config, "ai_channel") && config["ai_channel"] == Str(channel)
  }

  /** `on_message` once the guild's configuration has been read: a known
      command is answered, the AI channel goes to the AI, and otherwise the
      XP rule applies, in that order. */
  function GuildMessage(db: Store.Db, guild: string, config: Doc, m: Message, now: int): (r: (Outcome, Store.Db))
    ensures InvokedCommand(db, guild, config, m.content).Some? ==>
              && Text.StartsWith(m.content, StrField(config, "prefix", "!"))
              && r == (CommandReply(InvokedCommand(db, guild, config, m.content).value.response), db)
    ensures InvokedCommand(db, guild, config, m.content).None? && InAiChannel(config, m.channel) ==>
              r == (AiReply, db)
    ensures InvokedCommand(db, guild, config, m.content).None? && !InAiChannel(config, m.channel) ==>
              if !FieldTruthy(config, "leveling_enabled") || m.channel in ListField(config, "ignored_channels")
              then r == (NoXp, db)
              else r == XpStep(db, guild, config, m.author, now)
    ensures r.0.CommandReply? ==> InvokedCommand(db, guild, config, m.content).Some?
    ensures r.0.Awarded? ==>
              && FieldTruthy(config, "leveling_enabled")
              && m.channel !in ListField(config, "ignored_channels")
              && CooldownOver(Store.GetUserData(db, guild, m.author).0.lastXp, now,
                              IntField(config, "xp_cooldown", 60))
    ensures (r.1 == db && !r.0.Awarded?) || r == XpStep(db, guild, config, m.author, now)
    ensures r.1.warnings == db.warnings && r.1.commands == db.commands && r.1.news == db.news
  {
    var cmd := InvokedCommand(db, guild, config, m.content);
    if cmd.Some? then
      (CommandReply(cmd.value.response), db)
    else if InAiChannel(config, m.channel) then
      (AiReply, db)
    else if !FieldTruthy(config, "leveling_enabled") || m.channel in ListField(config, "ignored_channels") then
      (NoXp, db)
    else
      XpStep(db, guild, config, m.author, now)
  }

  /** A message that names a stored command under the guild's prefix is
      answered with that command's response, and nothing is stored but the
      configuration read. */
  lemma CommandIsAnswered(db: Store.Db, m: Message, now: int, name: string)
    requires !m.fromBot && m.guild.Some?
    requires CommandName(StrField(ConfigOf(db, m.guild.value), "prefix", "!"), m.content) == Some(name)
    requires (m.guild.value, name) in db.commands
    ensures OnMessage(db, m, now) ==
              (CommandReply(db.commands[(m.guild.value, name)].response), Store.GetGuildConfig(db, m.guild.value).1)
  {
    var (config, db1) := Store.GetGuildConfig(db, m.guild.value);
    assert db1.commands == db.commands;
    assert InvokedCommand(db1, m.guild.value, config, m.content) == Some(db.commands[(m.guild.value, name)]);
  }

  /** A message in the AI channel that is no stored command goes to the AI,
      whatever leveling says, and earns no XP. */
  lemma AiChannelIsAnswered(db: Store.Db, m: Message, now: int)
    requires !m.fromBot && m.guild.Some?
    requires InvokedCommand(db, m.guild.value, ConfigOf(db, m.guild.value), m.content).None?
    requires InAiChannel(ConfigOf(db, m.guild.value), m.channel)
    ensures OnMessage(db, m, now) == (AiReply, Store.GetGuildConfig(db, m.guild.value).1)
  {
    var (config, db1) := Store.GetGuildConfig(db, m.guild.value);
    assert db1.commands == db.commands;
    assert InvokedCommand(db1, m.guild.value, config, m.content).None?;
  }

  /** The XP part of `on_message`: read (or create) the user's record, stop
      inside the cooldown, otherwise store the award. */
  function XpStep(db: Store.Db, guild: string, config: Doc, author: string, now: int): (r: (Outcome, Store.Db))
    ensures r.0.Awarded? || r.0.NoXp?
    ensures r.0.Awarded? <==>
              CooldownOver(Store.GetUserData(db, guild, author).0.lastXp, now, IntField(config, "xp_cooldown", 60))
    ensures r.1.guilds == db.guilds
    ensures r.1.warnings == db.warnings && r.1.commands == db.commands && r.1.news == db.news
  {
    var (user, db2) := Store.GetUserData(db, guild, author);
    if !CooldownOver(user.lastXp, now, IntField(config, "xp_cooldown", 60)) then
      (NoXp, db2)
    else
      var a := AwardXp(user, IntField(config, "xp_per_message", 15), MapField(config, "level_roles"));
      var update := Store.UserUpdate(Some(a.xp), Some(a.level), Some(a.messages), Some(now));
      var (_, db3) := Store.UpdateUserData(db2, guild, author, update);
      (Awarded(a), db3)
  }

  /** How a user's record changes with one message: an award adds exactly
      `gain` XP, counts the message, stores the curve's level and the award
      time and keeps the warnings; without an award the record is as it was. */
  predicate RecordAfter(before: Store.UserDoc, after: Store.UserDoc, awarded: bool, gain: int, now: int) {
    if awarded then
      && before.xp.Some? && before.messages.Some?
      && after.xp == Some(before.xp.value + gain)
      && after.messages == Some(before.messages.value + 1)
      && after.level == Some(Leveling.CalculateLevel(before.xp.value + gain))
      && after.lastXp == Some(now)
      && after.warnings == before.warnings
    else after == before
  }

  /** The record before and after the XP step. */
  lemma XpStepRecord(db: Store.Db, guild: string, config: Doc, author: string, now: int)
    ensures var (out, db') := XpStep(db, guild, config, author, now);
            RecordAfter(Store.GetUserData(db, guild, author).0, Store.GetUserData(db', guild, author).0,
                        out.Awarded?, IntField(config, "xp_per_message", 15), now)
  {
    var (user, db2) := Store.GetUserData(db, guild, author);
    Store.GetUserDataStable(db, guild, author);
    if CooldownOver(user.lastXp, now, IntField(config, "xp_cooldown", 60)) {
      var a := AwardXp(user, IntField(config, "xp_per_message", 15), MapField(config, "level_roles"));
      var update := Store.UserUpdate(Some(a.xp), Some(a.level), Some(a.messages), Some(now));
      var (after, db3) := Store.UpdateUserData(db2, guild, author, update);
      assert after == Store.ApplyUpdate(user, update);
      assert Store.GetUserData(db3, guild, author).0 == after;
    }
  }

  /** The user's record before and after a message: an award adds exactly
      `xp_per_message`, counts the message, stores the curve's level and the
      award time; any other outcome leaves the record as it was. */
  lemma OnMessageUpdatesRecord(db: Store.Db, m: Message, now: int)
    requires !m.fromBot && m.guild.Some?
    ensures var (out, db') := OnMessage(db, m, now);
            RecordAfter(Store.GetUserData(db, m.guild.value, m.author).0,
                        Store.GetUserData(db', m.guild.value, m.author).0,
                        out.Awarded?, IntField(ConfigOf(db, m.guild.value), "xp_per_message", 15), now)
  {
    var guild := m.guild.value;
    var (config, db1) := Store.GetGuildConfig(db, guild);
    assert db1.users == db.users;
    var before := Store.GetUserData(db, guild, m.author).0;
    assert Store.GetUserData(db1, guild, m.author).0 == before;
    OnMessageBranches(db, m, now);
    XpStepRecord(db1, guild, config, m.author, now);
  }

  /** Past the bot and guild checks, `on_message` either keeps the state
      that reading the configuration left, without an award, or is the XP step. */
  lemma OnMessageBranches(db: Store.Db, m: Message, now: int)
    requires !m.fromBot && m.guild.Some?
    ensures var (config, db1) := Store.GetGuildConfig(db, m.guild.value);
            var r := OnMessage(db, m, now);
            (r.1 == db1 && !r.0.Awarded?) || r == XpStep(db1, m.guild.value, config, m.author, now)
  {
  }

  /** The XP rule: in a guild with leveling on, outside ignored channels, a
      message that is no command and not for the AI earns XP exactly when the
      cooldown is over. */
  lemma XpAwardedIffCooldownOver(db: Store.Db, m: Message, now: int)
    requires !m.fromBot && m.guild.Some?
    requires var config := ConfigOf(db, m.guild.value);
             && FieldTruthy(config, "leveling_enabled")
             && m.channel !in ListField(config, "ignored_channels")
             && !FieldTruthy(config, "ai_enabled")
             && CommandName(StrField(config, "prefix", "!"), m.content).None?
    ensures OnMessage(db, m, now).0.Awarded? <==>
              CooldownOver(Store.GetUserData(db, m.guild.value, m.author).0.lastXp, now,
                           IntField(ConfigOf(db, m.guild.value), "xp_cooldown", 60))
  {
    var guild := m.guild.value;
    var db1 := Store.GetGuildConfig(db, guild).1;
    assert db1.users == db.users;
  }

  /** A user whose first record came from a warning: the `$inc` upsert stored
      only the counter, so the source's award step raises on every later
      message and the record is never repaired. */
  lemma WarnedNewcomerNeverEarnsXp(guild: string, user: string, moderator: string,
                                   reason: string, t: int, gain: int)
    ensures var db0 := Store.Db(map[], [], [], map[], []);
            var db1 := Store.AddWarning(db0, guild, user, moderator, reason, t).1;
            var (doc, db2) := Store.GetUserDataAsWritten(db1, guild, user);
            && doc.xp.None? && doc.lastXp.None?
            && AwardXpAsWritten(doc, gain, map[]).None?
            && db2 == db1
  {
  }

  /** The same user with the corrected read: the first message after the
      warning earns exactly `xp_per_message` and keeps the warning count. */
  lemma WarnedNewcomerEarnsXp(guild: string, user: string, moderator: string,
                              reason: string, t: int, channel: string, content: string, now: int)
    requires CommandName("!", content).None?
    ensures var db0 := Store.Db(map[], [], [], map[], []);
            var db1 := Store.AddWarning(db0, guild, user, moderator, reason, t).1;
            var (out, db2) := OnMessage(db1, Message(false, Some(guild), channel, user, content), now);
            var after := Store.GetUserData(db2, guild, user).0;
            && out.Awarded? && after.xp == Some(15) && after.warnings == Some(1)
  {
    var db0 := Store.Db(map[], [], [], map[], []);
    var db1 := Store.AddWarning(db0, guild, user, moderator, reason, t).1;
    var m := Message(false, Some(guild), channel, user, content);
    assert db1.users == [Store.UserDoc(guild, user, None, None, None, None, Some(1))];
    var before := Store.GetUserData(db1, guild, user).0;
    assert before.xp == Some(0) && before.lastXp.None? && before.warnings == Some(1);
    DefaultXpSettings(db1, guild);
    XpAwardedIffCooldownOver(db1, m, now);
    OnMessageUpdatesRecord(db1, m, now);
  }

  // ------------------------------------------------------------------ warn

  /** The automatic sanction after a warning. */
  datatype Sanction = NoSanction | Kick | Ban

  /** The threshold rule of `warn`: only `kick` and `ban` act, and only once
      the user has at least `threshold` warnings. */
  function SanctionFor(count: int, threshold: int, action: string): (s: Sanction)
    ensures s != NoSanction <==> count >= threshold && (action == "kick" || action == "ban")
    ensures s == Kick <==> count >= threshold && action == "kick"
  {
    if count >= threshold then
      (if action == "kick" then Kick else if action == "ban" then Ban else NoSanction)
    else NoSanction
  }

  datatype WarnResult = Denied | Warned(count: nat, sanction: Sanction)

  /** The `warn` command: refused without the kick permission; otherwise one
      warning is stored and the threshold is checked against the warnings
      read back. */
  function Warn(db: Store.Db, allowed: bool, guild: string, user: string, moderator: string,
                reason: string, now: int): (r: (WarnResult, Store.Db))
    ensures !allowed <==> r.0 == Denied
    ensures !allowed ==> r.1 == Store.GetGuildConfig(db, guild).1
    ensures allowed ==> r.1.warnings == db.warnings + [Store.Warning(guild, user, moderator, reason, now)]
    ensures allowed ==> Store.Counter(r.1.users, guild, user) == Store.Counter(db.users, guild, user) + 1
    ensures allowed ==> |db.users| <= |r.1.users| <= |db.users| + 1
    ensures allowed ==> forall j :: 0 <= j < |db.users| && j != Store.FindUser(db.users, guild, user) ==>
                          r.1.users[j] == db.users[j]
    ensures r.1.guilds == Store.GetGuildConfig(db, guild).1.guilds
    ensures r.1.commands == db.commands && r.1.news == db.news
    ensures r.0.Warned? ==>
              r.0.sanction == SanctionFor(r.0.count, IntField(ConfigOf(db, guild), "warn_threshold", 3),
                                          StrField(ConfigOf(db, guild), "warn_action", "mute"))
  {
    var (config, db1) := Store.GetGuildConfig(db, guild);
    if !allowed then (Denied, db1)
    else
      var (_, db2) := Store.AddWarning(db1, guild, user, moderator, reason, now);
      var count := |Store.GetWarnings(db2, guild, user)|;
      (Warned(count, SanctionFor(count, IntField(config, "warn_threshold", 3),
                                 StrField(config, "warn_action", "mute"))), db2)
  }

  /** The count `warn` checks is the user's number of warnings including the
      new one, read back at most 100 at a time. */
  lemma WarnCountsNewWarning(db: Store.Db, guild: string, user: string, moderator: string,
                             reason: string, now: int)
    ensures var r := Warn(db, true, guild, user, moderator, reason, now).0;
            var n := Store.CountFor(db.warnings, guild, user) + 1;
            r.Warned? && r.count == if n < 100 then n else 100
  {
    var db1 := Store.GetGuildConfig(db, guild).1;
    var (w, db2) := Store.AddWarning(db1, guild, user, moderator, reason, now);
    Store.CountForAppend(db1.warnings, w, guild, user);
  }

  /** In a guild without a stored configuration the default action `mute`
      applies, so however many warnings a user has, `warn` kicks and bans nobody. */
  lemma DefaultGuildNeverSanctions(db: Store.Db, guild: string, user: string, moderator: string,
                                   reason: string, now: int)
    requires guild !in db.guilds
    ensures Warn(db, true, guild, user, moderator, reason, now).0 ==
              Warned(|Store.GetWarnings(Store.AddWarning(Store.GetGuildConfig(db, guild).1, guild, user,
                                                         moderator, reason, now).1, guild, user)|,
                     NoSanction)
  {
    DefaultModerationSettings(db, guild);
  }

  // ----------------------------------------------------- welcome / goodbye

  /** `config.get(field) or fallback` for a message template. */
  function TemplateOr(config: Doc, key: string, fallback: string): (t: string)
    ensures FieldTruthy(config, key) && config[key].Str? ==> t == config[key].text
    ensures !FieldTruthy(config, key) ==> t == fallback
  {
    if FieldTruthy(config, key) && config[key].Str? then config[key].text else fallback
  }

  /** `message.replace('{user}', user).replace('{server}', server)`. */
  function Fill(template: string, user: string, server: string): string {
    Text.ReplaceAll(Text.ReplaceAll(template, "{user}", user), "{server}", server)
  }

  /** A member joining (`on_member_join`) or leaving (`on_member_remove`). */
  datatype Greeting = Join | Leave

  /** The configuration keys each greeting reads; both go to the welcome channel. */
  function EnabledKey(g: Greeting): string {
    match g case Join => "welcome_enabled" case Leave => "goodbye_enabled"
  }

  function MessageKey(g: Greeting): string {
    match g case Join => "welcome_message" case Leave => "goodbye_message"
  }

  function DefaultKey(g: Greeting): string {
    match g case Join => "welcome_default" case Leave => "goodbye_default"
  }

  /** The text sent on a join (with the member's mention) or a leave (with
      the member's name), or `None` when that greeting is off or no welcome
      channel is configured. */
  function GreetingText(config: Doc, g: Greeting, who: string, server: string): (r: Option<string>)
    ensures r.Some? <==> FieldTruthy(config, EnabledKey(g)) && FieldTruthy(config, "welcome_channel")
  {
    if FieldTruthy(config, EnabledKey(g)) && FieldTruthy(config, "welcome_channel") then
      var lang := StrField(config, "language", "de");
      var fallback := Translations.T(lang, DefaultKey(g), map["user" := who]);
      Some(Fill(TemplateOr(config, MessageKey(g), fallback), who, server))
    else None
  }

  /** A message template as a reader sees it: plain text and the two slots. */
  datatype Piece = Lit(text: string) | UserSlot | ServerSlot

  /** The template text a piece list is written as. */
  function Source(ps: seq<Piece>): string {
    if |ps| == 0 then ""
    else
      (match ps[0]
       case Lit(t) => t
       case UserSlot => "{user}"
       case ServerSlot => "{server}") + Source(ps[1..])
  }

  /** The intended message: each slot replaced by its value, text kept. */
  function Render(ps: seq<Piece>, user: string, server: string): string {
    if |ps| == 0 then ""
    else
      (match ps[0]
       case Lit(t) => t
       case UserSlot => user
       case ServerSlot => server) + Render(ps[1..], user, server)
  }

  /** The text after the first replacement: user slots filled, server slots
      still written out. */
  function HalfRendered(ps: seq<Piece>, user: string): string {
    if |ps| == 0 then ""
    else
      (match ps[0]
       case Lit(t) => t
       case UserSlot => user
       case ServerSlot => "{server}") + HalfRendered(ps[1..], user)
  }

  predicate PlainPieces(ps: seq<Piece>) {
    forall i :: 0 <= i < |ps| && ps[i].Lit? ==> '{' !in ps[i].text
  }

  lemma ServerSlotKeptByUserReplace(b: string, user: string)
    ensures Text.ReplaceAll("{server}" + b, "{user}", user) == "{server}" + Text.ReplaceAll(b, "{user}", user)
  {
    var s := "{server}" + b;
    assert s[1] == 's';
    assert !Text.StartsWith(s, "{user}");
    assert s[1..] == "server}" + b;
    Text.ReplaceAllLiteralPrefix("server}", b, "{user}", user);
    assert "{server}" == ['{'] + "server}";
  }

  lemma {:induction false} UserReplaceStep(ps: seq<Piece>, user: string)
    requires PlainPieces(ps)
    ensures Text.ReplaceAll(Source(ps), "{user}", user) == HalfRendered(ps, user)
    decreases |ps|
  {
    if |ps| > 0 {
      UserReplaceStep(ps[1..], user);
      var rest := Source(ps[1..]);
      match ps[0]
      case Lit(t) =>
        assert '{' !in t;
        Text.ReplaceAllLiteralPrefix(t, rest, "{user}", user);
      case UserSlot =>
        Text.ReplaceAllAtPattern(rest, "{user}", user);
      case ServerSlot =>
        ServerSlotKeptByUserReplace(rest, user);
    }
  }

  lemma {:induction false} ServerReplaceStep(ps: seq<Piece>, user: string, server: string)
    requires PlainPieces(ps) && '{' !in user
    ensures Text.ReplaceAll(HalfRendered(ps, user), "{server}", server) == Render(ps, user, server)
    decreases |ps|
  {
    if |ps| > 0 {
      ServerReplaceStep(ps[1..], user, server);
      var rest := HalfRendered(ps[1..], user);
      match ps[0]
      case Lit(t) =>
        assert '{' !in t;
        Text.ReplaceAllLiteralPrefix(t, rest, "{server}", server);
      case UserSlot =>
        Text.ReplaceAllLiteralPrefix(user, rest, "{server}", server);
      case ServerSlot =>
        Text.ReplaceAllAtPattern(rest, "{server}", server);
    }
  }

  /** Filling a template replaces every `{user}` and every `{server}` and
      keeps all other text, provided the text and the user value hold no `{`
      that could start a new slot. */
  lemma FillRendersTemplate(ps: seq<Piece>, user: string, server: string)
    requires PlainPieces(ps) && '{' !in user
    ensures Fill(Source(ps), user, server) == Render(ps, user, server)
  {
    UserReplaceStep(ps, user);
    ServerReplaceStep(ps, user, server);
  }

  /** A configured greeting text is used as written, slots filled. */
  lemma ConfiguredGreeting(config: Doc, g: Greeting, ps: seq<Piece>, who: string, server: string)
    requires FieldTruthy(config, EnabledKey(g)) && FieldTruthy(config, "welcome_channel")
    requires MessageKey(g) in config && config[MessageKey(g)] == Str(Source(ps))
    requires Source(ps) != ""
    requires PlainPieces(ps) && '{' !in who
    ensures GreetingText(config, g, who, server) == Some(Render(ps, who, server))
  {
    var fallback := Translations.T(StrField(config, "language", "de"), DefaultKey(g), map["user" := who]);
    TemplateIsConfigured(config, MessageKey(g), Source(ps), fallback);
    FillRendersTemplate(ps, who, server);
  }

  lemma TemplateIsDefault(config: Doc, key: string, fallback: string)
    requires !FieldTruthy(config, key)
    ensures TemplateOr(config, key, fallback) == fallback
  {
  }

  lemma TemplateIsConfigured(config: Doc, key: string, text: string, fallback: string)
    requires key in config && config[key] == Str(text) && text != ""
    ensures TemplateOr(config, key, fallback) == text
  {
  }

  /** Without a configured template the translated default is sent, with the
      member in its `{user}` slot. */
  lemma DefaultGreeting(config: Doc, g: Greeting, who: string, server: string, a: string, b: string)
    requires FieldTruthy(config, EnabledKey(g)) && FieldTruthy(config, "welcome_channel")
    requires !FieldTruthy(config, MessageKey(g))
    requires Translations.Lookup(StrField(config, "language", "de"), DefaultKey(g)) == a + "{user}" + b
    requires '{' !in a && '{' !in b && '{' !in who
    ensures GreetingText(config, g, who, server) == Some(a + who + b)
  {
    var kw := map["user" := who];
    var lang := StrField(config, "language", "de");
    FillDefault(a, b, who, server);
    Translations.TranslationIsFormatted(lang, DefaultKey(g), kw, a + who + b);
    TemplateIsDefault(config, MessageKey(g), Translations.T(lang, DefaultKey(g), kw));
  }

  lemma UserSlotSpelled()
    ensures "{" + "user" + "}" == "{user}"
  {
    var s := "{" + "user" + "}";
    assert |s| == 6 && s[0] == '{' && s[1] == 'u' && s[2] == 's' && s[3] == 'e' && s[4] == 'r' && s[5] == '}';
  }

  /** A brace-free default text with one `{user}` slot formats and fills to
      the text with the member in the slot. */
  lemma FillDefault(a: string, b: string, who: string, server: string)
    requires '{' !in a && '{' !in b && '{' !in who
    ensures Translations.Format(a + "{user}" + b, map["user" := who]) == Some(a + who + b)
    ensures Fill(a + who + b, who, server) == a + who + b
  {
    FormatUserSlot(a, b, who);
    FillPlain(a + who + b, who, server);
  }

  lemma FormatUserSlot(a: string, b: string, who: string)
    requires '{' !in a && '{' !in b
    ensures Translations.Format(a + "{user}" + b, map["user" := who]) == Some(a + who + b)
  {
    assert a + "{user}" + b == a + "{" + "user" + "}" + b by {
      UserSlotSpelled();
    }
    Translations.SinglePlaceholderSubstituted(a, "user", b, map["user" := who]);
  }

  /** Text without braces is sent as it is. */
  lemma FillPlain(t: string, who: string, server: string)
    requires '{' !in t
    ensures Fill(t, who, server) == t
  {
    Text.ReplaceAllNoStart(t, "{user}", who);
    Text.ReplaceAllNoStart(t, "{server}", server);
  }

  /** The restriction on the user value is needed: a member whose name is
      `{server}` leaves with the server's name in the message instead. */
  lemma SlotInMemberName(server: string)
    ensures Fill("{user}", "{server}", server) == server
  {
    Text.ReplaceAllAtPattern("", "{user}", "{server}");
    assert "{user}" + "" == "{user}" && "{server}" + "" == "{server}";
    Text.ReplaceAllAtPattern("", "{server}", server);
  }

  // ------------------------------------------------------------------ news

  /** The news items the corrected tick posts: not yet posted, scheduled,
      and due. A time without an offset is read as UTC, which the source's
      comparison with the aware `now` does not do (see NewsTickAsWritten). */
  function DueNews(items: seq<Store.News>, now: int): (r: seq<Store.News>)
    ensures forall n :: n in r <==> n in items && !n.posted && n.scheduledFor.Some? && n.scheduledFor.value.seconds <= now
    ensures |r| <= |items|
  {
    if |items| == 0 then []
    else
      var n := items[0];
      assert items == [n] + items[1..];
      (if !n.posted && n.scheduledFor.Some? && n.scheduledFor.value.seconds <= now then [n] else [])
      + DueNews(items[1..], now)
  }

  /** An unscheduled item is never posted by the tick. */
  lemma UnscheduledNeverDue(items: seq<Store.News>, now: int, n: Store.News)
    requires n.scheduledFor.None?
    ensures n !in DueNews(items, now)
  {
  }

  function Ids(items: seq<Store.News>): (r: seq<string>)
    ensures |r| == |items| && forall i :: 0 <= i < |items| ==> r[i] == items[i].id
  {
    if |items| == 0 then [] else [items[0].id] + Ids(items[1..])
  }

  lemma {:induction false} FindNewsSameIds(a: seq<Store.News>, b: seq<Store.News>, id: string)
    requires |a| == |b| && forall j :: 0 <= j < |a| ==> a[j].id == b[j].id
    ensures Store.FindNews(a, id) == Store.FindNews(b, id)
    decreases |a|
  {
    if |a| > 0 && a[0].id != id {
      FindNewsSameIds(a[1..], b[1..], id);
    }
  }

  /** `mark_news_posted` for each id in turn. */
  function MarkAll(db: Store.Db, ids: seq<string>): (r: Store.Db)
    ensures |r.news| == |db.news|
    ensures forall j :: 0 <= j < |db.news| ==> r.news[j].id == db.news[j].id
    ensures forall j :: 0 <= j < |db.news| ==> r.news[j] == db.news[j] || r.news[j] == db.news[j].(posted := true)
    ensures forall j :: 0 <= j < |db.news| && db.news[j].id !in ids ==> r.news[j] == db.news[j]
    ensures r.guilds == db.guilds && r.users == db.users
    ensures r.warnings == db.warnings && r.commands == db.commands
    decreases |ids|
  {
    if |ids| == 0 then db
    else MarkAll(Store.MarkNewsPosted(db, ids[0]).1, ids[1..])
  }

  /** Every id handed to `MarkAll` whose item exists ends up posted. */
  lemma {:induction false} MarkedWhenListed(db: Store.Db, ids: seq<string>, id: string)
    requires id in ids && Store.FindNews(db.news, id) < |db.news|
    ensures MarkAll(db, ids).news[Store.FindNews(db.news, id)].posted
    decreases |ids|
  {
    var db1 := Store.MarkNewsPosted(db, ids[0]).1;
    FindNewsSameIds(db1.news, db.news, id);
    if id != ids[0] {
      assert id in ids[1..];
      MarkedWhenListed(db1, ids[1..], id);
    }
  }

  /** `after` is `before` with the items of `posted` marked posted: the first
      item carrying each of their ids gains the flag, items whose id is not
      among them are unchanged, and nothing else about any item changes. */
  predicate MarksOnly(before: seq<Store.News>, after: seq<Store.News>, posted: seq<Store.News>) {
    && |after| == |before|
    && (forall j :: 0 <= j < |before| ==> after[j] == before[j] || after[j] == before[j].(posted := true))
    && (forall n :: n in posted ==> Store.FindNews(before, n.id) < |after| && after[Store.FindNews(before, n.id)].posted)
    && (forall j :: 0 <= j < |before| && before[j].id !in Ids(posted) ==> after[j] == before[j])
  }

  /** One tick of the news loop for one guild: nothing without a news channel
      (or when the channel cannot be found); otherwise the due items among
      the ones `get_news` returns are posted, each marked posted, and no
      other field of any item changes. */
  function NewsTick(db: Store.Db, guild: string, channelFound: bool, now: int): (r: (seq<Store.News>, Store.Db))
    ensures !FieldTruthy(ConfigOf(db, guild), "news_channel") || !channelFound ==> r.0 == []
    ensures FieldTruthy(ConfigOf(db, guild), "news_channel") && channelFound ==>
              r.0 == DueNews(Store.GetNews(db, guild), now)
    ensures forall n :: n in r.0 ==> n in db.news && n.guildId == guild
    ensures MarksOnly(db.news, r.1.news, r.0)
    ensures r.1.guilds == Store.GetGuildConfig(db, guild).1.guilds
    ensures r.1.users == db.users && r.1.warnings == db.warnings && r.1.commands == db.commands
  {
    var (config, db1) := Store.GetGuildConfig(db, guild);
    if !FieldTruthy(config, "news_channel") || !channelFound then ([], db1)
    else
      assert db1.news == db.news && db1.users == db.users;
      assert Store.GetNews(db1, guild) == Store.GetNews(db, guild);
      PostDue(db1, guild, now)
  }

  /** The posting part of the tick: the due items among `get_news`, each
      marked posted; items whose id is not among them and every other
      collection are unchanged. */
  function PostDue(db: Store.Db, guild: string, now: int): (r: (seq<Store.News>, Store.Db))
    ensures r.0 == DueNews(Store.GetNews(db, guild), now)
    ensures forall n :: n in r.0 ==> n in db.news && n.guildId == guild
    ensures MarksOnly(db.news, r.1.news, r.0)
    ensures r.1.guilds == db.guilds && r.1.users == db.users
    ensures r.1.warnings == db.warnings && r.1.commands == db.commands
  {
    var due := DueNews(Store.GetNews(db, guild), now);
    MarkAllMarksOnly(db, due);
    (due, MarkAll(db, Ids(due)))
  }

  /** With item ids unique (they are fresh uuids), a tick posts exactly the
      items it returns: each of them gains the posted flag and every other
      item is left as it was. */
  lemma TickPostsExactlyTheDue(db: Store.Db, guild: string, channelFound: bool, now: int)
    requires forall i, j :: 0 <= i < j < |db.news| ==> db.news[i].id != db.news[j].id
    ensures var (posted, db2) := NewsTick(db, guild, channelFound, now);
            forall j :: 0 <= j < |db.news| ==>
              db2.news[j] == if db.news[j] in posted then db.news[j].(posted := true) else db.news[j]
  {
    var (posted, db2) := NewsTick(db, guild, channelFound, now);
    forall j | 0 <= j < |db.news|
      ensures db2.news[j] == if db.news[j] in posted then db.news[j].(posted := true) else db.news[j]
    {
      PostedIffReturned(db.news, db2.news, posted, j);
    }
  }

  /** One item after a tick over unique ids: posted exactly when returned. */
  lemma PostedIffReturned(news: seq<Store.News>, after: seq<Store.News>, posted: seq<Store.News>, j: nat)
    requires j < |news|
    requires forall i, k :: 0 <= i < k < |news| ==> news[i].id != news[k].id
    requires forall n :: n in posted ==> n in news
    requires MarksOnly(news, after, posted)
    ensures after[j] == if news[j] in posted then news[j].(posted := true) else news[j]
  {
    var x := news[j];
    if x in posted {
      FindNewsBefore(news, x.id, j);
      assert Store.FindNews(news, x.id) == j;
    } else {
      forall k | 0 <= k < |posted| ensures Ids(posted)[k] != x.id {
        assert posted[k] in posted;
        var i :| 0 <= i < |news| && news[i] == posted[k];
        assert i != j;
      }
    }
  }

  /** Marking the ids of stored items marks exactly those items. */
  lemma MarkAllMarksOnly(db: Store.Db, posted: seq<Store.News>)
    requires forall n :: n in posted ==> n in db.news
    ensures MarksOnly(db.news, MarkAll(db, Ids(posted)).news, posted)
  {
    var ids := Ids(posted);
    var after := MarkAll(db, ids).news;
    forall n | n in posted
      ensures Store.FindNews(db.news, n.id) < |after| && after[Store.FindNews(db.news, n.id)].posted
    {
      var j :| 0 <= j < |db.news| && db.news[j] == n;
      FindNewsBefore(db.news, n.id, j);
      var k :| 0 <= k < |posted| && posted[k] == n;
      assert ids[k] == n.id;
      MarkedWhenListed(db, ids, n.id);
    }
  }

  lemma FindNewsBefore(news: seq<Store.News>, id: string, j: nat)
    requires j < |news| && news[j].id == id
    ensures Store.FindNews(news, id) <= j
  {
  }

  // ------------------------------------------------------ the tick as written

  /** What one run of `check_scheduled_news` leaves behind: the items it
      sent, the database after marking them, and whether an exception ended
      the run early. The single `try` around the guild loop swallows it. */
  datatype TickRun = TickRun(posted: seq<Store.News>, db: Store.Db, raised: bool)

  /** An item the source compares with `now` although its time carries no
      offset: comparing a naive with an aware datetime raises TypeError. */
  predicate RaisesOn(n: Store.News) {
    !n.posted && n.scheduledFor.Some? && !n.scheduledFor.value.aware
  }

  /** The position of the first item that raises, or `|items|` if none does. */
  function FirstRaise(items: seq<Store.News>): (k: nat)
    ensures k <= |items|
    ensures forall i :: 0 <= i < k ==> !RaisesOn(items[i])
    ensures k < |items| ==> RaisesOn(items[k])
  {
    if |items| == 0 || RaisesOn(items[0]) then 0 else 1 + FirstRaise(items[1..])
  }

  /** The item loop of the source over the `get_news` snapshot. Posted and
      unscheduled items are skipped. A naive time raises, ending the loop.
      A due item is sent and marked posted if the channel was found. So the
      items before the first naive one are handled as the corrected tick
      handles them, and nothing after it is. */
  function PostScheduledAsWritten(db: Store.Db, items: seq<Store.News>, channelFound: bool, now: int): (r: TickRun)
    ensures r.raised <==> FirstRaise(items) < |items|
    ensures r.posted == if channelFound then DueNews(items[..FirstRaise(items)], now) else []
    ensures r.db == MarkAll(db, Ids(r.posted))
    decreases |items|
  {
    if |items| == 0 then TickRun([], db, false)
    else
      var n := items[0];
      var k := FirstRaise(items);
      if n.posted || n.scheduledFor.None? then
        var rest := PostScheduledAsWritten(db, items[1..], channelFound, now);
        assert items[..k] == [n] + items[1..][..k - 1];
        rest
      else if !n.scheduledFor.value.aware then
        assert items[..k] == [];
        TickRun([], db, true)
      else if n.scheduledFor.value.seconds <= now && channelFound then
        var db1 := Store.MarkNewsPosted(db, n.id).1;
        var rest := PostScheduledAsWritten(db1, items[1..], channelFound, now);
        assert items[..k] == [n] + items[1..][..k - 1];
        assert Ids([n] + rest.posted)[1..] == Ids(rest.posted);
        TickRun([n] + rest.posted, rest.db, rest.raised)
      else
        var rest := PostScheduledAsWritten(db, items[1..], channelFound, now);
        assert items[..k] == [n] + items[1..][..k - 1];
        rest
  }

  /** One guild of `check_scheduled_news` as written. The tick raises
      exactly when an unposted, scheduled item among `get_news` has a time
      without an offset. It raises whether or not the channel is found,
      because the comparison comes first. When it does not raise, it does
      what the corrected NewsTick does. */
  function NewsTickAsWritten(db: Store.Db, guild: string, channelFound: bool, now: int): (r: TickRun)
    ensures !FieldTruthy(ConfigOf(db, guild), "news_channel") ==> !r.raised && r.posted == []
    ensures FieldTruthy(ConfigOf(db, guild), "news_channel") ==>
              (r.raised <==> exists n :: n in Store.GetNews(db, guild) && RaisesOn(n))
    ensures !r.raised ==> (r.posted, r.db) == NewsTick(db, guild, channelFound, now)
    ensures forall n :: n in r.posted ==> n in db.news && n.guildId == guild
  {
    var (config, db1) := Store.GetGuildConfig(db, guild);
    if !FieldTruthy(config, "news_channel") then TickRun([], db1, false)
    else
      assert db1.news == db.news && db1.users == db.users;
      var items := Store.GetNews(db1, guild);
      assert items == Store.GetNews(db, guild);
      var r := PostScheduledAsWritten(db1, items, channelFound, now);
      var k := FirstRaise(items);
      if k < |items| then
        assert items[k] in items;
        r
      else
        assert items[..k] == items;
        r
  }

  /** The whole run as written. `guilds` lists `bot.guilds` in order, each
      with whether its news channel is found. The first exception ends the
      run, so no later guild is looked at. */
  function TickAsWritten(db: Store.Db, guilds: seq<(string, bool)>, now: int): (r: TickRun)
    decreases |guilds|
  {
    if |guilds| == 0 then TickRun([], db, false)
    else
      var t := NewsTickAsWritten(db, guilds[0].0, guilds[0].1, now);
      if t.raised then t
      else
        var rest := TickAsWritten(t.db, guilds[1..], now);
        TickRun(t.posted + rest.posted, rest.db, rest.raised)
  }

  /** The corrected run: NewsTick for every guild in turn. */
  function Tick(db: Store.Db, guilds: seq<(string, bool)>, now: int): (r: (seq<Store.News>, Store.Db))
    ensures forall n :: n in r.0 ==> exists g :: g in guilds && n.guildId == g.0
    decreases |guilds|
  {
    if |guilds| == 0 then ([], db)
    else
      var (posted, db1) := NewsTick(db, guilds[0].0, guilds[0].1, now);
      var rest := Tick(db1, guilds[1..], now);
      assert forall g :: g in guilds[1..] ==> g in guilds;
      (posted + rest.0, rest.1)
  }

  /** No stored item that is still waiting has a time without an offset. */
  predicate NoNaiveWaiting(news: seq<Store.News>) {
    forall i :: 0 <= i < |news| ==> !RaisesOn(news[i])
  }

  /** Marking items posted never makes a waiting item naive. */
  lemma MarkingKeepsNoNaive(before: seq<Store.News>, after: seq<Store.News>, posted: seq<Store.News>)
    requires NoNaiveWaiting(before) && MarksOnly(before, after, posted)
    ensures NoNaiveWaiting(after)
  {
    forall i | 0 <= i < |after| ensures !RaisesOn(after[i]) {
      assert !RaisesOn(before[i]);
    }
  }

  /** One guild: without naive waiting items its tick as written does not
      raise, agrees with NewsTick, and leaves no naive waiting item behind. */
  lemma GuildTickWithoutNaive(db: Store.Db, guild: string, found: bool, now: int)
    requires NoNaiveWaiting(db.news)
    ensures var t := NewsTickAsWritten(db, guild, found, now);
            && !t.raised && (t.posted, t.db) == NewsTick(db, guild, found, now)
            && NoNaiveWaiting(t.db.news)
  {
    if FieldTruthy(ConfigOf(db, guild), "news_channel") {
      forall n | n in Store.GetNews(db, guild) ensures !RaisesOn(n) {
        var i :| 0 <= i < |db.news| && db.news[i] == n;
      }
    }
    var (posted, db1) := NewsTick(db, guild, found, now);
    MarkingKeepsNoNaive(db.news, db1.news, posted);
  }

  /** When no waiting item anywhere has a time without an offset, the run
      as written never raises and posts exactly what the corrected run
      posts, guild after guild. */
  lemma {:induction false} TickAgreesWithoutNaive(db: Store.Db, guilds: seq<(string, bool)>, now: int)
    requires NoNaiveWaiting(db.news)
    ensures var r := TickAsWritten(db, guilds, now);
            !r.raised && (r.posted, r.db) == Tick(db, guilds, now)
    decreases |guilds|
  {
    if |guilds| > 0 {
      GuildTickWithoutNaive(db, guilds[0].0, guilds[0].1, now);
      TickAgreesWithoutNaive(NewsTick(db, guilds[0].0, guilds[0].1, now).1, guilds[1..], now);
    }
  }

  /** A guild whose tick raises ends the run. Everything the run posted
      belongs to that guild, and no later guild gets anything. */
  lemma AbortSkipsLaterGuilds(db: Store.Db, guilds: seq<(string, bool)>, now: int)
    requires |guilds| > 0 && NewsTickAsWritten(db, guilds[0].0, guilds[0].1, now).raised
    ensures var r := TickAsWritten(db, guilds, now);
            r.raised && forall n :: n in r.posted ==> n.guildId == guilds[0].0
  {
  }

  /** The dashboard's schedule is never honoured. A waiting item with a
      time from the `datetime-local` input, long due, is not posted by the
      source. The corrected tick posts it. */
  lemma NaiveScheduleNeverPosted(db: Store.Db)
    ensures var n := Store.News("n1", "g1", "Update", "Text", Some(Store.Stamp(0, false)), None, 0, false);
            var r := PostScheduledAsWritten(db, [n], true, 60);
            && r.raised && r.posted == [] && r.db == db
            && DueNews([n], 60) == [n]
  {
    var n := Store.News("n1", "g1", "Update", "Text", Some(Store.Stamp(0, false)), None, 0, false);
    assert FirstRaise([n]) == 0;
    assert [n][..0] == [];
    assert [n][1..] == [];
  }
}

=== FILE: envfile.dfy ===
/** The `.env` rewrite inside `configure_bot` (backend/server.py): the file is
    parsed into an insertion-ordered dictionary, the two tokens are
    overridden when given, and the dictionary is written back. */
module EnvFile {
  import opened Wrappers
  import Text

  /** A Python dictionary from names to values, in insertion order. */
  type Entries = seq<(string, string)>

  predicate DistinctKeys(d: Entries) {
    forall i, j :: 0 <= i < j < |d| ==> d[i].0 != d[j].0
  }

  /** `d.get(k)`. */
  function Get(d: Entries, k: string): (r: Option<string>)
    ensures r.None? <==> forall i :: 0 <= i < |d| ==> d[i].0 != k
    ensures r.Some? ==> (k, r.value) in d
  {
    if |d| == 0 then None else if d[0].0 == k then Some(d[0].1) else Get(d[1..], k)
  }

  /** `d[k] = v`: an existing key keeps its place, a new key goes last. */
  function Put(d: Entries, k: string, v: string): (r: Entries)
    ensures Get(r, k) == Some(v)
    ensures forall k2 :: k2 != k ==> Get(r, k2) == Get(d, k2)
    ensures forall x :: x in r ==> x.0 == k || x in d
    ensures Get(d, k).None? ==> r == d + [(k, v)]
    ensures Get(d, k).Some? ==> |r| == |d|
  {
    if |d| == 0 then [(k, v)]
    else if d[0].0 == k then [(k, v)] + d[1..]
    else
      var rest := Put(d[1..], k, v);
      assert d == [d[0]] + d[1..];
      PutConsGet(d[0], d[1..], k, v, rest);
      PutConsMembers(d[0], d[1..], k, rest);
      PutConsShape(d[0], d[1..], k, v, rest);
      [d[0]] + rest
  }

  /** Lookups past a first entry with another key: what holds of the tail
      holds of the whole. */
  lemma PutConsGet(h: (string, string), tail: Entries, k: string, v: string, rest: Entries)
    requires h.0 != k
    requires Get(rest, k) == Some(v)
    requires forall k2 :: k2 != k ==> Get(rest, k2) == Get(tail, k2)
    ensures Get([h] + rest, k) == Some(v)
    ensures forall k2 :: k2 != k ==> Get([h] + rest, k2) == Get([h] + tail, k2)
  {
    GetCons(h, rest);
    GetCons(h, tail);
  }

  /** The entries of the result past a first entry: the new one or old ones. */
  lemma PutConsMembers(h: (string, string), tail: Entries, k: string, rest: Entries)
    requires forall x :: x in rest ==> x.0 == k || x in tail
    ensures forall x :: x in [h] + rest ==> x.0 == k || x in [h] + tail
  {
  }

  /** The shape of the result past a first entry with another key. */
  lemma PutConsShape(h: (string, string), tail: Entries, k: string, v: string, rest: Entries)
    requires h.0 != k
    requires Get(tail, k).None? ==> rest == tail + [(k, v)]
    requires Get(tail, k).Some? ==> |rest| == |tail|
    ensures Get([h] + tail, k).None? ==> [h] + rest == [h] + tail + [(k, v)]
    ensures Get([h] + tail, k).Some? ==> |[h] + rest| == |[h] + tail|
  {
    GetCons(h, tail);
    assert Get([h] + tail, k) == Get(tail, k);
    if Get(tail, k).None? {
      assert [h] + (tail + [(k, v)]) == [h] + tail + [(k, v)];
    }
  }

  /** Looking up in a dictionary with one entry in front. */
  lemma GetCons(h: (string, string), rest: Entries)
    ensures forall k :: Get([h] + rest, k) == if h.0 == k then Some(h.1) else Get(rest, k)
  {
    assert ([h] + rest)[1..] == rest;
  }

  /** Assignment keeps the names distinct. */
  lemma {:induction false} PutDistinct(d: Entries, k: string, v: string)
    requires DistinctKeys(d)
    ensures DistinctKeys(Put(d, k, v))
    decreases |d|
  {
    if |d| > 0 && d[0].0 != k {
      var tail := d[1..];
      TailDistinct(d);
      PutDistinct(tail, k, v);
      var rest := Put(tail, k, v);
      forall x | x in rest ensures x.0 != d[0].0 {
        if x.0 != k {
          var j :| 0 <= j < |tail| && tail[j] == x;
          assert d[1 + j] == x;
        }
      }
      ConsDistinct(d[0], rest);
    }
  }

  lemma TailDistinct(d: Entries)
    requires |d| > 0 && DistinctKeys(d)
    ensures DistinctKeys(d[1..])
  {
    var tail := d[1..];
    forall i, j | 0 <= i < j < |tail| ensures tail[i].0 != tail[j].0 {
      assert tail[i] == d[i + 1] && tail[j] == d[j + 1];
    }
  }

  /** An entry whose name the dictionary lacks can go in front of it. */
  lemma ConsDistinct(h: (string, string), rest: Entries)
    requires DistinctKeys(rest) && forall x :: x in rest ==> x.0 != h.0
    ensures DistinctKeys([h] + rest)
  {
    var r := [h] + rest;
    forall i, j | 0 <= i < j < |r| ensures r[i].0 != r[j].0 {
      assert r[j] == rest[j - 1];
      if i > 0 { assert r[i] == rest[i - 1]; }
    }
  }

  // ---------------------------------------------------------------- parse

  /** One line: an entry when it holds `=` and is no `#` comment; the name is
      the stripped text before the first `=`, the value the stripped rest
      without surrounding double quotes. */
  function ParseLine(line: string): (r: Option<(string, string)>)
    ensures r.Some? <==> '=' in line && !Text.StartsWith(line, "#")
    ensures r.Some? ==>
              var (before, after) := Text.SplitFirst(line, '=').value;
              r.value == (Text.Strip(before), Text.StripQuotes(Text.Strip(after)))
  {
    if '=' in line && !Text.StartsWith(line, "#") then
      var (before, after) := Text.SplitFirst(line, '=').value;
      assert line == before + "=" + after;
      Some((Text.Strip(before), Text.StripQuotes(Text.Strip(after))))
    else None
  }

  /** The loop over the lines, later names overwriting earlier ones. */
  function ParseLines(lines: seq<string>, acc: Entries): Entries
    decreases |lines|
  {
    if |lines| == 0 then acc
    else
      match ParseLine(lines[0])
      case None => ParseLines(lines[1..], acc)
      case Some((k, v)) => ParseLines(lines[1..], Put(acc, k, v))
  }

  /** `env_content.strip().split('\n')`, or no lines for blank content. */
  function Lines(content: string): seq<string> {
    var s := Text.Strip(content);
    if s == "" then [] else Text.SplitOn(s, '\n')
  }

  function Parse(content: string): Entries {
    ParseLines(Lines(content), [])
  }

  /** Blank content parses to an empty dictionary. */
  lemma ParseBlank(content: string)
    requires Text.Strip(content) == ""
    ensures Parse(content) == []
  {
  }

  /** Parsing one more line is a dictionary assignment, or nothing for a
      line without an entry: the last line naming a key wins. */
  lemma {:induction false} ParseLinesAppend(lines: seq<string>, line: string, acc: Entries)
    ensures ParseLine(line).None? ==> ParseLines(lines + [line], acc) == ParseLines(lines, acc)
    ensures ParseLine(line).Some? ==>
              ParseLines(lines + [line], acc)
              == Put(ParseLines(lines, acc), ParseLine(line).value.0, ParseLine(line).value.1)
    decreases |lines|
  {
    if |lines| == 0 {
      assert lines + [line] == [line];
    } else {
      assert (lines + [line])[1..] == lines[1..] + [line];
      match ParseLine(lines[0])
      case None => ParseLinesAppend(lines[1..], line, acc);
      case Some((k, v)) => ParseLinesAppend(lines[1..], line, Put(acc, k, v));
    }
  }

  lemma {:induction false} ParseLinesDistinct(lines: seq<string>, acc: Entries)
    requires DistinctKeys(acc)
    ensures DistinctKeys(ParseLines(lines, acc))
    decreases |lines|
  {
    if |lines| > 0 {
      match ParseLine(lines[0])
      case None => ParseLinesDistinct(lines[1..], acc);
      case Some((k, v)) =>
        PutDistinct(acc, k, v);
        ParseLinesDistinct(lines[1..], Put(acc, k, v));
    }
  }

  /** A parsed file never names a key twice. */
  lemma ParseDistinct(content: string)
    ensures DistinctKeys(Parse(content))
  {
    ParseLinesDistinct(Lines(content), []);
  }

  // ------------------------------------------------------------ serialise

  function RenderLine(e: (string, string)): string {
    e.0 + "=\"" + e.1 + "\""
  }

  function RenderLines(d: Entries): (r: seq<string>)
    ensures |r| == |d| && forall i :: 0 <= i < |d| ==> r[i] == RenderLine(d[i])
  {
    if |d| == 0 then [] else [RenderLine(d[0])] + RenderLines(d[1..])
  }

  /** `'\n'.join(f'{k}="{v}"' for k, v in env_dict.items())`. */
  function Serialize(d: Entries): string {
    Text.JoinWith(RenderLines(d), '\n')
  }

  /** An entry the file format can carry: the name has no `=`, no line break,
      no surrounding whitespace and does not start a comment; the value has no
      line break and no double quote at either end. */
  predicate Writable(e: (string, string)) {
    var (k, v) := e;
    && '=' !in k && '\n' !in k && '\n' !in v
    && (|k| == 0 || (k[0] != '#' && !Text.IsSpace(k[0]) && !Text.IsSpace(k[|k| - 1])))
    && (|v| == 0 || (!Text.IsQuote(v[0]) && !Text.IsQuote(v[|v| - 1])))
  }

  lemma CountWhileExact(s: string, p: char -> bool, n: nat)
    requires n <= |s| && (forall i :: 0 <= i < n ==> p(s[i])) && (n == |s| || !p(s[n]))
    ensures Text.CountWhile(s, p) == n
  {
  }

  lemma CountWhileEndExact(s: string, p: char -> bool, n: nat)
    requires n <= |s| && (forall i :: |s| - n <= i < |s| ==> p(s[i])) && (n == |s| || !p(s[|s| - n - 1]))
    ensures Text.CountWhileEnd(s, p) == n
  {
  }

  /** `'"v"'.strip('"')` gives back `v` when `v` has no quote at either end. */
  lemma StripQuotesWrapped(v: string)
    requires |v| == 0 || (!Text.IsQuote(v[0]) && !Text.IsQuote(v[|v| - 1]))
    ensures Text.StripQuotes("\"" + v + "\"") == v
  {
    var s := "\"" + v + "\"";
    if |v| == 0 {
      CountWhileExact(s, Text.IsQuote, 2);
      assert Text.DropWhile(s, Text.IsQuote) == "";
    } else {
      CountWhileExact(s, Text.IsQuote, 1);
      var t := Text.DropWhile(s, Text.IsQuote);
      assert t == v + "\"";
      CountWhileEndExact(t, Text.IsQuote, 1);
      assert t[..|t| - 1] == v;
    }
  }

  /** The first `c` of `b + [c] + a` is the one after `b` when `b` has none. */
  lemma IndexOfSplit(b: string, a: string, c: char)
    requires c !in b
    ensures Text.IndexOf(b + [c] + a, c) == |b|
  {
    var s := b + [c] + a;
    assert s[|b|] == c;
    assert forall j :: 0 <= j < |b| ==> s[j] == b[j];
  }

  /** Two splits of one string at the first occurrence of `c` agree. */
  lemma FirstSplitUnique(b1: string, a1: string, b2: string, a2: string, c: char)
    requires b1 + [c] + a1 == b2 + [c] + a2
    requires c !in b1 && c !in b2
    ensures b1 == b2 && a1 == a2
  {
    var s := b1 + [c] + a1;
    IndexOfSplit(b1, a1, c);
    IndexOfSplit(b2, a2, c);
    assert b1 == s[..|b1|] && b2 == s[..|b2|];
    assert a1 == s[|b1| + 1..] && a2 == s[|b2| + 1..];
  }

  /** A written line reads back as the entry it came from. */
  lemma ParseRenderLine(e: (string, string))
    requires Writable(e)
    ensures ParseLine(RenderLine(e)) == Some(e)
  {
    var (k, v) := e;
    var line := RenderLine(e);
    var quoted := "\"" + v + "\"";
    assert line == k + "=" + quoted;
    assert line[|k|] == '=';
    assert '=' in line;
    assert !Text.StartsWith(line, "#") by {
      if |k| > 0 { assert line[0] == k[0]; } else { assert line[0] == '='; }
    }
    var (before, after) := Text.SplitFirst(line, '=').value;
    FirstSplitUnique(before, after, k, quoted, '=');
    Text.StripByIdentity(k, Text.IsSpace);
    Text.StripByIdentity(quoted, Text.IsSpace);
    StripQuotesWrapped(v);
  }

  lemma DistinctNextAbsent(acc: Entries, d: Entries)
    requires |d| > 0 && DistinctKeys(acc + d)
    ensures Get(acc, d[0].0).None?
  {
    var s := acc + d;
    forall i | 0 <= i < |acc| ensures acc[i].0 != d[0].0 {
      assert s[i] == acc[i] && s[|acc|] == d[0];
    }
  }

  /** The first written line becomes the next entry of the dictionary. */
  lemma ParseFirstRendered(d: Entries, acc: Entries)
    requires |d| > 0 && Writable(d[0]) && Get(acc, d[0].0).None?
    ensures ParseLines(RenderLines(d), acc) == ParseLines(RenderLines(d[1..]), acc + [d[0]])
  {
    var lines := RenderLines(d);
    ParseRenderLine(d[0]);
    assert lines[0] == RenderLine(d[0]);
    assert lines[1..] == RenderLines(d[1..]);
  }

  lemma {:induction false} ParseRenderedLines(d: Entries, acc: Entries)
    requires forall i :: 0 <= i < |d| ==> Writable(d[i])
    requires DistinctKeys(acc + d)
    ensures ParseLines(RenderLines(d), acc) == acc + d
    decreases |d|
  {
    if |d| > 0 {
      DistinctNextAbsent(acc, d);
      ParseFirstRendered(d, acc);
      ShiftHead(acc, d);
      ParseRenderedLines(d[1..], acc + [d[0]]);
    }
  }

  /** Moving the next entry onto the accumulator keeps the whole sequence. */
  lemma ShiftHead(acc: Entries, d: Entries)
    requires |d| > 0
    ensures (acc + [d[0]]) + d[1..] == acc + d
  {
    assert [d[0]] + d[1..] == d;
  }

  lemma {:induction false} JoinEnds(parts: seq<string>, sep: char)
    requires |parts| > 0 && forall i :: 0 <= i < |parts| ==> |parts[i]| > 0
    ensures var s := Text.JoinWith(parts, sep);
            |s| > 0 && s[0] == parts[0][0] && s[|s| - 1] == parts[|parts| - 1][|parts[|parts| - 1]| - 1]
    decreases |parts|
  {
    if |parts| > 1 {
      JoinEnds(parts[1..], sep);
    }
  }

  /** Writing a dictionary of writable entries and reading it back gives the
      same dictionary, in the same order. */
  lemma RoundTrip(d: Entries)
    requires DistinctKeys(d)
    requires forall i :: 0 <= i < |d| ==> Writable(d[i])
    ensures Parse(Serialize(d)) == d
  {
    if |d| > 0 {
      LinesOfSerialize(d);
      assert [] + d == d;
      ParseRenderedLines(d, []);
    }
  }

  /** A written file splits back into the lines it was joined from. */
  lemma LinesOfSerialize(d: Entries)
    requires |d| > 0 && forall i :: 0 <= i < |d| ==> Writable(d[i])
    ensures Lines(Serialize(d)) == RenderLines(d)
  {
    var lines := RenderLines(d);
    SerializeIsStripped(d);
    forall k | 0 <= k < |lines| ensures '\n' !in lines[k] {
      RenderLineIsOneLine(d[k]);
    }
    Text.SplitJoin(lines, '\n');
  }

  lemma RenderLineIsOneLine(e: (string, string))
    requires Writable(e)
    ensures '\n' !in RenderLine(e)
  {
    var line := RenderLine(e);
    assert forall i :: 0 <= i < |line| ==> line[i] in e.0 || line[i] in e.1 || line[i] in "=\"";
  }

  /** A written file has no whitespace to strip at either end. */
  lemma SerializeIsStripped(d: Entries)
    requires |d| > 0 && forall i :: 0 <= i < |d| ==> Writable(d[i])
    ensures Serialize(d) != "" && Text.Strip(Serialize(d)) == Serialize(d)
  {
    var lines := RenderLines(d);
    var content := Serialize(d);
    var last := lines[|lines| - 1];
    assert last == RenderLine(d[|d| - 1]);
    assert last[|last| - 1] == '"';
    assert lines[0] == RenderLine(d[0]);
    assert !Text.IsSpace(lines[0][0]) by {
      if |d[0].0| > 0 { assert lines[0][0] == d[0].0[0]; } else { assert lines[0][0] == '='; }
    }
    JoinEnds(lines, '\n');
    Text.StripByIdentity(content, Text.IsSpace);
  }

  // ------------------------------------------------------------ configure

  /** The override step: each token replaces the stored one only when given
      (non-empty). */
  function Configure(d: Entries, discordToken: string, openAiKey: string): (r: Entries)
    ensures Get(r, "DISCORD_BOT_TOKEN") == if discordToken != "" then Some(discordToken) else Get(d, "DISCORD_BOT_TOKEN")
    ensures Get(r, "OPENAI_API_KEY") == if openAiKey != "" then Some(openAiKey) else Get(d, "OPENAI_API_KEY")
    ensures forall k :: k != "DISCORD_BOT_TOKEN" && k != "OPENAI_API_KEY" ==> Get(r, k) == Get(d, k)
  {
    var d1 := if discordToken != "" then Put(d, "DISCORD_BOT_TOKEN", discordToken) else d;
    if openAiKey != "" then Put(d1, "OPENAI_API_KEY", openAiKey) else d1
  }

  /** The rewritten dictionary still names each key once. */
  lemma ConfigureDistinct(d: Entries, discordToken: string, openAiKey: string)
    requires DistinctKeys(d)
    ensures DistinctKeys(Configure(d, discordToken, openAiKey))
  {
    PutDistinct(d, "DISCORD_BOT_TOKEN", discordToken);
    var d1 := if discordToken != "" then Put(d, "DISCORD_BOT_TOKEN", discordToken) else d;
    PutDistinct(d1, "OPENAI_API_KEY", openAiKey);
  }

  /** `configure_bot`'s whole transform of the file's text. */
  function ConfigureFile(content: string, discordToken: string, openAiKey: string): string {
    Serialize(Configure(Parse(content), discordToken, openAiKey))
  }

  /** Configuring without tokens rewrites a file in the written format to itself. */
  lemma ConfigureNothingKeepsFile(d: Entries)
    requires DistinctKeys(d)
    requires forall i :: 0 <= i < |d| ==> Writable(d[i])
    ensures ConfigureFile(Serialize(d), "", "") == Serialize(d)
  {
    RoundTrip(d);
  }
}

=== FILE: layout.dfy ===
/** frontend/src/components/DashboardLayout.jsx: the sidebar entries, which
    entry is highlighted for the current path, and the header title. */
module Layout {
  import Text

  /** A sidebar entry: its route and its label. */
  datatype NavItem = NavItem(path: string, caption: string)

  /** The entries every user sees, in sidebar order. */
  const NavItems: seq<NavItem> := [
    NavItem("/", "Dashboard"),
    NavItem("/moderation", "Moderation"),
    NavItem("/permissions", "Berechtigungen"),
    NavItem("/temp-channels", "Temp Kanäle"),
    NavItem("/reaction-roles", "Reaction Roles"),
    NavItem("/games", "Spiele"),
    NavItem("/tickets", "Tickets"),
    NavItem("/leveling", "Leveling"),
    NavItem("/welcome", "Willkommen"),
    NavItem("/commands", "Commands"),
    NavItem("/ai", "KI Chat"),
    NavItem("/news", "News"),
    NavItem("/settings", "Einstellungen")
  ]

  /** The entries only administrators see. */
  const AdminNavItems: seq<NavItem> := [NavItem("/users", "Benutzer")]

  /** `allNavItems`: the administrator entries follow the common ones exactly
      when the signed-in user is an administrator. */
  function AllNavItems(isAdmin: bool): (r: seq<NavItem>)
    ensures |NavItems| <= |r|
    ensures r[..|NavItems|] == NavItems
    ensures isAdmin ==> r[|NavItems|..] == AdminNavItems
    ensures !isAdmin ==> |r| == |NavItems|
    ensures forall x :: x in AdminNavItems ==> (x in r <==> isAdmin)
  {
    if isAdmin then
      assert (NavItems + AdminNavItems)[..|NavItems|] == NavItems;
      assert (NavItems + AdminNavItems)[|NavItems|..] == AdminNavItems;
      NavItems + AdminNavItems
    else NavItems
  }

  /** `isActive`: the root entry only on the root itself; any other entry on
      its own path and every path below it. */
  predicate IsActive(pathname: string, itemPath: string) {
    pathname == itemPath || (itemPath != "/" && Text.StartsWith(pathname, itemPath))
  }

  /** The root entry is highlighted on `/` and nowhere else. */
  lemma RootOnlyOnRoot(pathname: string)
    ensures IsActive(pathname, "/") <==> pathname == "/"
  {
  }

  /** Each route of the sidebar highlights exactly its own entry. */
  lemma OneEntryPerRoute(isAdmin: bool, i: nat, j: nat)
    requires i < |AllNavItems(isAdmin)| && j < |AllNavItems(isAdmin)|
    ensures IsActive(AllNavItems(isAdmin)[i].path, AllNavItems(isAdmin)[j].path) <==> i == j
  {
    var items := NavItems + AdminNavItems;
    assert AllNavItems(isAdmin) == items[..|AllNavItems(isAdmin)|];
    assert items[i] == AllNavItems(isAdmin)[i] && items[j] == AllNavItems(isAdmin)[j];
    NoPathIsAnotherPrefix(i, j);
  }

  /** The two letters after the slash of each non-root route; no two agree. */
  const Tags: seq<string> := ["mo", "pe", "te", "re", "ga", "ti", "le", "we", "co", "ai", "ne", "se", "us"]

  lemma TagsDistinct(a: nat, b: nat)
    requires a < b < |Tags|
    ensures Tags[a] != Tags[b]
  {
    assert Tags[a][0] != Tags[b][0] || Tags[a][1] != Tags[b][1];
  }

  /** Every non-root route is longer than two letters and starts with its tag. */
  lemma PathHasTag(k: nat)
    requires 0 < k < 14
    ensures var path := (NavItems + AdminNavItems)[k].path;
            |path| >= 3 && path[1..3] == Tags[k - 1]
  {
    var items := NavItems + AdminNavItems;
    var path := items[k].path;
    assert path == if k < 13 then NavItems[k].path else "/users";
    assert |path| >= 3;
    assert path[1] == Tags[k - 1][0] && path[2] == Tags[k - 1][1];
    SecondAndThird(path, Tags[k - 1]);
  }

  lemma SecondAndThird(s: string, t: string)
    requires |s| >= 3 && |t| == 2 && s[1] == t[0] && s[2] == t[1]
    ensures s[1..3] == t
  {
  }

  /** Two paths whose second and third characters differ are neither equal
      nor a prefix of one another. */
  lemma TagsSeparate(p: string, q: string)
    requires |p| >= 3 && |q| >= 3 && p[1..3] != q[1..3]
    ensures p != q && !Text.StartsWith(p, q)
  {
    if |q| <= |p| {
      assert p[..|q|][1..3] == p[1..3];
      assert p[..|q|] != q;
    }
  }

  /** No route of the sidebar is another's prefix. */
  lemma NoPathIsAnotherPrefix(i: nat, j: nat)
    requires i < 14 && j < 14
    ensures var items := NavItems + AdminNavItems;
            IsActive(items[i].path, items[j].path) <==> i == j
  {
    var items := NavItems + AdminNavItems;
    var p, q := items[i].path, items[j].path;
    assert items[0].path == "/";
    if i != j {
      if j == 0 {
        PathHasTag(i);
        assert |p| >= 3;
        assert p != "/";
      } else if i == 0 {
        PathHasTag(j);
        assert |q| >= 3 && |p| == 1;
        assert !Text.StartsWith(p, q);
      } else {
        PathHasTag(i);
        PathHasTag(j);
        if i < j { TagsDistinct(i - 1, j - 1); } else { TagsDistinct(j - 1, i - 1); }
        assert p[1..3] != q[1..3];
        TagsSeparate(p, q);
      }
    }
  }

  /** The index of the first highlighted entry; `|items|` when none is. */
  function FirstActive(items: seq<NavItem>, pathname: string): (i: nat)
    ensures i <= |items|
    ensures i < |items| ==> IsActive(pathname, items[i].path)
    ensures forall j :: 0 <= j < i ==> !IsActive(pathname, items[j].path)
  {
    if |items| == 0 then 0
    else if IsActive(pathname, items[0].path) then 0
    else 1 + FirstActive(items[1..], pathname)
  }

  /** The header: the label of the first highlighted entry, or "Dashboard"
      when there is none (or its label is empty). */
  function HeaderTitle(items: seq<NavItem>, pathname: string): (r: string)
    ensures (forall j :: 0 <= j < |items| ==> !IsActive(pathname, items[j].path)) ==> r == "Dashboard"
    ensures (exists j :: 0 <= j < |items| && IsActive(pathname, items[j].path)) ==>
              var i := FirstActive(items, pathname);
              r == if items[i].caption != "" then items[i].caption else "Dashboard"
  {
    var i := FirstActive(items, pathname);
    if i < |items| && items[i].caption != "" then items[i].caption else "Dashboard"
  }

  /** On each sidebar route the header shows that entry's label; below a
      route (`/tickets/42`) it shows the route's label. */
  lemma HeaderNamesTheRoute(isAdmin: bool, i: nat, rest: string)
    requires i < |AllNavItems(isAdmin)| && i != 0
    ensures HeaderTitle(AllNavItems(isAdmin), AllNavItems(isAdmin)[i].path + rest) == AllNavItems(isAdmin)[i].caption
  {
    var items := AllNavItems(isAdmin);
    var p := items[i].path + rest;
    assert Text.StartsWith(p, items[i].path);
    FirstActiveAtMost(items, p, i);
    var k := FirstActive(items, p);
    if k < i {
      OneEntryPrefix(isAdmin, k, i, rest);
    }
    assert k == i;
    CaptionsNonEmpty(isAdmin, i);
  }

  lemma FirstActiveAtMost(items: seq<NavItem>, pathname: string, i: nat)
    requires i < |items| && IsActive(pathname, items[i].path)
    ensures FirstActive(items, pathname) <= i
  {
  }

  /** Every sidebar entry has a label. */
  lemma CaptionsNonEmpty(isAdmin: bool, i: nat)
    requires i < |AllNavItems(isAdmin)|
    ensures AllNavItems(isAdmin)[i].caption != ""
  {
    var items := NavItems + AdminNavItems;
    assert AllNavItems(isAdmin)[i] == items[i];
  }

  /** No other entry is highlighted below a non-root route. */
  lemma OneEntryPrefix(isAdmin: bool, k: nat, i: nat, rest: string)
    requires k < i < |AllNavItems(isAdmin)| && i != 0
    ensures !IsActive(AllNavItems(isAdmin)[i].path + rest, AllNavItems(isAdmin)[k].path)
  {
    var items := NavItems + AdminNavItems;
    assert AllNavItems(isAdmin) == items[..|AllNavItems(isAdmin)|];
    assert items[i] == AllNavItems(isAdmin)[i] && items[k] == AllNavItems(isAdmin)[k];
    NoPathIsAnotherPrefix(i, k);
    NoPathIsAnotherPrefix(k, i);
    var a, b := items[k].path, items[i].path;
    if k != 0 && Text.StartsWith(b + rest, a) && |a| <= |b| {
      assert (b + rest)[..|a|] == b[..|a|];
      assert Text.StartsWith(b, a);
    }
  }
}

=== FILE: leveling.dfy ===
/** The cumulative XP curve of backend/discord_bot.py: `xp_for_level` and the
    `calculate_level` loop. */
module Leveling {

  function Pow(b: nat, e: nat): (r: nat)
    ensures b > 0 ==> r > 0
  {
    if e == 0 then 1 else b * Pow(b, e - 1)
  }

  lemma {:induction false} PowMonotoneBase(e: nat)
    ensures Pow(10, e) <= Pow(11, e)
  {
    if e > 0 {
      PowMonotoneBase(e - 1);
    }
  }

  /** The XP needed to climb from level `i` to level `i + 1`: the source's
      `int(100 * 1.1 ** i)`, here with exact rational arithmetic
      (`100 * 11^i / 10^i`, rounded down). Only `Req(i) >= 100` and `Req(0) == 100`
      are used by the proofs. */
  function Req(i: nat): (r: nat)
    ensures r >= 100
    ensures i == 0 ==> r == 100
  {
    PowMonotoneBase(i);
    var num, den := 100 * Pow(11, i), Pow(10, i);
    assert num >= 100 * den;
    DivAtLeast(num, den, 100);
    num / den
  }

  lemma {:induction false} MulMonotone(c: nat, a: nat, b: nat)
    requires a <= b
    ensures c * a <= c * b
    decreases c
  {
    if c > 0 {
      MulMonotone(c - 1, a, b);
      assert c * a == (c - 1) * a + a;
      assert c * b == (c - 1) * b + b;
    }
  }

  lemma DivAtLeast(x: nat, d: nat, q: nat)
    requires d > 0 && x >= q * d
    ensures x / d >= q
  {
    var k := x / d;
    assert x == d * k + x % d;
    if k < q {
      MulMonotone(d, k, q - 1);
    }
  }

  /** `xp_for_level(level)`: the total XP at which `level` is reached; `range`
      of a negative number is empty, so levels below 0 need nothing. */
  function XpForLevel(level: int): nat
    decreases if level < 0 then 0 else level
  {
    if level <= 0 then 0 else XpForLevel(level - 1) + Req(level - 1)
  }

  /** The curve grows by at least 100 XP per level, so it is strictly increasing. */
  lemma {:induction false} XpForLevelGrows(a: nat, b: nat)
    requires a <= b
    ensures XpForLevel(a) + 100 * (b - a) <= XpForLevel(b)
    decreases b - a
  {
    if a < b {
      XpForLevelGrows(a, b - 1);
    }
  }

  lemma XpForLevelStrictlyIncreasing(a: nat, b: nat)
    requires a < b
    ensures XpForLevel(a) < XpForLevel(b)
  {
    XpForLevelGrows(a, b);
  }

  /** One iteration of the `calculate_level` loop, as a recursive function:
      `total` is the XP of `level` and the loop stops at the first level whose
      successor costs more than `xp`. */
  function Climb(xp: int, level: nat, total: nat): (r: nat)
    requires total == XpForLevel(level)
    requires level == 0 || total <= xp
    ensures r >= level
    ensures r == 0 || XpForLevel(r) <= xp
    ensures xp < XpForLevel(r + 1)
    decreases xp - total
  {
    var required := Req(level);
    if total + required <= xp then Climb(xp, level + 1, total + required) else level
  }

  /** `calculate_level(xp)`. */
  function CalculateLevel(xp: int): (level: nat)
    ensures level == 0 || XpForLevel(level) <= xp
    ensures xp < XpForLevel(level + 1)
  {
    Climb(xp, 0, 0)
  }

  /** The source's `while` loop, step for step. */
  method CalculateLevelLoop(xp: int) returns (level: nat)
    ensures level == CalculateLevel(xp)
    ensures level == 0 || XpForLevel(level) <= xp
    ensures xp < XpForLevel(level + 1)
  {
    level := 0;
    var required := 100;
    var total := 0;
    while total + required <= xp
      invariant total == XpForLevel(level)
      invariant required == Req(level)
      invariant level == 0 || total <= xp
      invariant Climb(xp, level, total) == CalculateLevel(xp)
      decreases xp - total
    {
      total := total + required;
      level := level + 1;
      required := Req(level);
    }
  }

  /** The bracketing level is unique: whenever `xp` lies in
      `[XpForLevel(L), XpForLevel(L + 1))`, `calculate_level` returns `L`. */
  lemma CalculateLevelUnique(xp: int, l: nat)
    requires XpForLevel(l) <= xp < XpForLevel(l + 1)
    ensures CalculateLevel(xp) == l
  {
    var r := CalculateLevel(xp);
    if r < l {
      XpForLevelGrows(r + 1, l);
    } else if r > l {
      XpForLevelGrows(l + 1, r);
    }
  }

  /** More XP never means a lower level. */
  lemma CalculateLevelMonotone(xp1: int, xp2: int)
    requires xp1 <= xp2
    ensures CalculateLevel(xp1) <= CalculateLevel(xp2)
  {
    var r1, r2 := CalculateLevel(xp1), CalculateLevel(xp2);
    if r1 > r2 {
      XpForLevelGrows(r2 + 1, r1);
    }
  }

  /** Fewer than 100 XP is level 0. */
  lemma CalculateLevelBelowFirstStep(xp: int)
    requires xp < 100
    ensures CalculateLevel(xp) == 0
  {
  }

  /** The first thresholds: 100 XP reach level 1 and 210 XP level 2. */
  lemma FirstThresholds()
    ensures CalculateLevel(99) == 0
    ensures CalculateLevel(100) == 1 && CalculateLevel(209) == 1
    ensures CalculateLevel(210) == 2
  {
    assert Req(1) == 110;
    assert XpForLevel(1) == 100;
    assert XpForLevel(2) == 210;
    assert Req(2) == 121;
    assert XpForLevel(3) == 331;
    CalculateLevelBelowFirstStep(99);
    CalculateLevelUnique(100, 1);
    CalculateLevelUnique(209, 1);
    CalculateLevelUnique(210, 2);
  }

  /** The `rank` progress bar: XP gained inside the current level and XP the
      level spans. */
  datatype Progress = Progress(progress: int, needed: int)

  function RankProgress(level: int, xp: int): Progress {
    Progress(xp - XpForLevel(level), XpForLevel(level + 1) - XpForLevel(level))
  }

  /** When the stored level is the one the curve assigns, the progress bar is
      never negative and never full, and a level spans at least 100 XP. */
  lemma RankProgressBounded(xp: int)
    requires xp >= 0
    ensures var p := RankProgress(CalculateLevel(xp), xp);
            0 <= p.progress < p.needed && p.needed >= 100
  {
  }
}

=== FILE: moderation_page.dfy ===
/** frontend/src/pages/Moderation.jsx: the warning list's search and its
    grouping by user, and the moderation settings it saves. */
module ModerationPage {
  import opened Values
  import SeqOps
  import Text
  import Store
  import Server

  // ---------------------------------------------------------------- search

  /** `filteredWarnings`: every warning for an empty search, otherwise those
      whose user id contains the search text, in list order. */
  function FilterWarnings(ws: seq<Store.Warning>, term: string): (r: seq<Store.Warning>)
    ensures term == "" ==> r == ws
    ensures term != "" ==> forall w :: w in r <==> w in ws && Text.Contains(w.userId, term)
    ensures |r| <= |ws|
  {
    if term == "" then ws else SeqOps.Filter(ws, (w: Store.Warning) => Text.Contains(w.userId, term))
  }

  /** The search keeps list order: it distributes over concatenation. */
  lemma FilterWarningsConcat(a: seq<Store.Warning>, b: seq<Store.Warning>, term: string)
    ensures FilterWarnings(a + b, term) == FilterWarnings(a, term) + FilterWarnings(b, term)
  {
    if term != "" {
      SeqOps.FilterConcat(a, b, (w: Store.Warning) => Text.Contains(w.userId, term));
    }
  }

  // -------------------------------------------------------------- grouping

  /** `warningsByUser` as an association list in first-appearance order. */
  type Groups = seq<(string, seq<Store.Warning>)>

  function ByUser(user: string): Store.Warning -> bool {
    (w: Store.Warning) => w.userId == user
  }

  /** The index of the group for `user`; `|gs|` when there is none. */
  function KeyIndex(gs: Groups, user: string): (i: nat)
    ensures i <= |gs|
    ensures i < |gs| ==> gs[i].0 == user
    ensures forall j :: 0 <= j < i ==> gs[j].0 != user
  {
    if |gs| == 0 then 0 else if gs[0].0 == user then 0 else 1 + KeyIndex(gs[1..], user)
  }

  predicate DistinctKeys(gs: Groups) {
    forall i, j :: 0 <= i < j < |gs| ==> gs[i].0 != gs[j].0
  }

  /** The number of warnings in all groups together. */
  function Total(gs: Groups): nat {
    if |gs| == 0 then 0 else |gs[0].1| + Total(gs[1..])
  }

  lemma {:induction false} TotalAppend(gs: Groups, g: (string, seq<Store.Warning>))
    ensures Total(gs + [g]) == Total(gs) + |g.1|
    decreases |gs|
  {
    if |gs| > 0 {
      assert (gs + [g])[1..] == gs[1..] + [g];
      TotalAppend(gs[1..], g);
    }
  }

  lemma {:induction false} TotalUpdate(gs: Groups, i: nat, g: (string, seq<Store.Warning>))
    requires i < |gs|
    ensures Total(gs[i := g]) == Total(gs) - |gs[i].1| + |g.1|
    decreases |gs|
  {
    if i > 0 {
      assert gs[i := g][1..] == gs[1..][i - 1 := g];
      TotalUpdate(gs[1..], i - 1, g);
    }
  }

  /** What the grouping promises about the warnings `ws` it has consumed:
      keys are distinct, each group is exactly its user's warnings in list
      order, every warning's user has a group, and the sizes add up. */
  predicate GroupsOf(gs: Groups, ws: seq<Store.Warning>) {
    && DistinctKeys(gs)
    && (forall i :: 0 <= i < |gs| ==> gs[i].1 == SeqOps.Filter(ws, ByUser(gs[i].0)) && |gs[i].1| > 0)
    && (forall w :: w in ws ==> KeyIndex(gs, w.userId) < |gs|)
    && Total(gs) == |ws|
  }

  /** One `reduce` step: push onto the user's group, creating it when new. */
  function AddToGroups(gs: Groups, w: Store.Warning): Groups {
    var i := KeyIndex(gs, w.userId);
    if i < |gs| then gs[i := (w.userId, gs[i].1 + [w])] else gs + [(w.userId, [w])]
  }

  /** Filtering a list with one more warning at the end. */
  lemma FilterSnoc(ws: seq<Store.Warning>, w: Store.Warning, user: string)
    ensures SeqOps.Filter(ws + [w], ByUser(user))
            == SeqOps.Filter(ws, ByUser(user)) + (if w.userId == user then [w] else [])
  {
    SeqOps.FilterConcat(ws, [w], ByUser(user));
    assert [w][1..] == [];
  }

  /** A reduce step keeps the grouping promise. */
  lemma AddToGroupsStep(gs: Groups, ws: seq<Store.Warning>, w: Store.Warning)
    requires GroupsOf(gs, ws)
    ensures GroupsOf(AddToGroups(gs, w), ws + [w])
  {
    StepGroupsExact(gs, ws, w);
    StepDistinct(gs, ws, w);
    StepCovers(gs, ws, w);
    StepTotal(gs, ws, w);
  }

  /** After a step every group is still exactly its user's warnings. */
  lemma StepGroupsExact(gs: Groups, ws: seq<Store.Warning>, w: Store.Warning)
    requires GroupsOf(gs, ws)
    ensures var gs', ws' := AddToGroups(gs, w), ws + [w];
            forall j :: 0 <= j < |gs'| ==> gs'[j].1 == SeqOps.Filter(ws', ByUser(gs'[j].0)) && |gs'[j].1| > 0
  {
    var ws' := ws + [w];
    var gs' := AddToGroups(gs, w);
    var i := KeyIndex(gs, w.userId);
    forall j | 0 <= j < |gs'|
      ensures gs'[j].1 == SeqOps.Filter(ws', ByUser(gs'[j].0)) && |gs'[j].1| > 0
    {
      FilterSnoc(ws, w, gs'[j].0);
      if j < |gs| && j != i {
        assert gs'[j] == gs[j];
        assert gs[j].0 != w.userId by {
          if j < i { } else { assert gs[i].0 == w.userId; }
        }
      } else if i == |gs| {
        assert j == |gs| && gs'[j] == (w.userId, [w]);
        forall x | x in ws ensures !ByUser(w.userId)(x) {
          var k := KeyIndex(gs, x.userId);
          assert gs[k].0 == x.userId;
        }
        SeqOps.FilterNone(ws, ByUser(w.userId));
      }
    }
  }

  /** A step never creates a second group for a user. */
  lemma StepDistinct(gs: Groups, ws: seq<Store.Warning>, w: Store.Warning)
    requires GroupsOf(gs, ws)
    ensures DistinctKeys(AddToGroups(gs, w))
  {
    var gs' := AddToGroups(gs, w);
    var i := KeyIndex(gs, w.userId);
    if i == |gs| {
      forall a, b | 0 <= a < b < |gs'| ensures gs'[a].0 != gs'[b].0 {
        if b < |gs| { assert gs'[a] == gs[a] && gs'[b] == gs[b]; }
      }
    } else {
      forall a, b | 0 <= a < b < |gs'| ensures gs'[a].0 != gs'[b].0 {
        assert gs'[a].0 == gs[a].0 && gs'[b].0 == gs[b].0;
      }
    }
  }

  /** After a step every warning, the new one included, has its group. */
  lemma StepCovers(gs: Groups, ws: seq<Store.Warning>, w: Store.Warning)
    requires GroupsOf(gs, ws)
    ensures var gs' := AddToGroups(gs, w);
            forall x :: x in ws + [w] ==> KeyIndex(gs', x.userId) < |gs'|
  {
    var gs' := AddToGroups(gs, w);
    var i := KeyIndex(gs, w.userId);
    forall x | x in ws + [w] ensures KeyIndex(gs', x.userId) < |gs'| {
      if x != w {
        assert x in ws;
        var k := KeyIndex(gs, x.userId);
        assert gs'[k].0 == x.userId;
      } else {
        if i < |gs| { assert gs'[i].0 == w.userId; } else { assert gs'[|gs|].0 == w.userId; }
      }
    }
  }

  /** A step adds exactly one warning to the total. */
  lemma StepTotal(gs: Groups, ws: seq<Store.Warning>, w: Store.Warning)
    requires GroupsOf(gs, ws)
    ensures Total(AddToGroups(gs, w)) == |ws| + 1
  {
    var i := KeyIndex(gs, w.userId);
    if i < |gs| {
      TotalUpdate(gs, i, (w.userId, gs[i].1 + [w]));
    } else {
      TotalAppend(gs, (w.userId, [w]));
    }
  }

  /** `filteredWarnings.reduce(...)`, one warning at a time from the front. */
  function GroupByUser(ws: seq<Store.Warning>): Groups
    decreases |ws|
  {
    if |ws| == 0 then [] else AddToGroups(GroupByUser(ws[..|ws| - 1]), ws[|ws| - 1])
  }

  /** Every warning lands in exactly its user's group, groups keep list
      order, and the sizes add up to the number of warnings. */
  lemma {:induction false} GroupByUserGroups(ws: seq<Store.Warning>)
    ensures GroupsOf(GroupByUser(ws), ws)
    decreases |ws|
  {
    if |ws| > 0 {
      var init, last := ws[..|ws| - 1], ws[|ws| - 1];
      assert ws == init + [last];
      assert GroupByUser(ws) == AddToGroups(GroupByUser(init), last);
      GroupByUserGroups(init);
      AddToGroupsStep(GroupByUser(init), init, last);
    }
  }

  /** The groups the page shows under a search are those of the matching
      warnings: a group is the user's matching warnings, in list order. */
  lemma GroupsOfSearch(ws: seq<Store.Warning>, term: string, i: nat)
    requires i < |GroupByUser(FilterWarnings(ws, term))|
    ensures var g := GroupByUser(FilterWarnings(ws, term))[i];
            && |g.1| > 0
            && (term != "" ==> Text.Contains(g.0, term))
            && (forall w :: w in g.1 <==> w in ws && w.userId == g.0 && (term == "" || Text.Contains(w.userId, term)))
  {
    GroupByUserGroups(FilterWarnings(ws, term));
    var g := GroupByUser(FilterWarnings(ws, term))[i];
    var x := g.1[0];
    assert x in g.1;
  }

  // ---------------------------------------------------------------- saving

  const ModerationKeys: set<string> := {"mod_log_channel", "warn_threshold", "warn_action"}

  /** `saveConfig`'s body: the three moderation settings the page holds
      (an absent one is left out of the JSON). */
  function SavePayload(config: Doc): (r: Doc)
    ensures r.Keys <= ModerationKeys
    ensures forall k :: k in ModerationKeys && k in config ==> k in r && r[k] == config[k]
  {
    map k | k in config && k in ModerationKeys :: config[k]
  }

  /** Saving the moderation page changes no stored setting besides the three. */
  lemma SaveTouchesOnlyModeration(db: Store.Db, guild: string, config: Doc, key: string)
    requires guild in db.guilds && key in db.guilds[guild] && key !in ModerationKeys
    ensures var db1 := Server.UpdateGuild(db, guild, SavePayload(config)).1;
            key in db1.guilds[guild] && db1.guilds[guild][key] == db.guilds[guild][key]
  {
  }
}

=== FILE: permissions_page.dfy ===
/** frontend/src/pages/Permissions.jsx: the admin and moderator role lists and
    the per-command role toggles. */
module PermissionsPage {
  import opened Wrappers
  import opened Values
  import SeqOps
  import Store
  import Server

  /** The page's copy of the guild's permission settings. */
  datatype PermConfig = PermConfig(adminRoles: seq<string>, modRoles: seq<string>,
                                   commandPermissions: map<string, seq<string>>)

  /** Which list an add or remove button edits. */
  datatype RoleList = AdminRoles | ModRoles

  /** The page state: the settings and the two role-id inputs. */
  datatype Page = Page(config: PermConfig, newAdminRole: string, newModRole: string)

  function Roles(c: PermConfig, which: RoleList): seq<string> {
    if which == AdminRoles then c.adminRoles else c.modRoles
  }

  function Input(p: Page, which: RoleList): string {
    if which == AdminRoles then p.newAdminRole else p.newModRole
  }

  function Other(which: RoleList): RoleList {
    if which == AdminRoles then ModRoles else AdminRoles
  }

  const DuplicateRole := "Rolle bereits hinzugefügt"

  /** `addRole`: an empty input does nothing; a listed role is refused with a
      notice; otherwise the role is appended to the chosen list and that
      input is cleared. The second component is the error notice shown. */
  function AddRole(p: Page, which: RoleList): (r: (Page, Option<string>))
    ensures Input(p, which) == "" ==> r == (p, None)
    ensures Input(p, which) != "" && Input(p, which) in Roles(p.config, which) ==> r == (p, Some(DuplicateRole))
    ensures Input(p, which) != "" && Input(p, which) !in Roles(p.config, which) ==>
              && r.1.None?
              && Roles(r.0.config, which) == Roles(p.config, which) + [Input(p, which)]
              && Roles(r.0.config, Other(which)) == Roles(p.config, Other(which))
              && r.0.config.commandPermissions == p.config.commandPermissions
              && Input(r.0, which) == "" && Input(r.0, Other(which)) == Input(p, Other(which))
  {
    var roleId := Input(p, which);
    if roleId == "" then (p, None)
    else match SeqOps.AppendNew(Roles(p.config, which), roleId)
      case None => (p, Some(DuplicateRole))
      case Some(roles) =>
        if which == AdminRoles then (p.(config := p.config.(adminRoles := roles), newAdminRole := ""), None)
        else (p.(config := p.config.(modRoles := roles), newModRole := ""), None)
  }

  /** `removeRole`: every copy of the id leaves the chosen list, the rest keep
      their order, and nothing else changes. */
  function RemoveRole(p: Page, which: RoleList, roleId: string): (r: Page)
    ensures roleId !in Roles(r.config, which)
    ensures forall x :: x in Roles(r.config, which) <==> x in Roles(p.config, which) && x != roleId
    ensures Roles(r.config, Other(which)) == Roles(p.config, Other(which))
    ensures r.config.commandPermissions == p.config.commandPermissions
    ensures r.newAdminRole == p.newAdminRole && r.newModRole == p.newModRole
  {
    SeqOps.RemoveAllMembers(Roles(p.config, which), roleId);
    var roles := SeqOps.RemoveAll(Roles(p.config, which), roleId);
    if which == AdminRoles then p.(config := p.config.(adminRoles := roles))
    else p.(config := p.config.(modRoles := roles))
  }

  /** Adding a new role and removing it again restores the settings. */
  lemma AddThenRemoveRole(p: Page, which: RoleList)
    requires Input(p, which) != "" && Input(p, which) !in Roles(p.config, which)
    ensures RemoveRole(AddRole(p, which).0, which, Input(p, which)).config == p.config
  {
    SeqOps.AppendNewThenRemove(Roles(p.config, which), Input(p, which));
  }

  /** The role lists stay free of duplicates under adding. */
  lemma AddRoleKeepsNoDups(p: Page, which: RoleList)
    requires SeqOps.NoDups(p.config.adminRoles) && SeqOps.NoDups(p.config.modRoles)
    ensures var q := AddRole(p, which).0;
            SeqOps.NoDups(q.config.adminRoles) && SeqOps.NoDups(q.config.modRoles)
  {
    SeqOps.AppendNewNoDups(Roles(p.config, which), Input(p, which));
  }

  /** The body of `PUT /guilds/{id}/permissions`. */
  datatype PermissionRequest = PermissionRequest(command: string, roleIds: seq<string>)

  /** `config.command_permissions[command] || []`: a missing entry is empty. */
  function CurrentRoles(c: PermConfig, command: string): seq<string> {
    if command in c.commandPermissions then c.commandPermissions[command] else []
  }

  /** `updateCommandPermission`: the role is toggled in the command's list and
      sent; the page's copy changes only when the server accepted it. */
  function UpdateCommandPermission(c: PermConfig, command: string, roleId: string, accepted: bool): (r: (PermConfig, PermissionRequest))
    ensures r.1.command == command
    ensures roleId in CurrentRoles(c, command) ==>
              roleId !in r.1.roleIds && forall x :: x != roleId ==> (x in r.1.roleIds <==> x in CurrentRoles(c, command))
    ensures roleId !in CurrentRoles(c, command) ==> r.1.roleIds == CurrentRoles(c, command) + [roleId]
    ensures accepted ==> r.0 == c.(commandPermissions := c.commandPermissions[command := r.1.roleIds])
    ensures !accepted ==> r.0 == c
  {
    var roles := SeqOps.Toggle(CurrentRoles(c, command), roleId);
    var request := PermissionRequest(command, roles);
    if accepted then (c.(commandPermissions := c.commandPermissions[command := roles]), request)
    else (c, request)
  }

  /** Toggling a role on and off again restores the command's list. */
  lemma ToggleOnAndOff(c: PermConfig, command: string, roleId: string)
    requires roleId !in CurrentRoles(c, command)
    ensures var c1 := UpdateCommandPermission(c, command, roleId, true).0;
            UpdateCommandPermission(c1, command, roleId, true).0
            == c.(commandPermissions := c.commandPermissions[command := CurrentRoles(c, command)])
  {
    SeqOps.ToggleTwiceAbsent(CurrentRoles(c, command), roleId);
  }

  /** The page and the server agree: when the page's permissions are the
      server's, they are again after the server applies the page's request. */
  lemma PageAgreesWithServer(db: Store.Db, guild: string, c: PermConfig, command: string, roleId: string)
    requires c.commandPermissions == Server.Permissions(Store.GetGuildConfig(db, guild).0)
    ensures var (c1, request) := UpdateCommandPermission(c, command, roleId, true);
            var db1 := Server.UpdatePermissions(db, guild, request.command, request.roleIds);
            c1.commandPermissions == Server.Permissions(Store.GetGuildConfig(db1, guild).0)
  {
    var (c1, request) := UpdateCommandPermission(c, command, roleId, true);
    var db1 := Server.UpdatePermissions(db, guild, request.command, request.roleIds);
    Store.GetGuildConfigStable(db1, guild);
  }
}

=== FILE: reaction_roles_page.dfy ===
/** frontend/src/pages/ReactionRoles.jsx: the draft of a reaction-role
    message, its role slots and the check before it is created. */
module ReactionRolesPage {
  import opened Wrappers
  import SeqOps

  /** One emoji-to-role slot of the draft. */
  datatype Slot = Slot(emoji: string, roleId: string, caption: string)

  /** The draft message (`newRR`). */
  datatype Draft = Draft(title: string, description: string, channelId: string,
                         kind: string, roles: seq<Slot>, color: string)

  const EmptySlot := Slot("", "", "")

  /** The draft the dialog opens with and returns to after creation. */
  const NewDraft := Draft("", "", "", "button", [EmptySlot], "#5865F2")

  /** The most slots one message may carry. */
  const MaxSlots := 10

  /** `addRoleSlot`: refused with a notice at ten slots; otherwise one empty
      slot is appended and nothing else changes. */
  function AddRoleSlot(d: Draft): (r: (Draft, Option<string>))
    ensures |d.roles| >= MaxSlots ==> r == (d, Some("Maximal 10 Rollen pro Nachricht"))
    ensures |d.roles| < MaxSlots ==> r.1.None? && r.0 == d.(roles := d.roles + [EmptySlot])
  {
    if |d.roles| >= MaxSlots then (d, Some("Maximal 10 Rollen pro Nachricht"))
    else (d.(roles := d.roles + [EmptySlot]), None)
  }

  /** `removeRoleSlot(i)`: exactly slot `i` goes, the others keep their order. */
  function RemoveRoleSlot(d: Draft, i: int): (r: Draft)
    ensures 0 <= i < |d.roles| ==> |r.roles| == |d.roles| - 1
    ensures 0 <= i < |d.roles| ==> forall j :: 0 <= j < |r.roles| ==> r.roles[j] == d.roles[if j < i then j else j + 1]
    ensures !(0 <= i < |d.roles|) ==> r == d
    ensures r == d.(roles := r.roles)
  {
    d.(roles := SeqOps.RemoveAt(d.roles, i))
  }

  /** Adding and removing slots never takes a draft of at most ten slots past ten. */
  lemma SlotsStayCapped(d: Draft, i: int)
    requires |d.roles| <= MaxSlots
    ensures |AddRoleSlot(d).0.roles| <= MaxSlots
    ensures |RemoveRoleSlot(d, i).roles| <= MaxSlots
  {
  }

  /** Removing the slot just added gives the draft back. */
  lemma AddThenRemoveSlot(d: Draft)
    requires |d.roles| < MaxSlots
    ensures RemoveRoleSlot(AddRoleSlot(d).0, |d.roles|) == d
  {
    assert (d.roles + [EmptySlot])[..|d.roles|] == d.roles;
  }

  predicate Complete(s: Slot) { s.emoji != "" && s.roleId != "" }

  /** `validRoles`: the slots with both an emoji and a role, in slot order. */
  function ValidRoles(slots: seq<Slot>): (r: seq<Slot>)
    ensures forall s :: s in r <==> s in slots && Complete(s)
    ensures |r| <= |slots|
  {
    SeqOps.Filter(slots, (s: Slot) => Complete(s))
  }

  /** `createReactionRole`: refused when the title, the channel or the slots
      are missing, then when no slot is complete; otherwise the draft is sent
      with only its complete slots. */
  function CreateReactionRole(d: Draft): (r: Result<Draft, string>)
    ensures r.Ok? <==> d.title != "" && d.channelId != "" && exists s :: s in d.roles && Complete(s)
    ensures (d.title == "" || d.channelId == "" || |d.roles| == 0) ==>
              r == Err("Bitte fülle alle Pflichtfelder aus")
    ensures r.Ok? ==> r.value == d.(roles := r.value.roles)
    ensures r.Ok? ==> |r.value.roles| > 0 && forall s :: s in r.value.roles <==> s in d.roles && Complete(s)
  {
    if d.title == "" || d.channelId == "" || |d.roles| == 0 then Err("Bitte fülle alle Pflichtfelder aus")
    else
      var valid := ValidRoles(d.roles);
      if |valid| == 0 then Err("Mindestens eine Rolle mit Emoji und Rollen-ID benötigt")
      else assert valid[0] in valid; Ok(d.(roles := valid))
  }

  /** The fresh draft cannot be submitted as it is. */
  lemma NewDraftIsRefused()
    ensures CreateReactionRole(NewDraft) == Err("Bitte fülle alle Pflichtfelder aus")
  {
  }

  /** Submitting the payload again changes nothing: it is already clean. */
  lemma CreateIdempotent(d: Draft)
    requires CreateReactionRole(d).Ok?
    ensures CreateReactionRole(CreateReactionRole(d).value) == CreateReactionRole(d)
  {
    var p := CreateReactionRole(d).value;
    var s :| s in p.roles;
    assert s in d.roles && Complete(s);
    FilterAllKept(p.roles);
  }

  /** Filtering a list of complete slots keeps it whole. */
  lemma {:induction false} FilterAllKept(slots: seq<Slot>)
    requires forall s :: s in slots ==> Complete(s)
    ensures ValidRoles(slots) == slots
    decreases |slots|
  {
    if |slots| > 0 {
      assert forall s :: s in slots[1..] ==> s in slots;
      FilterAllKept(slots[1..]);
    }
  }
}

=== FILE: selector.dfy ===
/** frontend/src/components/ServerDataSelector.jsx: the dropdown that picks
    roles, channels, categories or emojis, alone or several at once. */
module Selector {
  import opened Wrappers
  import SeqOps
  import Text

  /** One role, channel, category or emoji as `/server-data` lists it;
      `kind` is a channel's type (`"text"`, `"voice"`). */
  datatype Entry = Entry(id: string, name: string, kind: string)

  /** The `/server-data` answer; each list may be missing. */
  datatype ServerData = ServerData(roles: Option<seq<Entry>>, channels: Option<seq<Entry>>,
                                   categories: Option<seq<Entry>>, emojis: Option<seq<Entry>>)

  /** A dropdown entry; only the plain `channel` list keeps the channel type. */
  datatype Item = Item(id: string, name: string, kind: Option<string>)

  /** The component's `value`: missing, one id (`""` when cleared), or an id list. */
  datatype SelValue = Absent | One(id: string) | Many(ids: seq<string>)

  function Plain(e: Entry): Item { Item(e.id, e.name, None) }

  /** `list.map(...)` without the type. */
  function PlainAll(es: seq<Entry>): (r: seq<Item>)
    ensures |r| == |es|
    ensures forall i :: 0 <= i < |es| ==> r[i] == Plain(es[i])
  {
    if |es| == 0 then [] else [Plain(es[0])] + PlainAll(es[1..])
  }

  /** `channels.filter(c => c.type === kind).map(...)`. */
  function OfType(es: seq<Entry>, kind: string): (r: seq<Item>)
    ensures |r| <= |es|
  {
    if |es| == 0 then []
    else (if es[0].kind == kind then [Plain(es[0])] else []) + OfType(es[1..], kind)
  }

  /** An item is offered exactly when some entry of that type produces it. */
  lemma {:induction false} OfTypeMembers(es: seq<Entry>, kind: string, x: Item)
    ensures x in OfType(es, kind) <==> exists e :: e in es && e.kind == kind && x == Plain(e)
    decreases |es|
  {
    if |es| > 0 {
      OfTypeMembers(es[1..], kind, x);
      assert es == [es[0]] + es[1..];
      if x in OfType(es[1..], kind) {
        var e :| e in es[1..] && e.kind == kind && x == Plain(e);
        assert e in es;
      }
    }
  }

  /** Filtering channels keeps their order: it distributes over concatenation. */
  lemma {:induction false} OfTypeConcat(a: seq<Entry>, b: seq<Entry>, kind: string)
    ensures OfType(a + b, kind) == OfType(a, kind) + OfType(b, kind)
    decreases |a|
  {
    if |a| == 0 {
      assert a + b == b;
    } else {
      assert (a + b)[0] == a[0];
      assert (a + b)[1..] == a[1..] + b;
      OfTypeConcat(a[1..], b, kind);
      var head := if a[0].kind == kind then [Plain(a[0])] else [];
      assert OfType(a + b, kind) == head + OfType(a[1..] + b, kind);
      assert OfType(a, kind) == head + OfType(a[1..], kind);
    }
  }

  /** The `items` memo: nothing before the data has arrived or for an unknown
      type; text and voice channels are the channels of that type. */
  function ItemsFor(data: Option<ServerData>, kind: string): (r: seq<Item>)
    ensures data.None? ==> r == []
    ensures data.Some? && kind == "text_channel" ==> r == OfType(data.value.channels.GetOr([]), "text")
    ensures data.Some? && kind == "voice_channel" ==> r == OfType(data.value.channels.GetOr([]), "voice")
    ensures data.Some? && kind == "role" ==> r == PlainAll(data.value.roles.GetOr([]))
    ensures data.Some? && kind == "channel" ==>
              && |r| == |data.value.channels.GetOr([])|
              && (forall i :: 0 <= i < |r| ==>
                    var c := data.value.channels.GetOr([])[i];
                    r[i] == Item(c.id, c.name, Some(c.kind)))
    ensures data.Some? && kind == "category" ==> r == PlainAll(data.value.categories.GetOr([]))
    ensures data.Some? && kind == "emoji" ==> r == PlainAll(data.value.emojis.GetOr([]))
    ensures kind !in {"role", "channel", "text_channel", "voice_channel", "category", "emoji"} ==> r == []
  {
    match data
    case None => []
    case Some(d) =>
      if kind == "role" then PlainAll(d.roles.GetOr([]))
      else if kind == "channel" then
        var cs := d.channels.GetOr([]);
        seq(|cs|, i requires 0 <= i < |cs| => Item(cs[i].id, cs[i].name, Some(cs[i].kind)))
      else if kind == "text_channel" then OfType(d.channels.GetOr([]), "text")
      else if kind == "voice_channel" then OfType(d.channels.GetOr([]), "voice")
      else if kind == "category" then PlainAll(d.categories.GetOr([]))
      else if kind == "emoji" then PlainAll(d.emojis.GetOr([]))
      else []
  }

  /** When channel ids are unique, no item is offered both as a text channel
      and as a voice channel. */
  lemma TextAndVoiceDisjoint(d: ServerData, x: Item)
    requires var cs := d.channels.GetOr([]);
             forall i, j :: 0 <= i < j < |cs| ==> cs[i].id != cs[j].id
    requires x in ItemsFor(Some(d), "text_channel")
    ensures x !in ItemsFor(Some(d), "voice_channel")
  {
    var cs := d.channels.GetOr([]);
    OfTypeMembers(cs, "text", x);
    OfTypeMembers(cs, "voice", x);
    var e :| e in cs && e.kind == "text" && x == Plain(e);
    forall f | f in cs && f.kind == "voice" ensures Plain(f) != x {
      var i :| 0 <= i < |cs| && cs[i] == e;
      var j :| 0 <= j < |cs| && cs[j] == f;
      assert cs[i].kind != cs[j].kind;
      assert cs[i].id != cs[j].id;
    }
  }

  /** The index of the first item with the given id; `|items|` when none. */
  function FindById(items: seq<Item>, id: string): (i: nat)
    ensures i <= |items|
    ensures i < |items| ==> items[i].id == id
    ensures forall j :: 0 <= j < i ==> items[j].id != id
  {
    if |items| == 0 then 0 else if items[0].id == id then 0 else 1 + FindById(items[1..], id)
  }

  /** `selectedItem`: nothing for an empty value; otherwise the first item
      with that id. An id list never matches (`===` against an array). */
  function SelectedItem(items: seq<Item>, value: SelValue): (r: Option<Item>)
    ensures r.Some? <==> value.One? && value.id != "" && exists j :: 0 <= j < |items| && items[j].id == value.id
    ensures r.Some? ==> r.value == items[FindById(items, value.id)] && r.value.id == value.id
  {
    match value
    case One(id) =>
      if id == "" then None
      else
        var i := FindById(items, id);
        if i < |items| then Some(items[i]) else None
    case _ => None
  }

  /** `selectedItems`: in multiple mode, the items whose id is listed, in item order. */
  function SelectedItems(items: seq<Item>, value: SelValue, multiple: bool): (r: seq<Item>)
    ensures !multiple || !value.Many? ==> r == []
    ensures multiple && value.Many? ==> forall x :: x in r <==> x in items && x.id in value.ids
    ensures |r| <= |items|
  {
    if !multiple || !value.Many? then []
    else SeqOps.Filter(items, (x: Item) => x.id in value.ids)
  }

  /** `handleSelect`: several at once toggles the id in the list (a missing
      list counts as empty); one at a time clears the current id and sets any
      other. */
  function HandleSelect(value: SelValue, multiple: bool, id: string): (r: SelValue)
    ensures multiple ==> r.Many?
    ensures multiple && value.Many? && id in value.ids ==>
              id !in r.ids && forall x :: x != id ==> (x in r.ids <==> x in value.ids)
    ensures multiple && value.Many? && id !in value.ids ==> r.ids == value.ids + [id]
    ensures multiple && !value.Many? ==> r == Many([id])
    ensures !multiple ==> r == (if value == One(id) then One("") else One(id))
  {
    if multiple then
      var current := if value.Many? then value.ids else [];
      Many(SeqOps.Toggle(current, id))
    else if value == One(id) then One("")
    else One(id)
  }

  /** Picking an item in multiple mode flips that item's selection and no other. */
  lemma SelectFlipsOne(items: seq<Item>, ids: seq<string>, id: string, x: Item)
    requires x in items
    ensures var after := SelectedItems(items, HandleSelect(Many(ids), true, id), true);
            x.id == id ==> (x in after <==> x !in SelectedItems(items, Many(ids), true))
    ensures var after := SelectedItems(items, HandleSelect(Many(ids), true, id), true);
            x.id != id ==> (x in after <==> x in SelectedItems(items, Many(ids), true))
  {
  }

  /** Picking the same item twice in single mode leaves nothing selected. */
  lemma SingleSelectTwiceClears(items: seq<Item>, value: SelValue, id: string)
    requires value != One(id) && id != ""
    ensures HandleSelect(HandleSelect(value, false, id), false, id) == One("")
    ensures SelectedItem(items, HandleSelect(HandleSelect(value, false, id), false, id)).None?
  {
  }

  /** `getDisplayText`. */
  function DisplayText(items: seq<Item>, value: SelValue, multiple: bool, placeholder: string): (r: string)
    ensures multiple && |SelectedItems(items, value, true)| == 0 ==> r == placeholder
    ensures multiple && |SelectedItems(items, value, true)| == 1 ==> r == SelectedItems(items, value, true)[0].name
    ensures !multiple && SelectedItem(items, value).Some? && SelectedItem(items, value).value.name != "" ==>
              r == SelectedItem(items, value).value.name
    ensures !multiple && (SelectedItem(items, value).None? || SelectedItem(items, value).value.name == "") ==>
              r == placeholder
  {
    if multiple then
      var chosen := SelectedItems(items, value, true);
      if |chosen| == 0 then placeholder
      else if |chosen| == 1 then chosen[0].name
      else Text.NatToString(|chosen|) + " ausgewählt"
    else
      match SelectedItem(items, value)
      case Some(item) => if item.name != "" then item.name else placeholder
      case None => placeholder
  }

  /** With two or more chosen, the text leads with the count in decimal digits
      followed by " ausgewählt". */
  lemma DisplayCountReadsBack(items: seq<Item>, value: SelValue, placeholder: string)
    requires |SelectedItems(items, value, true)| >= 2
    ensures var r := DisplayText(items, value, true, placeholder);
            var n := |SelectedItems(items, value, true)|;
            var digits := Text.NatToString(n);
            && r == digits + " ausgewählt"
            && Text.DecimalValue(digits) == n
  {
    Text.NatToStringRoundTrip(|SelectedItems(items, value, true)|);
  }
}

=== FILE: seqops.dfy ===
/** The array editors the dashboard pages repeat: order-preserving filter,
    membership toggle and removal at an index. */
module SeqOps {
  import opened Wrappers

  predicate NoDups<T(==)>(s: seq<T>) {
    forall i, j :: 0 <= i < j < |s| ==> s[i] != s[j]
  }

  /** JavaScript's `s.filter(keep)`. */
  function Filter<T(!new)>(s: seq<T>, keep: T -> bool): (r: seq<T>)
    ensures |r| <= |s|
    ensures forall k :: 0 <= k < |r| ==> keep(r[k])
    ensures forall x :: x in r <==> x in s && keep(x)
  {
    if |s| == 0 then []
    else (if keep(s[0]) then [s[0]] else []) + Filter(s[1..], keep)
  }

  /** Filtering keeps the relative order: it distributes over concatenation. */
  lemma {:induction false} FilterConcat<T(!new)>(a: seq<T>, b: seq<T>, keep: T -> bool)
    ensures Filter(a + b, keep) == Filter(a, keep) + Filter(b, keep)
    decreases |a|
  {
    if |a| == 0 {
      assert a + b == b;
    } else {
      assert (a + b)[1..] == a[1..] + b;
      FilterConcat(a[1..], b, keep);
    }
  }

  /** Nothing passes the filter when no element is kept. */
  lemma {:induction false} FilterNone<T(!new)>(s: seq<T>, keep: T -> bool)
    requires forall x :: x in s ==> !keep(x)
    ensures Filter(s, keep) == []
    decreases |s|
  {
    if |s| > 0 {
      assert forall x :: x in s[1..] ==> x in s;
      FilterNone(s[1..], keep);
    }
  }

  /** Filtering keeps every copy of a kept element and no copy of a dropped one. */
  lemma {:induction false} FilterCount<T(!new)>(s: seq<T>, keep: T -> bool, x: T)
    ensures multiset(Filter(s, keep))[x] == if keep(x) then multiset(s)[x] else 0
    decreases |s|
  {
    if |s| > 0 {
      FilterCount(s[1..], keep, x);
      assert s == [s[0]] + s[1..];
    }
  }

  /** JavaScript's `s.filter(x => x !== v)`. */
  function RemoveAll<T(==,!new)>(s: seq<T>, v: T): (r: seq<T>)
    ensures v !in r
    ensures |r| <= |s|
  {
    if |s| == 0 then []
    else (if s[0] == v then [] else [s[0]]) + RemoveAll(s[1..], v)
  }

  /** Removal keeps every other element. */
  lemma {:induction false} RemoveAllMembers<T(!new)>(s: seq<T>, v: T)
    ensures forall x :: x in RemoveAll(s, v) <==> x in s && x != v
    decreases |s|
  {
    if |s| > 0 {
      RemoveAllMembers(s[1..], v);
      assert s == [s[0]] + s[1..];
    }
  }

  /** Removal keeps the relative order of what remains: it distributes over
      concatenation. */
  lemma {:induction false} RemoveAllConcat<T(!new)>(a: seq<T>, b: seq<T>, v: T)
    ensures RemoveAll(a + b, v) == RemoveAll(a, v) + RemoveAll(b, v)
    decreases |a|
  {
    if |a| == 0 {
      assert a + b == b;
    } else {
      var head := if a[0] == v then [] else [a[0]];
      assert (a + b)[0] == a[0] && (a + b)[1..] == a[1..] + b;
      assert RemoveAll(a + b, v) == head + RemoveAll(a[1..] + b, v);
      assert RemoveAll(a, v) == head + RemoveAll(a[1..], v);
      RemoveAllConcat(a[1..], b, v);
      assert head + (RemoveAll(a[1..], v) + RemoveAll(b, v))
          == (head + RemoveAll(a[1..], v)) + RemoveAll(b, v);
    }
  }

  /** Removing an absent element changes nothing. */
  lemma {:induction false} RemoveAllAbsent<T(!new)>(s: seq<T>, v: T)
    requires v !in s
    ensures RemoveAll(s, v) == s
    decreases |s|
  {
    if |s| > 0 {
      RemoveAllAbsent(s[1..], v);
      assert s == [s[0]] + s[1..];
    }
  }

  /** Removing from a duplicate-free list leaves it duplicate-free. */
  lemma {:induction false} RemoveAllNoDups<T(!new)>(s: seq<T>, v: T)
    requires NoDups(s)
    ensures NoDups(RemoveAll(s, v))
    decreases |s|
  {
    if |s| > 0 {
      RemoveAllNoDups(s[1..], v);
      var rest := RemoveAll(s[1..], v);
      RemoveAllMembers(s[1..], v);
      assert s[0] !in s[1..];
      assert s[0] !in rest;
    }
  }

  /** The pages' "add unless already listed" step: `s.includes(v)` refuses,
      otherwise `[...s, v]`. */
  function AppendNew<T(==)>(s: seq<T>, v: T): (r: Option<seq<T>>)
    ensures r.None? <==> v in s
    ensures r.Some? ==> r.value == s + [v]
  {
    if v in s then None else Some(s + [v])
  }

  /** Appending only what is not yet listed keeps a list duplicate-free. */
  lemma AppendNewNoDups<T>(s: seq<T>, v: T)
    requires NoDups(s)
    ensures AppendNew(s, v).Some? ==> NoDups(AppendNew(s, v).value)
  {
    if v !in s {
      var t := s + [v];
      forall i, j | 0 <= i < j < |t| ensures t[i] != t[j] {
        if j == |s| { assert t[i] == s[i]; }
      }
    }
  }

  /** Removing what was just appended gives the list back. */
  lemma AppendNewThenRemove<T(!new)>(s: seq<T>, v: T)
    requires v !in s
    ensures RemoveAll(AppendNew(s, v).value, v) == s
  {
    RemoveAllConcat(s, [v], v);
    RemoveAllAbsent(s, v);
    assert RemoveAll([v], v) == [];
  }

  /** Toggling membership: a present element is filtered out, an absent one is
      appended at the end. */
  function Toggle<T(==,!new)>(s: seq<T>, v: T): (r: seq<T>)
    ensures v in s ==> v !in r && forall x :: x != v ==> (x in r <==> x in s)
    ensures v !in s ==> r == s + [v]
  {
    if v in s then RemoveAllMembers(s, v); RemoveAll(s, v) else s + [v]
  }

  /** Toggling twice gives back the list when the element was absent, and
      keeps the list duplicate-free. */
  lemma {:induction false} ToggleTwiceAbsent<T(!new)>(s: seq<T>, v: T)
    requires v !in s
    ensures Toggle(Toggle(s, v), v) == s
  {
    var t := s + [v];
    assert v in t;
    assert RemoveAll(t, v) == s by {
      RemoveAllConcat(s, [v], v);
      RemoveAllAbsent(s, v);
      assert RemoveAll([v], v) == [];
    }
  }

  /** Removing the one copy of `v` between two `v`-free pieces joins the pieces. */
  lemma {:induction false} RemoveAllSplit<T(!new)>(a: seq<T>, v: T, b: seq<T>)
    requires v !in a && v !in b
    ensures RemoveAll(a + [v] + b, v) == a + b
  {
    var av := a + [v];
    assert RemoveAll([v], v) == [] by {
      assert [v][1..] == [];
    }
    RemoveAllConcat(a, [v], v);
    RemoveAllAbsent(a, v);
    assert RemoveAll(av, v) == a;
    RemoveAllConcat(av, b, v);
    RemoveAllAbsent(b, v);
  }

  /** In a duplicate-free list, the element at `k` occurs neither before nor after `k`. */
  lemma NoDupsSplit<T>(s: seq<T>, k: int)
    requires NoDups(s) && 0 <= k < |s|
    ensures s[k] !in s[..k] && s[k] !in s[k + 1..]
  {
    forall j | 0 <= j < k ensures s[..k][j] != s[k] { assert s[j] != s[k]; }
    var b := s[k + 1..];
    forall j | 0 <= j < |b| ensures b[j] != s[k] { assert b[j] == s[k + 1 + j]; }
  }

  /** When the element was present in a duplicate-free list, toggling twice
      gives back the same elements (as a multiset) with it moved to the end. */
  lemma {:induction false} ToggleTwicePresent<T(!new)>(s: seq<T>, v: T)
    requires NoDups(s) && v in s
    ensures Toggle(Toggle(s, v), v) == RemoveAll(s, v) + [v]
    ensures multiset(Toggle(Toggle(s, v), v)) == multiset(s)
  {
    var k :| 0 <= k < |s| && s[k] == v;
    NoDupsSplit(s, k);
    var a, b := s[..k], s[k + 1..];
    assert s == a + [v] + b;
    RemoveAllSplit(a, v, b);
    var t := RemoveAll(s, v);
    assert Toggle(s, v) == t;
    assert Toggle(t, v) == t + [v];
    assert t + [v] == a + b + [v];
    assert multiset(a + b + [v]) == multiset(a + [v] + b);
  }

  /** Toggling twice does not in general give back the list: the element moves. */
  lemma ToggleTwiceReorders()
    ensures Toggle(Toggle(["a", "b"], "a"), "a") == ["b", "a"]
  {
    assert "a" in ["a", "b"];
    assert RemoveAll(["a", "b"], "a") == ["b"];
  }

  /** JavaScript's `s.filter((_, j) => j !== i)`: removes exactly index `i`;
      an index outside the list removes nothing. */
  function RemoveAt<T>(s: seq<T>, i: int): (r: seq<T>)
    ensures 0 <= i < |s| ==> |r| == |s| - 1
    ensures 0 <= i < |s| ==> forall j :: 0 <= j < i ==> r[j] == s[j]
    ensures 0 <= i < |s| ==> forall j :: i <= j < |r| ==> r[j] == s[j + 1]
    ensures !(0 <= i < |s|) ==> r == s
  {
    if 0 <= i < |s| then s[..i] + s[i + 1..] else s
  }
}

=== FILE: server.dfy ===
/** backend/server.py: the request handlers' decisions — the guild update
    filter, the permission update, dashboard account rules and the
    authentication gates. Tokens are checked outside the model: a handler
    receives what `verify_jwt_token` returned. */
module Server {
  import opened Wrappers
  import opened Values
  import Store

  /** An `HTTPException`. */
  datatype HttpError = HttpError(status: int, detail: string)

  // --------------------------------------------------------- update_guild

  /** The fields of `GuildConfigUpdate`: the only keys the request body can
      carry into `model_dump()`; any other key in the body is ignored when
      the body is parsed. */
  const UpdateFields: set<string> := {
    "language", "prefix", "mod_log_channel", "mute_role", "warn_threshold", "warn_action",
    "welcome_enabled", "welcome_channel", "welcome_message", "goodbye_enabled", "goodbye_message",
    "auto_roles", "leveling_enabled", "xp_per_message", "xp_cooldown", "level_up_channel",
    "level_roles", "ignored_channels", "voice_xp_enabled", "voice_xp_per_minute",
    "voice_xp_min_users", "voice_afk_channel", "temp_channels_enabled", "temp_channel_category",
    "temp_channel_creator", "ai_enabled", "ai_channel", "ai_system_prompt", "news_channel",
    "admin_roles", "mod_roles", "bot_status", "bot_activity_type", "bot_activity_text",
    "bot_embed_color", "games_enabled", "games_channel", "disabled_games", "game_cooldown",
    "max_active_games"
  }

  /** `{k: v for k, v in updates.model_dump().items() if v is not None}` on
      the parsed body: keys outside the model are gone, and only `None` is
      dropped; `False`, `0`, `""` and `[]` are sent on. */
  function DropNone(updates: Doc): (r: Doc)
    ensures forall k :: k in r <==> k in UpdateFields && k in updates && updates[k] != Null
    ensures forall k :: k in r ==> r[k] == updates[k]
  {
    map k | k in updates && k in UpdateFields && updates[k] != Null :: updates[k]
  }

  /** `PUT /guilds/{id}`. */
  function UpdateGuild(db: Store.Db, guild: string, updates: Doc): (r: (Doc, Store.Db))
    ensures guild in r.1.guilds
    ensures forall k :: k in UpdateFields && k in updates && updates[k] != Null ==>
              k in r.1.guilds[guild] && r.1.guilds[guild][k] == updates[k]
    ensures guild in db.guilds ==>
              forall k :: k in db.guilds[guild] && (k !in UpdateFields || k !in updates || updates[k] == Null) ==>
                k in r.1.guilds[guild] && r.1.guilds[guild][k] == db.guilds[guild][k]
    ensures forall g :: g in db.guilds && g != guild ==> g in r.1.guilds && r.1.guilds[g] == db.guilds[g]
    ensures r.1.users == db.users && r.1.warnings == db.warnings
    ensures r.1.commands == db.commands && r.1.news == db.news
  {
    Store.UpdateGuildConfig(db, guild, DropNone(updates))
  }

  /** The configuration returned, and read afterwards, is the one read before
      with exactly the sent, non-`None` model fields replaced. */
  lemma UpdateGuildReadsBack(db: Store.Db, guild: string, updates: Doc)
    ensures var (config, db1) := UpdateGuild(db, guild, updates);
            && config == Store.GetGuildConfig(db, guild).0 + DropNone(updates)
            && Store.GetGuildConfig(db1, guild) == (config, db1)
  {
    Store.UpdateReadsBack(db, guild, DropNone(updates));
  }

  lemma FieldLengths()
    ensures forall k | k in UpdateFields :: (|k| != 19 || k == "voice_xp_per_minute") && (|k| != 8 || k == "language")
  {
  }

  lemma IdsAreNotFields()
    ensures "command_permissions" !in UpdateFields && "guild_id" !in UpdateFields
  {
    FieldLengths();
    assert |"command_permissions"| == 19 && |"guild_id"| == 8;
    assert "command_permissions"[0] != "voice_xp_per_minute"[0];
    assert "guild_id"[0] != "language"[0];
  }

  lemma SentOmitsIds(updates: Doc)
    ensures "command_permissions" !in DropNone(updates) && "guild_id" !in DropNone(updates)
  {
    IdsAreNotFields();
  }

  lemma KeepsUnsent(before: Doc, sent: Doc)
    requires "command_permissions" !in sent && "guild_id" !in sent
    ensures Permissions(before + sent) == Permissions(before)
    ensures "guild_id" in before ==> "guild_id" in before + sent && (before + sent)["guild_id"] == before["guild_id"]
  {
  }

  /** The permission table and the guild id are not model fields: a guild
      update never changes them. */
  lemma UpdateGuildKeepsPermissions(db: Store.Db, guild: string, updates: Doc)
    ensures var config := UpdateGuild(db, guild, updates).0;
            var before := Store.GetGuildConfig(db, guild).0;
            && Permissions(config) == Permissions(before)
            && ("guild_id" in before ==> "guild_id" in config && config["guild_id"] == before["guild_id"])
  {
    UpdateGuildReadsBack(db, guild, updates);
    SentOmitsIds(updates);
    KeepsUnsent(Store.GetGuildConfig(db, guild).0, DropNone(updates));
  }

  /** A model field sent as `false` is stored as `false`, not dropped. */
  lemma FalseIsNotDropped(db: Store.Db, guild: string, key: string)
    requires key in UpdateFields
    ensures var r := UpdateGuild(db, guild, map[key := Bool(false)]);
            key in r.1.guilds[guild] && r.1.guilds[guild][key] == Bool(false)
            && key in r.0 && r.0[key] == Bool(false)
  {
    SingleFieldSent(key, Bool(false));
    Store.UpdateOneField(db, guild, key, Bool(false));
  }

  lemma SingleFieldSent(key: string, value: Value)
    requires key in UpdateFields && value != Null
    ensures DropNone(map[key := value]) == map[key := value]
  {
  }

  /** A key that is not a model field changes nothing but the upsert itself. */
  lemma UnknownFieldIgnored(db: Store.Db, guild: string, key: string, value: Value)
    requires key !in UpdateFields
    ensures UpdateGuild(db, guild, map[key := value]) == Store.UpdateGuildConfig(db, guild, map[])
  {
    assert DropNone(map[key := value]) == map[];
  }

  // --------------------------------------------------- update_permissions

  /** `config.get('command_permissions', {})`. */
  function Permissions(config: Doc): map<string, seq<string>> {
    if "command_permissions" in config && config["command_permissions"].ListMap?
    then config["command_permissions"].lists else map[]
  }

  /** `PUT /guilds/{id}/permissions`, with the permissions copied out of the
      configuration before they are changed. */
  function UpdatePermissions(db: Store.Db, guild: string, command: string, roleIds: seq<string>): (r: Store.Db)
    ensures guild in r.guilds
    ensures Permissions(Store.WithDefaults(r.guilds[guild]))
            == Permissions(Store.GetGuildConfig(db, guild).0)[command := roleIds]
    ensures forall g :: g in db.guilds && g != guild ==> g in r.guilds && r.guilds[g] == db.guilds[g]
    ensures guild in db.guilds ==>
              forall k :: k in db.guilds[guild] && k != "command_permissions" ==>
                k in r.guilds[guild] && r.guilds[guild][k] == db.guilds[guild][k]
    ensures r.users == db.users && r.warnings == db.warnings
    ensures r.commands == db.commands && r.news == db.news
  {
    var (config, db1) := Store.GetGuildConfig(db, guild);
    var permissions := Permissions(config)[command := roleIds];
    assert forall g :: g in db.guilds && g != guild ==> g in db1.guilds && db1.guilds[g] == db.guilds[g];
    Store.UpdateOneField(db1, guild, "command_permissions", ListMap(permissions));
    Store.UpdateGuildConfig(db1, guild, map["command_permissions" := ListMap(permissions)]).1
  }

  /** Changing one command's roles leaves every other command's entry as it was. */
  lemma OtherCommandsUnchanged(db: Store.Db, guild: string, command: string, roleIds: seq<string>, other: string)
    requires other != command
    ensures var after := Permissions(Store.WithDefaults(UpdatePermissions(db, guild, command, roleIds).guilds[guild]));
            var before := Permissions(Store.GetGuildConfig(db, guild).0);
            (other in after <==> other in before) && (other in before ==> after[other] == before[other])
  {
  }

  /** The configuration every other guild reads is unaffected. */
  lemma UpdatePermissionsIsolated(db: Store.Db, guild: string, command: string, roleIds: seq<string>, other: string)
    requires other != guild
    ensures Store.GetGuildConfig(UpdatePermissions(db, guild, command, roleIds), other).0
            == Store.GetGuildConfig(db, other).0
  {
  }

  /** The running process as the source has it: the database and the live
      `DEFAULT_GUILD_CONFIG`, whose nested dictionaries every merged
      configuration shares (`{**DEFAULT_GUILD_CONFIG, ...}` and the merge
      loop copy references, not contents). */
  datatype Process = Process(db: Store.Db, defaults: Doc)

  /** `get_guild_config` against the live defaults. */
  function GetGuildConfigShared(p: Process, guild: string): (r: (Doc, Store.Db))
    ensures guild in r.1.guilds
    ensures guild !in p.db.guilds ==> r.1.guilds[guild] == r.0
  {
    if guild in p.db.guilds then (p.defaults + p.db.guilds[guild], p.db)
    else
      var config := p.defaults["guild_id" := Str(guild)];
      (config, p.db.(guilds := p.db.guilds[guild := config]))
  }

  /** `update_permissions` as written: when the guild's permissions came from
      the defaults, `permissions[command] = role_ids` writes into the shared
      default dictionary, so the live defaults change too. */
  function UpdatePermissionsAsWritten(p: Process, guild: string, command: string, roleIds: seq<string>): (r: Process)
    ensures guild in r.db.guilds
    ensures command in Permissions(r.db.guilds[guild]) && Permissions(r.db.guilds[guild])[command] == roleIds
    ensures var shared := !(guild in p.db.guilds && "command_permissions" in p.db.guilds[guild]);
            && (shared ==> r.defaults == p.defaults["command_permissions" := r.db.guilds[guild]["command_permissions"]])
            && (!shared ==> r.defaults == p.defaults)
    ensures forall g :: g in p.db.guilds && g != guild ==> g in r.db.guilds && r.db.guilds[g] == p.db.guilds[g]
  {
    var (config, db1) := GetGuildConfigShared(p, guild);
    var shared := !(guild in p.db.guilds && "command_permissions" in p.db.guilds[guild]);
    var permissions := Permissions(config)[command := roleIds];
    Store.UpdateOneField(db1, guild, "command_permissions", ListMap(permissions));
    var db2 := Store.UpdateGuildConfig(db1, guild, map["command_permissions" := ListMap(permissions)]).1;
    Process(db2, if shared then p.defaults["command_permissions" := ListMap(permissions)] else p.defaults)
  }

  /** Setting a permission for one new guild hands it to the next new guild:
      guild `B` is created with guild `A`'s `ban` roles. */
  lemma PermissionsLeakToNewGuilds()
    ensures var p0 := Process(Store.Db(map[], [], [], map[], []), Store.DefaultGuildConfig);
            var p1 := UpdatePermissionsAsWritten(p0, "A", "ban", ["mods"]);
            var (config, db2) := GetGuildConfigShared(p1, "B");
            && "ban" in Permissions(config) && Permissions(config)["ban"] == ["mods"]
            && "ban" in Permissions(db2.guilds["B"])
            && "ban" !in Permissions(Store.GetGuildConfig(Store.Db(map[], [], [], map[], []), "B").0)
  {
    var p0 := Process(Store.Db(map[], [], [], map[], []), Store.DefaultGuildConfig);
    assert Store.DefaultGuildConfig["command_permissions"] == ListMap(map[]);
    var p1 := UpdatePermissionsAsWritten(p0, "A", "ban", ["mods"]);
    assert p1.defaults["command_permissions"] == ListMap(map["ban" := ["mods"]]);
    assert "B" !in p1.db.guilds;
    var config := GetGuildConfigShared(p1, "B").0;
    assert config["command_permissions"] == ListMap(map["ban" := ["mods"]]);
  }

  // ------------------------------------------------------ dashboard users

  /** A document of `dashboard_users`; the password is kept only as its hash. */
  datatype DashUser = DashUser(id: string, username: string, email: string,
                               passwordHash: string, isAdmin: bool, createdAt: int)

  predicate EmailTaken(users: seq<DashUser>, email: string) {
    exists i :: 0 <= i < |users| && users[i].email == email
  }

  predicate UsernameTaken(users: seq<DashUser>, username: string) {
    exists i :: 0 <= i < |users| && users[i].username == username
  }

  /** No two accounts share an email or a username. */
  predicate UniqueAccounts(users: seq<DashUser>) {
    forall i, j :: 0 <= i < j < |users| ==>
      users[i].email != users[j].email && users[i].username != users[j].username
  }

  /** `POST /auth/register`: request validation (422), then the email and
      username checks (400), then the new account, admin exactly when it is
      the first. The id and the password hash are supplied by the caller. */
  function Register(users: seq<DashUser>, username: string, email: string, password: string,
                    id: string, passwordHash: string, now: int): (r: Result<seq<DashUser>, HttpError>)
    ensures r.Err? && r.error.status == 422 <==> !(3 <= |username| <= 50) || |password| < 6
    ensures r.Err? && r.error.status == 400 <==>
              3 <= |username| <= 50 && |password| >= 6 && (EmailTaken(users, email) || UsernameTaken(users, username))
    ensures r.Err? ==> r.error.status == 422 || r.error.status == 400
    ensures r.Ok? ==> |r.value| == |users| + 1 && r.value[..|users|] == users
    ensures r.Ok? ==> var u := r.value[|users|];
              u.username == username && u.email == email && u.id == id
              && (u.isAdmin <==> |users| == 0)
  {
    if !(3 <= |username| <= 50) || |password| < 6 then Err(HttpError(422, "Validierungsfehler"))
    else if EmailTaken(users, email) then Err(HttpError(400, "E-Mail bereits registriert"))
    else if UsernameTaken(users, username) then Err(HttpError(400, "Benutzername bereits vergeben"))
    else
      var u := DashUser(id, username, email, passwordHash, |users| == 0, now);
      assert (users + [u])[..|users|] == users;
      Ok(users + [u])
  }

  /** The email is checked before the username. */
  lemma RegisterChecksEmailFirst(users: seq<DashUser>, username: string, email: string, password: string,
                                 id: string, passwordHash: string, now: int)
    requires 3 <= |username| <= 50 && |password| >= 6
    requires EmailTaken(users, email)
    ensures Register(users, username, email, password, id, passwordHash, now)
            == Err(HttpError(400, "E-Mail bereits registriert"))
  {
  }

  /** Registration keeps emails and usernames unique. */
  lemma RegisterKeepsAccountsUnique(users: seq<DashUser>, username: string, email: string, password: string,
                                    id: string, passwordHash: string, now: int)
    requires UniqueAccounts(users)
    ensures var r := Register(users, username, email, password, id, passwordHash, now);
            r.Ok? ==> UniqueAccounts(r.value)
  {
    var r := Register(users, username, email, password, id, passwordHash, now);
    if r.Ok? {
      var s := r.value;
      forall i, j | 0 <= i < j < |s|
        ensures s[i].email != s[j].email && s[i].username != s[j].username
      {
        if j == |users| {
          assert s[i] == users[i];
        } else {
          assert s[i] == users[i] && s[j] == users[j];
        }
      }
    }
  }

  /** Only the very first registration creates an administrator. */
  lemma OnlyFirstRegistrationIsAdmin(username1: string, email1: string, username2: string, email2: string,
                                     password: string, id1: string, id2: string, hash: string, t: int)
    requires 3 <= |username1| <= 50 && 3 <= |username2| <= 50 && |password| >= 6
    requires email1 != email2 && username1 != username2
    ensures var r1 := Register([], username1, email1, password, id1, hash, t);
            && r1.Ok? && r1.value[0].isAdmin
            && var r2 := Register(r1.value, username2, email2, password, id2, hash, t);
               r2.Ok? && !r2.value[1].isAdmin
  {
    var r1 := Register([], username1, email1, password, id1, hash, t);
    assert !EmailTaken(r1.value, email2) && !UsernameTaken(r1.value, username2);
  }

  /** The first account with the given id, as `update_one` and `delete_one`
      pick it; `|users|` when none has it. */
  function FindAccount(users: seq<DashUser>, id: string): (i: nat)
    ensures i <= |users|
    ensures i < |users| ==> users[i].id == id
    ensures forall j :: 0 <= j < i ==> users[j].id != id
  {
    if |users| == 0 then 0 else if users[0].id == id then 0 else 1 + FindAccount(users[1..], id)
  }

  /** The token's claims. */
  datatype Payload = Payload(userId: string, username: string, isAdmin: bool)

  /** `toggle_admin` as written: success is judged by `modified_count`, which
      is 0 when the account already has the requested flag. */
  function ToggleAdminAsWritten(users: seq<DashUser>, caller: Payload, target: string, isAdmin: bool): (r: Result<seq<DashUser>, HttpError>)
    ensures target == caller.userId ==> r == Err(HttpError(400, "Du kannst deinen eigenen Admin-Status nicht ändern"))
    ensures r.Ok? ==> FindAccount(users, target) < |users|
  {
    if target == caller.userId then Err(HttpError(400, "Du kannst deinen eigenen Admin-Status nicht ändern"))
    else
      var i := FindAccount(users, target);
      var modified := i < |users| && users[i].isAdmin != isAdmin;
      if !modified then Err(HttpError(404, "Benutzer nicht gefunden"))
      else Ok(users[i := users[i].(isAdmin := isAdmin)])
  }

  /** Promoting an account that is already an administrator answers
      "user not found" although the account exists. */
  lemma ToggleAdminExistingReportsMissing()
    ensures var users := [DashUser("b", "bea", "b@x", "h", true, 0)];
            && FindAccount(users, "b") == 0
            && ToggleAdminAsWritten(users, Payload("a", "ann", true), "b", true).Err?
            && ToggleAdminAsWritten(users, Payload("a", "ann", true), "b", true).error.status == 404
  {
  }

  /** `toggle_admin`, corrected: 404 exactly when no account matches; the
      matched account gets the flag, every other account is untouched. */
  function ToggleAdmin(users: seq<DashUser>, caller: Payload, target: string, isAdmin: bool): (r: Result<seq<DashUser>, HttpError>)
    ensures target == caller.userId ==> r == Err(HttpError(400, "Du kannst deinen eigenen Admin-Status nicht ändern"))
    ensures target != caller.userId ==>
              (r == Err(HttpError(404, "Benutzer nicht gefunden")) <==> forall j :: 0 <= j < |users| ==> users[j].id != target)
    ensures r.Ok? ==> |r.value| == |users|
    ensures r.Ok? ==> var i := FindAccount(users, target);
              r.value[i] == users[i].(isAdmin := isAdmin)
              && forall j :: 0 <= j < |users| && j != i ==> r.value[j] == users[j]
  {
    if target == caller.userId then Err(HttpError(400, "Du kannst deinen eigenen Admin-Status nicht ändern"))
    else
      var i := FindAccount(users, target);
      if i == |users| then Err(HttpError(404, "Benutzer nicht gefunden"))
      else Ok(users[i := users[i].(isAdmin := isAdmin)])
  }

  /** Where the source succeeds, the corrected handler does the same thing. */
  lemma ToggleAdminAgrees(users: seq<DashUser>, caller: Payload, target: string, isAdmin: bool)
    ensures ToggleAdminAsWritten(users, caller, target, isAdmin).Ok? ==>
              ToggleAdmin(users, caller, target, isAdmin) == ToggleAdminAsWritten(users, caller, target, isAdmin)
  {
  }

  /** `DELETE /auth/users/{id}`: never oneself, 404 when no account matches,
      otherwise the first match is removed and the rest keep their order. */
  function DeleteUser(users: seq<DashUser>, caller: Payload, target: string): (r: Result<seq<DashUser>, HttpError>)
    ensures target == caller.userId ==> r == Err(HttpError(400, "Du kannst dich nicht selbst löschen"))
    ensures target != caller.userId ==>
              (r == Err(HttpError(404, "Benutzer nicht gefunden")) <==> forall j :: 0 <= j < |users| ==> users[j].id != target)
    ensures r.Ok? ==> var i := FindAccount(users, target);
              |r.value| == |users| - 1 && r.value == users[..i] + users[i + 1..]
  {
    if target == caller.userId then Err(HttpError(400, "Du kannst dich nicht selbst löschen"))
    else
      var i := FindAccount(users, target);
      if i == |users| then Err(HttpError(404, "Benutzer nicht gefunden"))
      else Ok(users[..i] + users[i + 1..])
  }

  /** Deleting keeps emails and usernames unique. */
  lemma DeleteKeepsAccountsUnique(users: seq<DashUser>, caller: Payload, target: string)
    requires UniqueAccounts(users)
    ensures var r := DeleteUser(users, caller, target);
            r.Ok? ==> UniqueAccounts(r.value)
  {
    var r := DeleteUser(users, caller, target);
    if r.Ok? {
      var i := FindAccount(users, target);
      var s := r.value;
      forall a, b | 0 <= a < b < |s|
        ensures s[a].email != s[b].email && s[a].username != s[b].username
      {
        var a' := if a < i then a else a + 1;
        var b' := if b < i then b else b + 1;
        assert s[a] == users[a'] && s[b] == users[b'];
      }
    }
  }

  // ------------------------------------------------------------ auth gates

  /** `require_auth`: no credentials, or credentials that do not verify, give 401. */
  function RequireAuth(credentials: Option<string>, verified: Option<Payload>): (r: Result<Payload, HttpError>)
    ensures r.Ok? <==> credentials.Some? && verified.Some?
    ensures r.Ok? ==> r.value == verified.value
    ensures r.Err? ==> r.error.status == 401
  {
    if credentials.None? then Err(HttpError(401, "Nicht authentifiziert"))
    else if verified.None? then Err(HttpError(401, "Token ungültig oder abgelaufen"))
    else Ok(verified.value)
  }

  /** `require_admin`: authentication first, then the admin claim (403). */
  function RequireAdmin(credentials: Option<string>, verified: Option<Payload>): (r: Result<Payload, HttpError>)
    ensures r.Ok? <==> RequireAuth(credentials, verified).Ok? && verified.value.isAdmin
    ensures r.Err? && r.error.status == 403 <==> RequireAuth(credentials, verified).Ok? && !verified.value.isAdmin
    ensures r.Err? && r.error.status == 401 <==> RequireAuth(credentials, verified).Err?
  {
    match RequireAuth(credentials, verified)
    case Err(e) => Err(e)
    case Ok(user) =>
      if !user.isAdmin then Err(HttpError(403, "Admin-Berechtigung erforderlich")) else Ok(user)
  }

  /** An admin route's answer: the gate's error, then the handler's. */
  function AdminRoute<T>(credentials: Option<string>, verified: Option<Payload>,
                         handler: Payload -> Result<T, HttpError>): (r: Result<T, HttpError>)
    ensures RequireAdmin(credentials, verified).Err? ==> r == Err(RequireAdmin(credentials, verified).error)
    ensures RequireAdmin(credentials, verified).Ok? ==> r == handler(verified.value)
  {
    match RequireAdmin(credentials, verified)
    case Err(e) => Err(e)
    case Ok(user) => handler(user)
  }

  /** A request without a valid token is refused with 401 before its body is
      looked at: even a self-deletion is refused as unauthenticated. */
  lemma UnauthenticatedBeforeEverything(users: seq<DashUser>, credentials: Option<string>,
                                        verified: Option<Payload>, target: string)
    requires credentials.None? || verified.None?
    ensures AdminRoute(credentials, verified, (p: Payload) => DeleteUser(users, p, target)).Err?
    ensures AdminRoute(credentials, verified, (p: Payload) => DeleteUser(users, p, target)).error.status == 401
  {
  }

  /** A valid token without the admin claim gets 403, whatever the request. */
  lemma NonAdminForbidden(users: seq<DashUser>, credentials: string, p: Payload, target: string, isAdmin: bool)
    requires !p.isAdmin
    ensures AdminRoute(Some(credentials), Some(p), (q: Payload) => ToggleAdmin(users, q, target, isAdmin))
            == Err(HttpError(403, "Admin-Berechtigung erforderlich"))
  {
  }
}

=== FILE: store.dfy ===
/** backend/database.py: the per-guild document collections and the helper
    functions the API and the bot call on them. Each collection is a value;
    each helper returns its answer together with the collection it leaves. */
module Store {
  import opened Wrappers
  import opened Values
  import Text

  /** `DEFAULT_GUILD_CONFIG`. */
  const DefaultGuildConfig: Doc := map[
    "language" := Str("de"),
    "prefix" := Str("!"),
    "mod_log_channel" := Null,
    "mute_role" := Null,
    "warn_threshold" := Int(3),
    "warn_action" := Str("mute"),
    "welcome_enabled" := Bool(false),
    "welcome_channel" := Null,
    "welcome_message" := Null,
    "goodbye_enabled" := Bool(false),
    "goodbye_message" := Null,
    "auto_roles" := StrList([]),
    "leveling_enabled" := Bool(true),
    "xp_per_message" := Int(15),
    "xp_cooldown" := Int(60),
    "level_up_channel" := Null,
    "level_roles" := StrMap(map[]),
    "ignored_channels" := StrList([]),
    "temp_channels_enabled" := Bool(false),
    "temp_channel_category" := Null,
    "temp_channel_creator" := Null,
    "ai_enabled" := Bool(false),
    "ai_channel" := Null,
    "ai_system_prompt" := Str("Du bist ein freundlicher Discord-Bot Assistent."),
    "news_channel" := Null,
    "command_permissions" := ListMap(map[]),
    "admin_roles" := StrList([]),
    "mod_roles" := StrList([])
  ]

  /** The message-handling defaults of the table above. */
  lemma DefaultMessageEntries()
    ensures DefaultGuildConfig["prefix"] == Str("!")
    ensures DefaultGuildConfig["leveling_enabled"] == Bool(true)
    ensures DefaultGuildConfig["ai_enabled"] == Bool(false)
  {
  }

  /** The XP defaults of the table above. */
  lemma DefaultXpEntries()
    ensures DefaultGuildConfig["xp_per_message"] == Int(15)
    ensures DefaultGuildConfig["xp_cooldown"] == Int(60)
    ensures DefaultGuildConfig["ignored_channels"] == StrList([])
  {
  }

  /** The moderation defaults of the table above. */
  lemma DefaultModerationEntries()
    ensures DefaultGuildConfig["warn_threshold"] == Int(3)
    ensures DefaultGuildConfig["warn_action"] == Str("mute")
  {
  }

  /** The language and welcome defaults of the table above. */
  lemma DefaultWelcomeEntries()
    ensures DefaultGuildConfig["language"] == Str("de")
    ensures DefaultGuildConfig["welcome_enabled"] == Bool(false)
  {
  }

  /** A document of the `users` collection. A field the document lacks is
      `None`; `$inc`/`$set` upserts create documents with only some fields. */
  datatype UserDoc = UserDoc(guildId: string, userId: string,
                             xp: Option<int>, level: Option<int>, messages: Option<int>,
                             lastXp: Option<int>, warnings: Option<int>)

  /** A document of the `warnings` collection; times are seconds. */
  datatype Warning = Warning(guildId: string, userId: string, modId: string,
                             reason: string, timestamp: int)

  /** A document of the `custom_commands` collection. */
  datatype Command = Command(guildId: string, name: string, response: string,
                             createdBy: string, createdAt: int)

  /** A `scheduled_for` string as `datetime.fromisoformat` reads it once `Z`
      is replaced by `+00:00`. `seconds` is the instant it names, with a
      time that has no offset read as UTC. `aware` says whether the string
      carried an offset. The News page's `datetime-local` input writes times
      without one, and the server stores the string unchanged. */
  datatype Stamp = Stamp(seconds: int, aware: bool)

  /** A document of the `news` collection. */
  datatype News = News(id: string, guildId: string, title: string, content: string,
                       scheduledFor: Option<Stamp>, createdBy: Option<string>,
                       createdAt: int, posted: bool)

  /** The database: guild configurations by guild id, custom commands by
      (guild id, lowercased name), and the other collections in insertion order. */
  datatype Db = Db(guilds: map<string, Doc>,
                   users: seq<UserDoc>,
                   warnings: seq<Warning>,
                   commands: map<(string, string), Command>,
                   news: seq<News>)

  // ---------------------------------------------------------------- guilds

  /** A stored configuration completed with the defaults; stored values win. */
  function WithDefaults(stored: Doc): (config: Doc)
    ensures forall k :: k in config <==> k in DefaultGuildConfig || k in stored
    ensures forall k :: k in stored ==> config[k] == stored[k]
    ensures forall k :: k in DefaultGuildConfig && k !in stored ==> config[k] == DefaultGuildConfig[k]
  {
    DefaultGuildConfig + stored
  }

  /** `get_guild_config`: the merged configuration; an unknown guild is
      created from the defaults and its id. */
  function GetGuildConfig(db: Db, guild: string): (r: (Doc, Db))
    ensures forall k :: k in DefaultGuildConfig ==> k in r.0
    ensures guild in db.guilds ==> r.1 == db && r.0 == WithDefaults(db.guilds[guild])
    ensures guild !in db.guilds ==>
              r.0 == DefaultGuildConfig[("guild_id") := Str(guild)] && r.1 == db.(guilds := db.guilds[guild := r.0])
    ensures guild in r.1.guilds && r.0 == WithDefaults(r.1.guilds[guild])
  {
    if guild in db.guilds then
      (WithDefaults(db.guilds[guild]), db)
    else
      var config := DefaultGuildConfig[("guild_id") := Str(guild)];
      assert WithDefaults(config) == config;
      (config, db.(guilds := db.guilds[guild := config]))
  }

  /** An unknown guild reads every default except its own id unchanged. */
  lemma UnknownGuildReadsDefault(db: Db, guild: string, k: string)
    requires guild !in db.guilds && k in DefaultGuildConfig && k != "guild_id"
    ensures k in GetGuildConfig(db, guild).0
    ensures GetGuildConfig(db, guild).0[k] == DefaultGuildConfig[k]
  {
  }

  /** Reading a configuration twice gives the same answer and stores nothing more. */
  lemma GetGuildConfigStable(db: Db, guild: string)
    ensures var (c1, db1) := GetGuildConfig(db, guild);
            GetGuildConfig(db1, guild) == (c1, db1)
  {
  }

  /** `update_guild_config`: `$set` with upsert on the stored document, then a
      merged read. */
  function UpdateGuildConfig(db: Db, guild: string, updates: Doc): (r: (Doc, Db))
    ensures guild in r.1.guilds
    ensures forall k :: k in updates ==>
              k in r.1.guilds[guild] && r.1.guilds[guild][k] == updates[k] && k in r.0 && r.0[k] == updates[k]
    ensures guild in db.guilds ==>
              forall k :: k in db.guilds[guild] && k !in updates ==>
                k in r.1.guilds[guild] && r.1.guilds[guild][k] == db.guilds[guild][k]
    ensures guild in db.guilds ==> r.1.guilds[guild].Keys == db.guilds[guild].Keys + updates.Keys
    ensures guild !in db.guilds ==> r.1.guilds[guild].Keys == updates.Keys + {"guild_id"}
    ensures r.1.guilds.Keys == db.guilds.Keys + {guild}
    ensures forall g :: g in db.guilds && g != guild ==> r.1.guilds[g] == db.guilds[g]
    ensures r.1.users == db.users && r.1.warnings == db.warnings
    ensures r.1.commands == db.commands && r.1.news == db.news
    ensures r.0 == WithDefaults(r.1.guilds[guild])
  {
    var stored := if guild in db.guilds then db.guilds[guild] else map["guild_id" := Str(guild)];
    var doc := SetFields(stored, updates);
    (WithDefaults(doc), StoreDoc(db, guild, doc))
  }

  /** Updating one field: the stored document and the merged read both hold
      the new value. */
  lemma UpdateOneField(db: Db, guild: string, key: string, value: Value)
    ensures var r := UpdateGuildConfig(db, guild, map[key := value]);
            && key in r.1.guilds[guild] && r.1.guilds[guild][key] == value
            && key in r.0 && r.0[key] == value
            && r.0 == WithDefaults(r.1.guilds[guild])
  {
    assert key in map[key := value];
  }

  /** Updating reads back as the configuration read before with the updated
      fields replaced, and a second read agrees with the one returned. */
  lemma UpdateReadsBack(db: Db, guild: string, updates: Doc)
    ensures var (config, db1) := UpdateGuildConfig(db, guild, updates);
            && config == GetGuildConfig(db, guild).0 + updates
            && GetGuildConfig(db1, guild) == (config, db1)
  {
    if guild in db.guilds {
      MergeThenSet(db.guilds[guild], updates);
    } else {
      var stored := map["guild_id" := Str(guild)];
      assert WithDefaults(stored) == DefaultGuildConfig[("guild_id") := Str(guild)];
      MergeThenSet(stored, updates);
    }
  }

  /** Completing with the defaults commutes with a later `$set`. */
  lemma MergeThenSet(stored: Doc, updates: Doc)
    ensures WithDefaults(SetFields(stored, updates)) == WithDefaults(stored) + updates
  {
    UnionAssociates(DefaultGuildConfig, stored, updates);
  }

  lemma UnionAssociates<K, V>(a: map<K, V>, b: map<K, V>, c: map<K, V>)
    ensures a + (b + c) == (a + b) + c
  {
    var l := a + (b + c);
    var r := (a + b) + c;
    assert l.Keys == r.Keys;
    forall k | k in l
      ensures l[k] == r[k]
    {
    }
  }

  /** `$set`: the given fields take the new values, the others are kept. */
  function SetFields(stored: Doc, updates: Doc): (doc: Doc)
    ensures doc.Keys == stored.Keys + updates.Keys
    ensures forall k :: k in updates ==> doc[k] == updates[k]
    ensures forall k :: k in stored && k !in updates ==> doc[k] == stored[k]
  {
    stored + updates
  }

  /** Replaces one guild's stored document and leaves everything else alone. */
  function StoreDoc(db: Db, guild: string, doc: Doc): (r: Db)
    ensures r.guilds.Keys == db.guilds.Keys + {guild}
    ensures guild in r.guilds && r.guilds[guild] == doc
    ensures forall g :: g in db.guilds && g != guild ==> r.guilds[g] == db.guilds[g]
    ensures r.users == db.users && r.warnings == db.warnings
    ensures r.commands == db.commands && r.news == db.news
  {
    db.(guilds := db.guilds[guild := doc])
  }

  // ----------------------------------------------------------------- users

  function FreshUser(guild: string, user: string): UserDoc {
    UserDoc(guild, user, Some(0), Some(0), Some(0), None, Some(0))
  }

  predicate IsUser(d: UserDoc, guild: string, user: string) {
    d.guildId == guild && d.userId == user
  }

  /** The index of the first document of (`guild`, `user`), as `find_one` and
      `update_one` pick it; `|users|` when there is none. */
  function FindUser(users: seq<UserDoc>, guild: string, user: string): (i: nat)
    ensures i <= |users|
    ensures i < |users| ==> IsUser(users[i], guild, user)
    ensures forall j :: 0 <= j < i ==> !IsUser(users[j], guild, user)
  {
    if |users| == 0 then 0
    else if IsUser(users[0], guild, user) then 0
    else 1 + FindUser(users[1..], guild, user)
  }

  /** `get_user_data` as written: the stored document as it is, or a fresh
      record (inserted) when there is none. */
  function GetUserDataAsWritten(db: Db, guild: string, user: string): (r: (UserDoc, Db))
    ensures IsUser(r.0, guild, user)
    ensures FindUser(db.users, guild, user) < |db.users| ==>
              r.0 == db.users[FindUser(db.users, guild, user)] && r.1 == db
    ensures FindUser(db.users, guild, user) == |db.users| ==>
              r.0 == FreshUser(guild, user) && r.1 == db.(users := db.users + [r.0])
  {
    var i := FindUser(db.users, guild, user);
    if i < |db.users| then (db.users[i], db)
    else (FreshUser(guild, user), db.(users := db.users + [FreshUser(guild, user)]))
  }

  /** A user record whose counters are all present. */
  predicate Complete(d: UserDoc) {
    d.xp.Some? && d.level.Some? && d.messages.Some? && d.warnings.Some?
  }

  /** The stored document with missing counters read as 0. */
  function CompleteUser(d: UserDoc): (c: UserDoc)
    ensures Complete(c)
    ensures IsUser(c, d.guildId, d.userId) && c.lastXp == d.lastXp
    ensures Complete(d) ==> c == d
  {
    d.(xp := Some(d.xp.GetOr(0)), level := Some(d.level.GetOr(0)),
       messages := Some(d.messages.GetOr(0)), warnings := Some(d.warnings.GetOr(0)))
  }

  /** `get_user_data` corrected: like `get_guild_config`, missing fields are
      completed with their defaults, so callers can always read the counters. */
  function GetUserData(db: Db, guild: string, user: string): (r: (UserDoc, Db))
    ensures Complete(r.0) && IsUser(r.0, guild, user)
    ensures r.1 == GetUserDataAsWritten(db, guild, user).1
    ensures r.0 == CompleteUser(GetUserDataAsWritten(db, guild, user).0)
  {
    var (d, db1) := GetUserDataAsWritten(db, guild, user);
    (CompleteUser(d), db1)
  }

  /** A fresh user starts with nothing. */
  lemma FreshUserIsZero(db: Db, guild: string, user: string)
    requires FindUser(db.users, guild, user) == |db.users|
    ensures var d := GetUserData(db, guild, user).0;
            d.xp == Some(0) && d.level == Some(0) && d.messages == Some(0)
            && d.warnings == Some(0) && d.lastXp == None
  {
  }

  /** Reading a user twice gives the same record and stores nothing more. */
  lemma GetUserDataStable(db: Db, guild: string, user: string)
    ensures var (d, db1) := GetUserData(db, guild, user);
            GetUserData(db1, guild, user) == (d, db1)
  {
    var db1 := GetUserData(db, guild, user).1;
    if FindUser(db.users, guild, user) == |db.users| {
      FindUserAfterWrite(db.users, db1.users, guild, user);
    }
  }

  /** The fields one `update_user_data` call `$set`s; `None` leaves a field alone. */
  datatype UserUpdate = UserUpdate(xp: Option<int>, level: Option<int>,
                                   messages: Option<int>, lastXp: Option<int>)

  function ApplyUpdate(d: UserDoc, u: UserUpdate): (r: UserDoc)
    ensures IsUser(r, d.guildId, d.userId) && r.warnings == d.warnings
  {
    d.(xp := if u.xp.Some? then u.xp else d.xp,
       level := if u.level.Some? then u.level else d.level,
       messages := if u.messages.Some? then u.messages else d.messages,
       lastXp := if u.lastXp.Some? then u.lastXp else d.lastXp)
  }

  /** `update_user_data`: `$set` with upsert, then a read. */
  function UpdateUserData(db: Db, guild: string, user: string, u: UserUpdate): (r: (UserDoc, Db))
    ensures u.xp.Some? ==> r.0.xp == u.xp
    ensures u.level.Some? ==> r.0.level == u.level
    ensures u.messages.Some? ==> r.0.messages == u.messages
    ensures u.lastXp.Some? ==> r.0.lastXp == u.lastXp
    ensures r.0 == ApplyUpdate(GetUserData(db, guild, user).0, u)
    ensures r.1.guilds == db.guilds && r.1.warnings == db.warnings
    ensures r.1.commands == db.commands && r.1.news == db.news
    ensures r == GetUserData(r.1, guild, user)
  {
    var i := FindUser(db.users, guild, user);
    var users :=
      if i < |db.users| then db.users[i := ApplyUpdate(db.users[i], u)]
      else db.users + [ApplyUpdate(UserDoc(guild, user, None, None, None, None, None), u)];
    assert FindUser(users, guild, user) == i by { FindUserAfterWrite(db.users, users, guild, user); }
    GetUserData(db.(users := users), guild, user)
  }

  /** Writing the first match of (guild, user), or appending when there is none,
      keeps it the first match. */
  lemma {:induction false} FindUserAfterWrite(before: seq<UserDoc>, after: seq<UserDoc>, guild: string, user: string)
    requires var i := FindUser(before, guild, user);
             && |after| == (if i < |before| then |before| else |before| + 1)
             && (forall j :: 0 <= j < |before| && j != i ==> after[j] == before[j])
             && IsUser(after[i], guild, user)
    ensures FindUser(after, guild, user) == FindUser(before, guild, user)
    decreases |before|
  {
    if |before| > 0 && !IsUser(before[0], guild, user) {
      FindUserAfterWrite(before[1..], after[1..], guild, user);
    }
  }

  // -------------------------------------------------------------- warnings

  function CountFor(ws: seq<Warning>, guild: string, user: string): nat {
    if |ws| == 0 then 0
    else (if ws[0].guildId == guild && ws[0].userId == user then 1 else 0) + CountFor(ws[1..], guild, user)
  }

  /** The warnings of everyone but (`guild`, `user`), in stored order. */
  function RemoveFor(ws: seq<Warning>, guild: string, user: string): (r: seq<Warning>)
    ensures |r| + CountFor(ws, guild, user) == |ws|
    ensures CountFor(r, guild, user) == 0
    ensures forall w :: w in r <==> w in ws && !(w.guildId == guild && w.userId == user)
  {
    if |ws| == 0 then []
    else
      assert ws == [ws[0]] + ws[1..];
      var head := if ws[0].guildId == guild && ws[0].userId == user then [] else [ws[0]];
      var rest := RemoveFor(ws[1..], guild, user);
      CountForConcat(head, rest, guild, user);
      head + rest
  }

  lemma {:induction false} CountForAppend(ws: seq<Warning>, w: Warning, guild: string, user: string)
    ensures CountFor(ws + [w], guild, user)
            == CountFor(ws, guild, user) + (if w.guildId == guild && w.userId == user then 1 else 0)
    decreases |ws|
  {
    if |ws| == 0 {
      assert ws + [w] == [w];
    } else {
      assert (ws + [w])[1..] == ws[1..] + [w];
      CountForAppend(ws[1..], w, guild, user);
    }
  }

  lemma {:induction false} CountForRemoveOther(ws: seq<Warning>, guild: string, user: string, g: string, u: string)
    requires (g, u) != (guild, user)
    ensures CountFor(RemoveFor(ws, guild, user), g, u) == CountFor(ws, g, u)
    decreases |ws|
  {
    if |ws| > 0 {
      CountForRemoveOther(ws[1..], guild, user, g, u);
      var head := if ws[0].guildId == guild && ws[0].userId == user then [] else [ws[0]];
      CountForConcat(head, RemoveFor(ws[1..], guild, user), g, u);
    }
  }

  lemma {:induction false} CountForConcat(a: seq<Warning>, b: seq<Warning>, guild: string, user: string)
    ensures CountFor(a + b, guild, user) == CountFor(a, guild, user) + CountFor(b, guild, user)
    decreases |a|
  {
    if |a| == 0 {
      assert a + b == b;
    } else {
      assert (a + b)[1..] == a[1..] + b;
      CountForConcat(a[1..], b, guild, user);
    }
  }

  /** The `warnings` counter of (`guild`, `user`): the first matching
      document's field, 0 when the field or the document is missing. */
  function Counter(users: seq<UserDoc>, guild: string, user: string): int {
    var i := FindUser(users, guild, user);
    if i < |users| then users[i].warnings.GetOr(0) else 0
  }

  /** Every user's counter equals the number of their warning documents. */
  ghost predicate CountersConsistent(db: Db) {
    forall g, u :: Counter(db.users, g, u) == CountFor(db.warnings, g, u)
  }

  /** `add_warning`: one new warning document and `$inc` of the user's counter
      (with upsert: a user without a document gets `{warnings: 1}`). */
  function AddWarning(db: Db, guild: string, user: string, moderator: string,
                      reason: string, now: int): (r: (Warning, Db))
    ensures r.1.warnings == db.warnings + [r.0]
    ensures r.0 == Warning(guild, user, moderator, reason, now)
    ensures r.1.guilds == db.guilds && r.1.commands == db.commands && r.1.news == db.news
    ensures Counter(r.1.users, guild, user) == Counter(db.users, guild, user) + 1
    ensures FindUser(r.1.users, guild, user) == FindUser(db.users, guild, user)
    ensures var i := FindUser(db.users, guild, user);
            && (i < |db.users| ==> |r.1.users| == |db.users|
                                   && r.1.users[i] == db.users[i].(warnings := r.1.users[i].warnings))
            && (i == |db.users| ==> r.1.users == db.users + [UserDoc(guild, user, None, None, None, None, Some(1))])
    ensures forall j :: 0 <= j < |db.users| && j != FindUser(db.users, guild, user) ==> r.1.users[j] == db.users[j]
  {
    var w := Warning(guild, user, moderator, reason, now);
    var i := FindUser(db.users, guild, user);
    var users :=
      if i < |db.users| then
        var d := db.users[i];
        db.users[i := d.(warnings := Some(d.warnings.GetOr(0) + 1))]
      else db.users + [UserDoc(guild, user, None, None, None, None, Some(1))];
    FindUserAfterWrite(db.users, users, guild, user);
    (w, db.(warnings := db.warnings + [w], users := users))
  }

  /** `get_warnings`: the user's warnings in stored order, at most 100
      (`to_list(100)`). */
  function GetWarnings(db: Db, guild: string, user: string): (r: seq<Warning>)
    ensures |r| <= 100
    ensures |r| == if CountFor(db.warnings, guild, user) < 100 then CountFor(db.warnings, guild, user) else 100
    ensures forall w :: w in r ==> w in db.warnings && w.guildId == guild && w.userId == user
    ensures r == OnlyFor(db.warnings, guild, user)[..|r|]
  {
    Take100(OnlyFor(db.warnings, guild, user))
  }

  /** `to_list(100)`: the first 100 items, or all of them. */
  function Take100<T>(s: seq<T>): (r: seq<T>)
    ensures |r| == if |s| < 100 then |s| else 100
    ensures r == s[..|r|]
  {
    if |s| <= 100 then s else s[..100]
  }

  /** Appending at most one item changes the first 100 only while they are
      fewer than 100. */
  lemma Take100Append<T>(s: seq<T>, tail: seq<T>)
    requires |tail| <= 1
    ensures Take100(s + tail) == if |s| < 100 then s + tail else Take100(s)
  {
    if |s| >= 100 {
      assert (s + tail)[..100] == s[..100];
    }
  }

  /** The warnings of (`guild`, `user`) in stored order. */
  function OnlyFor(ws: seq<Warning>, guild: string, user: string): (r: seq<Warning>)
    ensures |r| == CountFor(ws, guild, user)
    ensures forall w :: w in r <==> w in ws && w.guildId == guild && w.userId == user
  {
    if |ws| == 0 then []
    else (if ws[0].guildId == guild && ws[0].userId == user then [ws[0]] else []) + OnlyFor(ws[1..], guild, user)
  }

  /** Selecting one user's warnings keeps their order: it distributes over
      concatenation. */
  lemma {:induction false} OnlyForConcat(a: seq<Warning>, b: seq<Warning>, guild: string, user: string)
    ensures OnlyFor(a + b, guild, user) == OnlyFor(a, guild, user) + OnlyFor(b, guild, user)
    decreases |a|
  {
    if |a| == 0 {
      assert a + b == b;
    } else {
      assert (a + b)[1..] == a[1..] + b;
      OnlyForConcat(a[1..], b, guild, user);
    }
  }

  /** Removing one user's warnings leaves every other user's list as it was. */
  lemma {:induction false} OnlyForRemoveOther(ws: seq<Warning>, guild: string, user: string, g: string, u: string)
    requires (g, u) != (guild, user)
    ensures OnlyFor(RemoveFor(ws, guild, user), g, u) == OnlyFor(ws, g, u)
    decreases |ws|
  {
    if |ws| > 0 {
      OnlyForRemoveOther(ws[1..], guild, user, g, u);
      var head := if ws[0].guildId == guild && ws[0].userId == user then [] else [ws[0]];
      OnlyForConcat(head, RemoveFor(ws[1..], guild, user), g, u);
    }
  }

  /** After `add_warning` the user's list gains the new warning at its end
      (while it fits in the 100 read back); nobody else's list changes. */
  lemma WarningsAfterAdd(db: Db, guild: string, user: string, moderator: string,
                         reason: string, now: int, g: string, u: string)
    ensures var (w, db1) := AddWarning(db, guild, user, moderator, reason, now);
            var before := GetWarnings(db, g, u);
            GetWarnings(db1, g, u) ==
              if (g, u) == (guild, user) && |before| < 100 then before + [w] else before
  {
    var (w, db1) := AddWarning(db, guild, user, moderator, reason, now);
    OnlyForConcat(db.warnings, [w], g, u);
    var tail := OnlyFor([w], g, u);
    assert tail == if (g, u) == (guild, user) then [w] else [];
    Take100Append(OnlyFor(db.warnings, g, u), tail);
  }

  /** After `clear_warnings` the user has no warnings left and nobody else's
      list changes. */
  lemma WarningsAfterClear(db: Db, guild: string, user: string, g: string, u: string)
    ensures var db1 := ClearWarnings(db, guild, user).1;
            GetWarnings(db1, g, u) == if (g, u) == (guild, user) then [] else GetWarnings(db, g, u)
  {
    if (g, u) != (guild, user) {
      OnlyForRemoveOther(db.warnings, guild, user, g, u);
    }
  }

  /** `clear_warnings`: every warning of the user is deleted, the counter of an
      existing user document is set to 0 (no upsert), and the number deleted
      is returned. */
  function ClearWarnings(db: Db, guild: string, user: string): (r: (nat, Db))
    ensures r.0 == CountFor(db.warnings, guild, user)
    ensures r.1.warnings == RemoveFor(db.warnings, guild, user)
    ensures |r.1.warnings| + r.0 == |db.warnings|
    ensures r.1.guilds == db.guilds && r.1.commands == db.commands && r.1.news == db.news
    ensures |r.1.users| == |db.users|
    ensures FindUser(r.1.users, guild, user) == FindUser(db.users, guild, user)
    ensures FindUser(db.users, guild, user) < |db.users| ==>
              var i := FindUser(db.users, guild, user);
              r.1.users[i] == db.users[i].(warnings := Some(0)) && Counter(r.1.users, guild, user) == 0
    ensures forall j :: 0 <= j < |db.users| && j != FindUser(db.users, guild, user) ==> r.1.users[j] == db.users[j]
  {
    var i := FindUser(db.users, guild, user);
    var users := if i < |db.users| then db.users[i := db.users[i].(warnings := Some(0))] else db.users;
    assert FindUser(users, guild, user) == i by {
      if i < |db.users| { FindUserAfterWrite(db.users, users, guild, user); }
    }
    (CountFor(db.warnings, guild, user), db.(warnings := RemoveFor(db.warnings, guild, user), users := users))
  }

  /** A user's counter only moves when that user's document is written. */
  lemma {:induction false} CounterOther(before: seq<UserDoc>, after: seq<UserDoc>, guild: string, user: string,
                                        g: string, u: string)
    requires (g, u) != (guild, user)
    requires var i := FindUser(before, guild, user);
             && |after| == (if i < |before| then |before| else |before| + 1)
             && (forall j :: 0 <= j < |before| && j != i ==> after[j] == before[j])
             && IsUser(after[i], guild, user)
    ensures Counter(after, g, u) == Counter(before, g, u)
    decreases |before|
  {
    if |before| > 0 {
      if IsUser(before[0], guild, user) {
        FindUserSkip(before, after, g, u);
      } else if IsUser(before[0], g, u) {
      } else {
        CounterOther(before[1..], after[1..], guild, user, g, u);
      }
    } else {
      assert !IsUser(after[0], g, u);
    }
  }

  /** When only the first element changes, to one that does not match,
      lookups of another key agree. */
  lemma FindUserSkip(before: seq<UserDoc>, after: seq<UserDoc>, g: string, u: string)
    requires |before| > 0 && |after| == |before|
    requires !IsUser(before[0], g, u) && !IsUser(after[0], g, u)
    requires after[1..] == before[1..]
    ensures FindUser(after, g, u) == FindUser(before, g, u)
    ensures Counter(after, g, u) == Counter(before, g, u)
  {
    assert forall j :: 1 <= j < |after| ==> after[j] == before[j] by {
      forall j | 1 <= j < |after| ensures after[j] == before[j] {
        assert after[1..][j - 1] == before[1..][j - 1];
      }
    }
  }

  /** Adding a warning keeps every counter equal to the number of warnings. */
  lemma AddWarningKeepsCounters(db: Db, guild: string, user: string, moderator: string,
                                reason: string, now: int)
    requires CountersConsistent(db)
    ensures CountersConsistent(AddWarning(db, guild, user, moderator, reason, now).1)
  {
    var (w, db1) := AddWarning(db, guild, user, moderator, reason, now);
    forall g, u
      ensures Counter(db1.users, g, u) == CountFor(db1.warnings, g, u)
    {
      CountForAppend(db.warnings, w, g, u);
      if g == guild && u == user {
        FindUserAfterWrite(db.users, db1.users, guild, user);
      } else {
        CounterOther(db.users, db1.users, guild, user, g, u);
      }
    }
  }

  /** Clearing a user's warnings keeps every counter equal to the number of
      warnings; other users' warnings are untouched. */
  lemma ClearWarningsKeepsCounters(db: Db, guild: string, user: string)
    requires CountersConsistent(db)
    ensures CountersConsistent(ClearWarnings(db, guild, user).1)
    ensures forall g, u :: (g, u) != (guild, user) ==>
              CountFor(ClearWarnings(db, guild, user).1.warnings, g, u) == CountFor(db.warnings, g, u)
  {
    var (n, db1) := ClearWarnings(db, guild, user);
    forall g, u | (g, u) != (guild, user)
      ensures CountFor(db1.warnings, g, u) == CountFor(db.warnings, g, u)
    {
      CountForRemoveOther(db.warnings, guild, user, g, u);
    }
    forall g, u
      ensures Counter(db1.users, g, u) == CountFor(db1.warnings, g, u)
    {
      var i := FindUser(db.users, guild, user);
      if g == guild && u == user {
        assert CountFor(db1.warnings, g, u) == 0;
        if i < |db.users| {
          FindUserAfterWrite(db.users, db1.users, guild, user);
          assert db1.users[i].warnings == Some(0);
          assert Counter(db1.users, g, u) == 0;
        } else {
          assert db1.users == db.users;
          assert Counter(db.users, g, u) == 0;
        }
      } else {
        assert CountFor(db1.warnings, g, u) == CountFor(db.warnings, g, u);
        if i < |db.users| {
          CounterOther(db.users, db1.users, guild, user, g, u);
        } else {
          assert db1.users == db.users;
        }
        assert Counter(db.users, g, u) == CountFor(db.warnings, g, u);
        assert Counter(db1.users, g, u) == Counter(db.users, g, u);
      }
    }
  }

  /** Reading a user (which may create the record) keeps the counters consistent. */
  lemma GetUserDataKeepsCounters(db: Db, guild: string, user: string)
    requires CountersConsistent(db)
    ensures CountersConsistent(GetUserData(db, guild, user).1)
  {
    var db1 := GetUserData(db, guild, user).1;
    var i := FindUser(db.users, guild, user);
    if i == |db.users| {
      forall g, u
        ensures Counter(db1.users, g, u) == CountFor(db1.warnings, g, u)
      {
        if (g, u) == (guild, user) {
          FindUserAfterWrite(db.users, db1.users, guild, user);
        } else {
          CounterOther(db.users, db1.users, guild, user, g, u);
        }
      }
    }
  }

  // ----------------------------------------------------------- leaderboard

  /** `a` sorts no lower than `b` under `sort("xp", -1)`; a missing xp sorts last. */
  predicate RanksAbove(a: UserDoc, b: UserDoc) {
    b.xp.None? || (a.xp.Some? && a.xp.value >= b.xp.value)
  }

  predicate SortedByXp(s: seq<UserDoc>) {
    forall i, j :: 0 <= i < j < |s| ==> RanksAbove(s[i], s[j])
  }

  function InsertByXp(x: UserDoc, s: seq<UserDoc>): (r: seq<UserDoc>)
    requires SortedByXp(s)
    ensures SortedByXp(r)
    ensures multiset(r) == multiset(s) + multiset{x}
    ensures forall y :: y in r ==> y == x || y in s
  {
    if |s| == 0 then [x]
    else if RanksAbove(x, s[0]) then
      forall y | y in s ensures RanksAbove(x, y) {
        var k :| 0 <= k < |s| && s[k] == y;
        if k > 0 { assert RanksAbove(s[0], s[k]); }
      }
      ConsRanked(x, s);
      [x] + s
    else
      var rest := InsertByXp(x, s[1..]);
      forall y | y in rest ensures RanksAbove(s[0], y) {
        if y != x {
          var m :| 0 <= m < |s[1..]| && s[1..][m] == y;
          assert s[1 + m] == y;
        }
      }
      ConsRanked(s[0], rest);
      assert s == [s[0]] + s[1..];
      assert multiset([s[0]] + rest) == multiset{s[0]} + multiset(rest);
      [s[0]] + rest
  }

  /** A user ranking above a whole sorted list can be put in front of it. */
  lemma ConsRanked(h: UserDoc, s: seq<UserDoc>)
    requires SortedByXp(s) && forall y :: y in s ==> RanksAbove(h, y)
    ensures SortedByXp([h] + s)
  {
    var t := [h] + s;
    forall i, j | 0 <= i < j < |t| ensures RanksAbove(t[i], t[j]) {
      assert t[j] == s[j - 1];
      if i > 0 { assert t[i] == s[i - 1]; }
    }
  }

  function SortByXp(s: seq<UserDoc>): (r: seq<UserDoc>)
    ensures SortedByXp(r)
    ensures multiset(r) == multiset(s)
  {
    if |s| == 0 then []
    else
      assert s == [s[0]] + s[1..];
      InsertByXp(s[0], SortByXp(s[1..]))
  }

  function GuildUsers(users: seq<UserDoc>, guild: string): (r: seq<UserDoc>)
    ensures forall d :: d in r <==> d in users && d.guildId == guild
    ensures |r| <= |users|
  {
    if |users| == 0 then []
    else (if users[0].guildId == guild then [users[0]] else []) + GuildUsers(users[1..], guild)
  }

  /** `get_leaderboard(guild, limit)` for a positive limit. */
  function GetLeaderboard(db: Db, guild: string, limit: nat): (r: seq<UserDoc>)
    requires limit > 0
    ensures |r| == if |GuildUsers(db.users, guild)| < limit then |GuildUsers(db.users, guild)| else limit
    ensures forall d :: d in r ==> d in db.users && d.guildId == guild
    ensures SortedByXp(r)
    ensures multiset(r) <= multiset(GuildUsers(db.users, guild))
  {
    var all := GuildUsers(db.users, guild);
    var sorted := SortByXp(all);
    assert |sorted| == |all| by {
      assert |multiset(sorted)| == |multiset(all)|;
    }
    var n := if |sorted| <= limit then |sorted| else limit;
    TopOfSorted(sorted, n);
    forall d | d in sorted[..n] ensures d in db.users && d.guildId == guild {
      assert d in multiset(all);
    }
    sorted[..n]
  }

  /** A prefix of a sorted list is sorted and drawn from it. */
  lemma TopOfSorted(sorted: seq<UserDoc>, n: nat)
    requires SortedByXp(sorted) && n <= |sorted|
    ensures SortedByXp(sorted[..n])
    ensures multiset(sorted[..n]) <= multiset(sorted)
    ensures forall d :: d in sorted[..n] ==> d in sorted
  {
    assert sorted == sorted[..n] + sorted[n..];
    assert multiset(sorted) == multiset(sorted[..n]) + multiset(sorted[n..]);
  }

  /** The leaderboard is the top of the guild: every user it leaves out ranks
      no higher than every user it shows. */
  lemma LeaderboardIsTop(db: Db, guild: string, limit: nat)
    requires limit > 0
    ensures var r := GetLeaderboard(db, guild, limit);
            forall i, d :: 0 <= i < |r| && d in multiset(GuildUsers(db.users, guild)) - multiset(r)
                           ==> RanksAbove(r[i], d)
  {
    var all := GuildUsers(db.users, guild);
    var r := GetLeaderboard(db, guild, limit);
    LeaderboardIsPrefix(db, guild, limit);
    PrefixOutranksLeftOut(SortByXp(all), all, |r|);
  }

  /** Whatever a prefix of a sorted arrangement of `all` leaves out of `all`
      ranks below everything in the prefix. */
  lemma PrefixOutranksLeftOut(sorted: seq<UserDoc>, all: seq<UserDoc>, n: nat)
    requires SortedByXp(sorted) && multiset(sorted) == multiset(all) && n <= |sorted|
    ensures forall i, d :: 0 <= i < n && d in multiset(all) - multiset(sorted[..n])
                           ==> RanksAbove(sorted[..n][i], d)
  {
    PrefixOutranksRest(sorted, n);
    assert sorted == sorted[..n] + sorted[n..];
    assert multiset(all) - multiset(sorted[..n]) == multiset(sorted[n..]);
  }

  /** The leaderboard is the front of the sorted guild users. */
  lemma LeaderboardIsPrefix(db: Db, guild: string, limit: nat)
    requires limit > 0
    ensures var sorted := SortByXp(GuildUsers(db.users, guild));
            var r := GetLeaderboard(db, guild, limit);
            |r| <= |sorted| && r == sorted[..|r|]
  {
  }

  /** In a sorted list, everything before position n ranks above everything from it on. */
  lemma PrefixOutranksRest(sorted: seq<UserDoc>, n: nat)
    requires SortedByXp(sorted) && n <= |sorted|
    ensures forall i, d :: 0 <= i < n && d in sorted[n..] ==> RanksAbove(sorted[i], d)
  {
    forall i, d | 0 <= i < n && d in sorted[n..] ensures RanksAbove(sorted[i], d) {
      var j :| 0 <= j < |sorted[n..]| && sorted[n..][j] == d;
      assert sorted[n + j] == d;
    }
  }

  // ------------------------------------------------------- custom commands

  /** `add_custom_command`: upsert keyed by (guild, lowercased name). */
  function AddCustomCommand(db: Db, guild: string, name: string, response: string,
                            createdBy: string, now: int): (r: (Command, Db))
    ensures Text.IsLowercase(r.0.name) && r.0.response == response
    ensures r.1.commands == db.commands[(guild, Text.Lower(name)) := r.0]
    ensures r.1.guilds == db.guilds && r.1.users == db.users
    ensures r.1.warnings == db.warnings && r.1.news == db.news
  {
    Text.LowerIsLowercase(name);
    var c := Command(guild, Text.Lower(name), response, createdBy, now);
    (c, db.(commands := db.commands[(guild, c.name) := c]))
  }

  /** Adding the same name twice, in any capitalisation, leaves one entry
      holding the last response. */
  lemma AddCustomCommandTwice(db: Db, guild: string, name1: string, name2: string,
                              resp1: string, resp2: string, creator: string, t1: int, t2: int)
    requires Text.Lower(name1) == Text.Lower(name2)
    ensures var db1 := AddCustomCommand(db, guild, name1, resp1, creator, t1).1;
            var db2 := AddCustomCommand(db1, guild, name2, resp2, creator, t2).1;
            && db2.commands.Keys == db.commands.Keys + {(guild, Text.Lower(name1))}
            && db2.commands[(guild, Text.Lower(name1))].response == resp2
  {
  }

  /** `delete_custom_command`: true exactly when the entry existed; it is gone
      afterwards and nothing else changes. */
  function DeleteCustomCommand(db: Db, guild: string, name: string): (r: (bool, Db))
    ensures r.0 <==> (guild, Text.Lower(name)) in db.commands
    ensures (guild, Text.Lower(name)) !in r.1.commands
    ensures r.1.commands == db.commands - {(guild, Text.Lower(name))}
    ensures r.1.guilds == db.guilds && r.1.users == db.users
    ensures r.1.warnings == db.warnings && r.1.news == db.news
  {
    var key := (guild, Text.Lower(name));
    (key in db.commands, db.(commands := db.commands - {key}))
  }

  /** A command added under any capitalisation is deleted under any other. */
  lemma AddThenDelete(db: Db, guild: string, name: string, other: string, response: string,
                      creator: string, now: int)
    requires Text.Lower(other) == Text.Lower(name)
    ensures var db1 := AddCustomCommand(db, guild, name, response, creator, now).1;
            var (found, db2) := DeleteCustomCommand(db1, guild, other);
            found && (guild, Text.Lower(name)) !in db2.commands
  {
  }

  // ------------------------------------------------------------------ news

  /** `add_news`: a new, unposted item (the id is the caller's fresh uuid). */
  function AddNews(db: Db, id: string, guild: string, title: string, content: string,
                   scheduledFor: Option<Stamp>, createdBy: Option<string>, now: int): (r: (News, Db))
    ensures !r.0.posted && r.0.id == id && r.0.scheduledFor == scheduledFor
    ensures r.1.news == db.news + [r.0]
    ensures r.1.guilds == db.guilds && r.1.users == db.users
    ensures r.1.warnings == db.warnings && r.1.commands == db.commands
  {
    var n := News(id, guild, title, content, scheduledFor, createdBy, now, false);
    (n, db.(news := db.news + [n]))
  }

  function FindNews(news: seq<News>, id: string): (i: nat)
    ensures i <= |news|
    ensures i < |news| ==> news[i].id == id
    ensures forall j :: 0 <= j < i ==> news[j].id != id
  {
    if |news| == 0 then 0 else if news[0].id == id then 0 else 1 + FindNews(news[1..], id)
  }

  /** `mark_news_posted`: sets `posted` on the first item with the id and
      nothing else; true only when that changed the item. */
  function MarkNewsPosted(db: Db, id: string): (r: (bool, Db))
    ensures r.0 <==> exists i :: 0 <= i < |db.news| && db.news[i].id == id && !db.news[FindNews(db.news, id)].posted
    ensures |r.1.news| == |db.news|
    ensures forall j :: 0 <= j < |db.news| && db.news[j].id != id ==> r.1.news[j] == db.news[j]
    ensures forall j :: 0 <= j < |db.news| ==> r.1.news[j] == db.news[j] || r.1.news[j] == db.news[j].(posted := true)
    ensures FindNews(db.news, id) < |db.news| ==> r.1.news[FindNews(db.news, id)].posted
    ensures r.1.guilds == db.guilds && r.1.users == db.users
    ensures r.1.warnings == db.warnings && r.1.commands == db.commands
  {
    var i := FindNews(db.news, id);
    if i == |db.news| then (false, db)
    else (!db.news[i].posted, db.(news := db.news[i := db.news[i].(posted := true)]))
  }

  /** `delete_news`: true exactly when an item had the id; that item is removed. */
  function DeleteNews(db: Db, id: string): (r: (bool, Db))
    ensures r.0 <==> exists i :: 0 <= i < |db.news| && db.news[i].id == id
    ensures r.0 ==> |r.1.news| == |db.news| - 1
    ensures r.0 ==> var i := FindNews(db.news, id);
                    i < |db.news| && r.1.news == db.news[..i] + db.news[i + 1..]
    ensures !r.0 ==> r.1 == db
    ensures r.1.guilds == db.guilds && r.1.users == db.users
    ensures r.1.warnings == db.warnings && r.1.commands == db.commands
  {
    var i := FindNews(db.news, id);
    if i == |db.news| then (false, db)
    else (true, db.(news := db.news[..i] + db.news[i + 1..]))
  }

  /** Deleting a freshly added item by its (new) id restores the collection. */
  lemma AddThenDeleteNews(db: Db, id: string, guild: string, title: string, content: string,
                          scheduledFor: Option<Stamp>, createdBy: Option<string>, now: int)
    requires forall j :: 0 <= j < |db.news| ==> db.news[j].id != id
    ensures var db1 := AddNews(db, id, guild, title, content, scheduledFor, createdBy, now).1;
            DeleteNews(db1, id) == (true, db)
  {
    var db1 := AddNews(db, id, guild, title, content, scheduledFor, createdBy, now).1;
    FindNewsAbsent(db.news, db1.news, id);
    assert db1.news[..|db.news|] + db1.news[|db.news| + 1..] == db.news;
    assert db1.(news := db.news) == db;
  }

  /** An id no earlier item carries is found at the first position past them. */
  lemma {:induction false} FindNewsAbsent(before: seq<News>, after: seq<News>, id: string)
    requires |before| < |after| && after[..|before|] == before && after[|before|].id == id
    requires forall j :: 0 <= j < |before| ==> before[j].id != id
    ensures FindNews(after, id) == |before|
    decreases |before|
  {
    if |before| > 0 {
      assert after[1..][..|before| - 1] == before[1..];
      FindNewsAbsent(before[1..], after[1..], id);
    }
  }

  /** While the guild has fewer than 100 items, a new item is listed by
      `get_news` together with every earlier one. */
  lemma AddedNewsIsListed(db: Db, id: string, guild: string, title: string, content: string,
                          scheduledFor: Option<Stamp>, createdBy: Option<string>, now: int)
    requires |GuildNews(db.news, guild)| < 100
    ensures var (n, db1) := AddNews(db, id, guild, title, content, scheduledFor, createdBy, now);
            multiset(GetNews(db1, guild)) == multiset(GuildNews(db.news, guild)) + multiset{n}
  {
    var (n, db1) := AddNews(db, id, guild, title, content, scheduledFor, createdBy, now);
    GuildNewsAppend(db.news, n, guild);
  }

  /** Selecting a guild's items distributes over appending one item. */
  lemma {:induction false} GuildNewsAppend(news: seq<News>, x: News, guild: string)
    ensures GuildNews(news + [x], guild) == GuildNews(news, guild) + (if x.guildId == guild then [x] else [])
    decreases |news|
  {
    if |news| == 0 {
      assert news + [x] == [x];
    } else {
      assert (news + [x])[0] == news[0];
      assert (news + [x])[1..] == news[1..] + [x];
      GuildNewsAppend(news[1..], x, guild);
      var head := if news[0].guildId == guild then [news[0]] else [];
      assert GuildNews(news + [x], guild) == head + GuildNews(news[1..] + [x], guild);
      assert GuildNews(news, guild) == head + GuildNews(news[1..], guild);
    }
  }

  /** `get_news`: the guild's items, newest first, at most 100. */
  function GetNews(db: Db, guild: string): (r: seq<News>)
    ensures |r| == if |GuildNews(db.news, guild)| < 100 then |GuildNews(db.news, guild)| else 100
    ensures forall n :: n in r ==> n in db.news && n.guildId == guild
    ensures forall i, j :: 0 <= i < j < |r| ==> r[i].createdAt >= r[j].createdAt
    ensures multiset(r) <= multiset(GuildNews(db.news, guild))
    ensures |GuildNews(db.news, guild)| <= 100 ==> multiset(r) == multiset(GuildNews(db.news, guild))
  {
    var all := GuildNews(db.news, guild);
    var sorted := SortNewestFirst(all);
    assert |sorted| == |all| by {
      assert |multiset(sorted)| == |multiset(all)|;
    }
    var n := if |sorted| <= 100 then |sorted| else 100;
    TopOfNewest(sorted, n);
    forall x | x in sorted[..n] ensures x in db.news && x.guildId == guild {
      assert x in multiset(all);
    }
    assert n == |sorted| ==> sorted[..n] == sorted;
    sorted[..n]
  }

  /** A prefix of a newest-first list is newest-first and drawn from it. */
  lemma TopOfNewest(sorted: seq<News>, n: nat)
    requires NewestFirst(sorted) && n <= |sorted|
    ensures NewestFirst(sorted[..n])
    ensures multiset(sorted[..n]) <= multiset(sorted)
    ensures forall x :: x in sorted[..n] ==> x in multiset(sorted)
  {
    assert sorted == sorted[..n] + sorted[n..];
    assert multiset(sorted) == multiset(sorted[..n]) + multiset(sorted[n..]);
  }

  /** `get_news` is the newest of the guild: every item it leaves out is no
      newer than every item it returns. */
  lemma NewsIsNewest(db: Db, guild: string)
    ensures var r := GetNews(db, guild);
            forall i, x :: 0 <= i < |r| && x in multiset(GuildNews(db.news, guild)) - multiset(r)
                           ==> r[i].createdAt >= x.createdAt
  {
    var all := GuildNews(db.news, guild);
    var r := GetNews(db, guild);
    NewsIsPrefix(db, guild);
    PrefixNewerThanLeftOut(SortNewestFirst(all), all, |r|);
  }

  /** `get_news` is the front of the guild's items sorted newest first. */
  lemma NewsIsPrefix(db: Db, guild: string)
    ensures var sorted := SortNewestFirst(GuildNews(db.news, guild));
            var r := GetNews(db, guild);
            |r| <= |sorted| && r == sorted[..|r|]
  {
  }

  /** Whatever a prefix of a newest-first arrangement of `all` leaves out of
      `all` is no newer than anything in the prefix. */
  lemma PrefixNewerThanLeftOut(sorted: seq<News>, all: seq<News>, n: nat)
    requires NewestFirst(sorted) && multiset(sorted) == multiset(all) && n <= |sorted|
    ensures forall i, x :: 0 <= i < n && x in multiset(all) - multiset(sorted[..n])
                           ==> sorted[..n][i].createdAt >= x.createdAt
  {
    PrefixNewerThanRest(sorted, n);
    assert sorted == sorted[..n] + sorted[n..];
    assert multiset(all) - multiset(sorted[..n]) == multiset(sorted[n..]);
  }

  /** In a newest-first list, everything before position n is no older than
      everything from it on. */
  lemma PrefixNewerThanRest(sorted: seq<News>, n: nat)
    requires NewestFirst(sorted) && n <= |sorted|
    ensures forall i, x :: 0 <= i < n && x in sorted[n..] ==> sorted[i].createdAt >= x.createdAt
  {
    forall i, x | 0 <= i < n && x in sorted[n..] ensures sorted[i].createdAt >= x.createdAt {
      var j :| 0 <= j < |sorted[n..]| && sorted[n..][j] == x;
      assert sorted[n + j] == x;
    }
  }

  function GuildNews(news: seq<News>, guild: string): (r: seq<News>)
    ensures forall n :: n in r <==> n in news && n.guildId == guild
  {
    if |news| == 0 then []
    else (if news[0].guildId == guild then [news[0]] else []) + GuildNews(news[1..], guild)
  }

  predicate NewestFirst(s: seq<News>) {
    forall i, j :: 0 <= i < j < |s| ==> s[i].createdAt >= s[j].createdAt
  }

  function InsertNews(x: News, s: seq<News>): (r: seq<News>)
    requires NewestFirst(s)
    ensures NewestFirst(r)
    ensures multiset(r) == multiset(s) + multiset{x}
    ensures forall y :: y in r ==> y == x || y in s
  {
    if |s| == 0 then [x]
    else if x.createdAt >= s[0].createdAt then
      InsertInFront(x, s);
      [x] + s
    else
      var rest := InsertNews(x, s[1..]);
      InsertBehind(x, s, rest);
      [s[0]] + rest
  }

  /** The then-branch of InsertNews: a new item no older than the front. */
  lemma InsertInFront(x: News, s: seq<News>)
    requires NewestFirst(s) && |s| > 0 && x.createdAt >= s[0].createdAt
    ensures NewestFirst([x] + s)
    ensures multiset([x] + s) == multiset(s) + multiset{x}
  {
    HeadIsNewest(s);
    ConsNewest(x, s);
  }

  /** The else-branch of InsertNews: the front stays in front of the rest
      with the new item inserted. */
  lemma InsertBehind(x: News, s: seq<News>, rest: seq<News>)
    requires NewestFirst(s) && |s| > 0 && x.createdAt < s[0].createdAt
    requires NewestFirst(rest) && multiset(rest) == multiset(s[1..]) + multiset{x}
    requires forall y :: y in rest ==> y == x || y in s[1..]
    ensures NewestFirst([s[0]] + rest)
    ensures multiset([s[0]] + rest) == multiset(s) + multiset{x}
    ensures forall y :: y in [s[0]] + rest ==> y == x || y in s
  {
    HeadIsNewest(s);
    assert forall y :: y in s[1..] ==> y in s;
    ConsNewest(s[0], rest);
    assert s == [s[0]] + s[1..];
    assert multiset([s[0]] + rest) == multiset{s[0]} + multiset(rest);
  }

  /** The front of a newest-first list is no older than any of its items. */
  lemma HeadIsNewest(s: seq<News>)
    requires NewestFirst(s) && |s| > 0
    ensures forall y :: y in s ==> s[0].createdAt >= y.createdAt
  {
    forall y | y in s ensures s[0].createdAt >= y.createdAt {
      var k :| 0 <= k < |s| && s[k] == y;
      if k > 0 { assert s[0].createdAt >= s[k].createdAt; }
    }
  }

  /** An item no older than a whole newest-first list can be put in front of it. */
  lemma ConsNewest(h: News, s: seq<News>)
    requires NewestFirst(s) && forall y :: y in s ==> h.createdAt >= y.createdAt
    ensures NewestFirst([h] + s)
  {
    var t := [h] + s;
    forall i, j | 0 <= i < j < |t| ensures t[i].createdAt >= t[j].createdAt {
      assert t[j] == s[j - 1];
      if i > 0 { assert t[i] == s[i - 1]; }
    }
  }

  function SortNewestFirst(s: seq<News>): (r: seq<News>)
    ensures NewestFirst(r)
    ensures multiset(r) == multiset(s)
  {
    if |s| == 0 then []
    else
      assert s == [s[0]] + s[1..];
      InsertNews(s[0], SortNewestFirst(s[1..]))
  }
}

=== FILE: text.dfy ===
/** String primitives of Python and JavaScript that the source relies on,
    written out over `seq<char>`. */
module Text {
  import opened Wrappers

  /** Python's `str.isspace()` for a single character (the complete list of
      characters Python treats as whitespace). */
  predicate IsSpace(c: char) {
    || c == ' '
    || ('\t' <= c <= '\r')
    || ('\U{1c}' <= c <= '\U{1f}')
    || c == '\U{85}' || c == '\U{a0}' || c == '\U{1680}'
    || ('\U{2000}' <= c <= '\U{200a}')
    || c == '\U{2028}' || c == '\U{2029}' || c == '\U{202f}' || c == '\U{205f}' || c == '\U{3000}'
  }

  predicate IsQuote(c: char) {
    c == '"'
  }

  /** `prefix` is a prefix of `s` (Python `s.startswith(prefix)`, JavaScript `s.startsWith(prefix)`). */
  predicate StartsWith(s: string, prefix: string) {
    |prefix| <= |s| && s[..|prefix|] == prefix
  }

  /** `sub` occurs somewhere in `s` (JavaScript `s.includes(sub)`, Python `sub in s`). */
  predicate Contains(s: string, sub: string)
    decreases |s|
  {
    StartsWith(s, sub) || (|s| > 0 && Contains(s[1..], sub))
  }

  /** The length of the longest prefix of `s` whose characters satisfy `p`. */
  function CountWhile(s: string, p: char -> bool): (n: nat)
    ensures n <= |s|
    ensures forall i :: 0 <= i < n ==> p(s[i])
    ensures n == |s| || !p(s[n])
  {
    if |s| > 0 && p(s[0]) then
      var m := CountWhile(s[1..], p);
      assert forall i :: 1 <= i < 1 + m ==> s[i] == s[1..][i - 1];
      1 + m
    else 0
  }

  /** The length of the longest suffix of `s` whose characters satisfy `p`. */
  function CountWhileEnd(s: string, p: char -> bool): (n: nat)
    ensures n <= |s|
    ensures forall i :: |s| - n <= i < |s| ==> p(s[i])
    ensures n == |s| || !p(s[|s| - n - 1])
  {
    if |s| > 0 && p(s[|s| - 1]) then
      var m := CountWhileEnd(s[..|s| - 1], p);
      assert forall i :: |s| - 1 - m <= i < |s| - 1 ==> s[i] == s[..|s| - 1][i];
      1 + m
    else 0
  }

  /** Drops the longest prefix whose characters satisfy `p`. */
  function DropWhile(s: string, p: char -> bool): string {
    s[CountWhile(s, p)..]
  }

  /** Drops the longest suffix whose characters satisfy `p`. */
  function DropWhileEnd(s: string, p: char -> bool): string {
    s[..|s| - CountWhileEnd(s, p)]
  }

  /** Python's `s.strip(chars)` where `p` says which characters are in `chars`. */
  function StripBy(s: string, p: char -> bool): string {
    DropWhileEnd(DropWhile(s, p), p)
  }

  /** Python's `s.strip()`. */
  function Strip(s: string): string {
    StripBy(s, IsSpace)
  }

  /** Python's `s.strip('"')`: every leading and trailing double quote goes. */
  function StripQuotes(s: string): string {
    StripBy(s, IsQuote)
  }

  /** `StripBy` leaves a string alone exactly when neither end satisfies `p`. */
  lemma StripByIdentity(s: string, p: char -> bool)
    requires |s| == 0 || (!p(s[0]) && !p(s[|s| - 1]))
    ensures StripBy(s, p) == s
  {
  }

  /** The first index of `c` in `s`, or `|s|` when `c` does not occur. */
  function IndexOf(s: string, c: char): (i: nat)
    ensures i <= |s|
    ensures i < |s| ==> s[i] == c
    ensures forall j :: 0 <= j < i ==> s[j] != c
  {
    if |s| == 0 then 0 else if s[0] == c then 0 else 1 + IndexOf(s[1..], c)
  }

  /** Python's `s.split(sep)` for a one-character separator: never empty, and the
      pieces joined back with `sep` give `s`. */
  function SplitOn(s: string, sep: char): (r: seq<string>)
    ensures |r| > 0
    ensures forall k :: 0 <= k < |r| ==> sep !in r[k]
    ensures JoinWith(r, sep) == s
  {
    if |s| == 0 then [""]
    else
      var rest := SplitOn(s[1..], sep);
      if s[0] == sep then [""] + rest
      else [[s[0]] + rest[0]] + rest[1..]
  }

  /** Python's `sep.join(parts)` for a one-character separator. */
  function JoinWith(parts: seq<string>, sep: char): string
    decreases |parts|
  {
    if |parts| == 0 then ""
    else if |parts| == 1 then parts[0]
    else parts[0] + [sep] + JoinWith(parts[1..], sep)
  }

  /** Splitting undoes joining when no part contains the separator. */
  lemma {:induction false} SplitJoin(parts: seq<string>, sep: char)
    requires |parts| > 0
    requires forall k :: 0 <= k < |parts| ==> sep !in parts[k]
    ensures SplitOn(JoinWith(parts, sep), sep) == parts
    decreases |parts|
  {
    if |parts| == 1 {
      SplitNoSep(parts[0], sep);
    } else {
      SplitJoin(parts[1..], sep);
      SplitAfter(parts[0], JoinWith(parts[1..], sep), sep);
    }
  }

  lemma {:induction false} SplitNoSep(s: string, sep: char)
    requires sep !in s
    ensures SplitOn(s, sep) == [s]
    decreases |s|
  {
    if |s| > 0 {
      SplitNoSep(s[1..], sep);
      assert [s[0]] + s[1..] == s;
    }
  }

  lemma {:induction false} SplitAfter(a: string, b: string, sep: char)
    requires sep !in a
    ensures SplitOn(a + [sep] + b, sep) == [a] + SplitOn(b, sep)
    decreases |a|
  {
    if |a| == 0 {
      assert a + [sep] + b == [sep] + b;
      assert ([sep] + b)[1..] == b;
    } else {
      SplitAfter(a[1..], b, sep);
      assert (a + [sep] + b)[1..] == a[1..] + [sep] + b;
      assert [a[0]] + a[1..] == a;
    }
  }

  /** Python's `s.split(c, 1)` when `c in s`: the text before the first `c` and
      the text after it. */
  function SplitFirst(s: string, c: char): (r: Option<(string, string)>)
    ensures r.None? <==> c !in s
    ensures r.Some? ==> s == r.value.0 + [c] + r.value.1 && c !in r.value.0
  {
    var i := IndexOf(s, c);
    if i == |s| then None
    else
      assert s == s[..i] + [c] + s[i + 1..];
      Some((s[..i], s[i + 1..]))
  }

  /** Python's `str.lower()` for one character: ASCII and Latin-1 capitals. */
  function LowerChar(c: char): (r: char)
    ensures !IsUpper(r)
    ensures !IsUpper(c) ==> r == c
  {
    if IsUpper(c) then (c as int + 32) as char else c
  }

  predicate IsUpper(c: char) {
    ('A' <= c <= 'Z') || ('\U{c0}' <= c <= '\U{de}' && c != '\U{d7}')
  }

  /** Python's `str.lower()`. */
  function Lower(s: string): (r: string)
    ensures |r| == |s|
    ensures forall i :: 0 <= i < |s| ==> r[i] == LowerChar(s[i])
  {
    if |s| == 0 then "" else [LowerChar(s[0])] + Lower(s[1..])
  }

  predicate IsLowercase(s: string) {
    forall i :: 0 <= i < |s| ==> !IsUpper(s[i])
  }

  lemma LowerIsLowercase(s: string)
    ensures IsLowercase(Lower(s))
    ensures Lower(Lower(s)) == Lower(s)
  {
  }

  /** Python's `s.replace(pat, rep)`: every occurrence of `pat`, found left to
      right without overlapping, is replaced by `rep`. */
  function ReplaceAll(s: string, pat: string, rep: string): string
    requires |pat| > 0
    decreases |s|
  {
    if |s| == 0 then ""
    else if StartsWith(s, pat) then rep + ReplaceAll(s[|pat|..], pat, rep)
    else [s[0]] + ReplaceAll(s[1..], pat, rep)
  }

  /** Text holding no character that can start `pat` passes through unchanged. */
  lemma {:induction false} ReplaceAllNoStart(s: string, pat: string, rep: string)
    requires |pat| > 0 && pat[0] !in s
    ensures ReplaceAll(s, pat, rep) == s
    decreases |s|
  {
    if |s| > 0 {
      ReplaceAllNoStart(s[1..], pat, rep);
      assert [s[0]] + s[1..] == s;
    }
  }

  /** A prefix free of `pat`'s first character is copied, and replacement
      continues on the rest. */
  lemma {:induction false} ReplaceAllLiteralPrefix(a: string, b: string, pat: string, rep: string)
    requires |pat| > 0 && pat[0] !in a
    ensures ReplaceAll(a + b, pat, rep) == a + ReplaceAll(b, pat, rep)
    decreases |a|
  {
    if |a| > 0 {
      assert (a + b)[0] == a[0];
      assert !StartsWith(a + b, pat);
      assert a == [a[0]] + a[1..];
      assert (a + b)[1..] == a[1..] + b;
      ReplaceAllLiteralPrefix(a[1..], b, pat, rep);
      calc {
        ReplaceAll(a + b, pat, rep);
        [a[0]] + ReplaceAll(a[1..] + b, pat, rep);
        [a[0]] + (a[1..] + ReplaceAll(b, pat, rep));
        a + ReplaceAll(b, pat, rep);
      }
    } else {
      assert a + b == b;
    }
  }

  /** An occurrence of `pat` at the front is replaced, and replacement continues. */
  lemma ReplaceAllAtPattern(b: string, pat: string, rep: string)
    requires |pat| > 0
    ensures ReplaceAll(pat + b, pat, rep) == rep + ReplaceAll(b, pat, rep)
  {
    assert StartsWith(pat + b, pat);
    assert (pat + b)[|pat|..] == b;
  }

  function DigitChar(d: nat): char
    requires d < 10
  {
    ('0' as int + d) as char
  }

  /** Python's `str(n)` for a natural number: decimal digits, no leading zero. */
  function NatToString(n: nat): (r: string)
    ensures |r| > 0
    ensures forall i :: 0 <= i < |r| ==> '0' <= r[i] <= '9'
    ensures r[0] == '0' ==> n == 0
    decreases n
  {
    if n < 10 then [DigitChar(n)] else NatToString(n / 10) + [DigitChar(n % 10)]
  }

  /** The number a string of decimal digits denotes. */
  function DecimalValue(s: string): nat
    requires forall i :: 0 <= i < |s| ==> '0' <= s[i] <= '9'
  {
    if |s| == 0 then 0 else 10 * DecimalValue(s[..|s| - 1]) + (s[|s| - 1] as int - '0' as int)
  }

  /** Reading back a rendered number gives the number: `int(str(n)) == n`, so
      distinct levels get distinct keys. */
  lemma {:induction false} NatToStringRoundTrip(n: nat)
    ensures DecimalValue(NatToString(n)) == n
    decreases n
  {
    if n >= 10 {
      NatToStringRoundTrip(n / 10);
      var r := NatToString(n);
      assert r[..|r| - 1] == NatToString(n / 10);
    }
  }

  lemma NatToStringInjective(m: nat, n: nat)
    requires NatToString(m) == NatToString(n)
    ensures m == n
  {
    NatToStringRoundTrip(m);
    NatToStringRoundTrip(n);
  }

  /** Python's `s.split()[0]`: the first maximal run of non-whitespace
      characters, or `None` where Python raises `IndexError` (no token at all). */
  function FirstToken(s: string): (r: Option<string>)
    ensures r.None? <==> forall i :: 0 <= i < |s| ==> IsSpace(s[i])
    ensures r.Some? ==> |r.value| > 0 && forall i :: 0 <= i < |r.value| ==> !IsSpace(r.value[i])
    ensures r.Some? ==> StartsWith(DropWhile(s, IsSpace), r.value)
    ensures r.Some? ==> var t := DropWhile(s, IsSpace); |t| == |r.value| || IsSpace(t[|r.value|])
  {
    var t := DropWhile(s, IsSpace);
    if |t| == 0 then None
    else
      var n := CountWhile(t, c => !IsSpace(c));
      Some(t[..n])
  }
}

=== FILE: tickets_page.dfy ===
/** frontend/src/pages/Tickets.jsx: the ticket-panel editor — the draft of a
    new panel, the copy of a panel being edited, and their category and form
    field lists. Ids come from the clock and are passed in. */
module TicketsPage {
  import opened Wrappers
  import opened Values
  import SeqOps

  /** A ticket category of a panel. */
  datatype Category = Category(id: string, name: string, emoji: string, description: string)

  /** The category inputs (`newCategory`). */
  datatype CategoryDraft = CategoryDraft(name: string, emoji: string, description: string)

  /** A form field of a panel; `caption` is the field's label. */
  datatype Field = Field(id: string, caption: string, kind: string, required: bool, options: seq<string>)

  /** The form-field inputs (`newField`). */
  datatype FieldDraft = FieldDraft(caption: string, kind: string, required: bool, options: seq<string>)

  /** The draft of a new panel: the channel, the scalar settings (title,
      colours, button, name template, switches) and the four lists. */
  datatype NewPanel = NewPanel(channelId: string, settings: Doc, categories: seq<Category>,
                               customFields: seq<Field>, supportRoles: seq<string>, pingRoles: seq<string>)

  /** The new-panel dialog: the draft and the two input groups. */
  datatype Editor = Editor(panel: NewPanel, category: CategoryDraft, field: FieldDraft)

  const EmptyCategory := CategoryDraft("", "", "")
  const EmptyField := FieldDraft("", "text", false, [])

  /** The settings a new panel starts with. */
  const DefaultSettings: Doc := map[
    "title" := Str("🎫 Support Tickets"),
    "description" := Str("Klicke auf den Button um ein Ticket zu erstellen."),
    "color" := Str("#5865F2"),
    "button_label" := Str("Ticket erstellen"),
    "button_emoji" := Str("🎫"),
    "ticket_category" := Str(""),
    "ticket_name_template" := Str("ticket-{number}"),
    "claim_enabled" := Bool(true),
    "transcript_enabled" := Bool(true)
  ]

  /** `resetNewPanel`: the dialog as it first opens. */
  const DefaultEditor := Editor(NewPanel("", DefaultSettings, [], [], [], []), EmptyCategory, EmptyField)

  function CategoryFrom(d: CategoryDraft, id: string): Category {
    Category(id, d.name, d.emoji, d.description)
  }

  function FieldFrom(d: FieldDraft, id: string): Field {
    Field(id, d.caption, d.kind, d.required, d.options)
  }

  // ------------------------------------------------------- the new panel

  /** `addCategory`: nothing without a name; otherwise the category is
      appended and its inputs are reset. */
  function AddCategory(e: Editor, id: string): (r: Editor)
    ensures e.category.name == "" ==> r == e
    ensures e.category.name != "" ==>
              && r.panel == e.panel.(categories := e.panel.categories + [CategoryFrom(e.category, id)])
              && r.category == EmptyCategory && r.field == e.field
  {
    if e.category.name == "" then e
    else e.(panel := e.panel.(categories := e.panel.categories + [CategoryFrom(e.category, id)]),
            category := EmptyCategory)
  }

  /** `removeCategory(i)`: exactly category `i` goes; the rest keep their order. */
  function RemoveCategory(e: Editor, i: int): (r: Editor)
    ensures |r.panel.categories| == if 0 <= i < |e.panel.categories| then |e.panel.categories| - 1 else |e.panel.categories|
    ensures forall j :: 0 <= j < |r.panel.categories| ==>
              r.panel.categories[j] == e.panel.categories[if 0 <= i <= j then j + 1 else j]
    ensures r == e.(panel := e.panel.(categories := r.panel.categories))
  {
    e.(panel := e.panel.(categories := SeqOps.RemoveAt(e.panel.categories, i)))
  }

  /** `addField`: nothing without a label; otherwise the field is appended
      and its inputs are reset. */
  function AddField(e: Editor, id: string): (r: Editor)
    ensures e.field.caption == "" ==> r == e
    ensures e.field.caption != "" ==>
              && r.panel == e.panel.(customFields := e.panel.customFields + [FieldFrom(e.field, id)])
              && r.field == EmptyField && r.category == e.category
  {
    if e.field.caption == "" then e
    else e.(panel := e.panel.(customFields := e.panel.customFields + [FieldFrom(e.field, id)]),
            field := EmptyField)
  }

  /** `removeField(i)`: exactly field `i` goes; the rest keep their order. */
  function RemoveField(e: Editor, i: int): (r: Editor)
    ensures |r.panel.customFields| == if 0 <= i < |e.panel.customFields| then |e.panel.customFields| - 1 else |e.panel.customFields|
    ensures forall j :: 0 <= j < |r.panel.customFields| ==>
              r.panel.customFields[j] == e.panel.customFields[if 0 <= i <= j then j + 1 else j]
    ensures r == e.(panel := e.panel.(customFields := r.panel.customFields))
  {
    e.(panel := e.panel.(customFields := SeqOps.RemoveAt(e.panel.customFields, i)))
  }

  /** Removing the category just added gives the panel back. */
  lemma AddThenRemoveCategory(e: Editor, id: string)
    requires e.category.name != ""
    ensures RemoveCategory(AddCategory(e, id), |e.panel.categories|).panel == e.panel
  {
    assert (e.panel.categories + [CategoryFrom(e.category, id)])[..|e.panel.categories|] == e.panel.categories;
  }

  /** Removing the field just added gives the panel back. */
  lemma AddThenRemoveField(e: Editor, id: string)
    requires e.field.caption != ""
    ensures RemoveField(AddField(e, id), |e.panel.customFields|).panel == e.panel
  {
    assert (e.panel.customFields + [FieldFrom(e.field, id)])[..|e.panel.customFields|] == e.panel.customFields;
  }

  /** `createPanel`: refused without a channel; otherwise the draft is sent,
      and the dialog is reset once the server has accepted it. */
  function CreatePanel(e: Editor, accepted: bool): (r: (Option<NewPanel>, Editor))
    ensures r.0.Some? <==> e.panel.channelId != ""
    ensures r.0.Some? ==> r.0.value == e.panel
    ensures r.1 == (if e.panel.channelId != "" && accepted then DefaultEditor else e)
  {
    if e.panel.channelId == "" then (None, e)
    else (Some(e.panel), if accepted then DefaultEditor else e)
  }

  /** Submitting twice: a refused or unaccepted submission leaves the dialog
      as it was, so it can be sent again unchanged; an accepted one leaves
      the reset dialog, which cannot be sent. */
  lemma CreatePanelThenAgain(e: Editor, accepted: bool, again: bool)
    ensures var (sent, e1) := CreatePanel(e, accepted);
            && (sent.None? || !accepted ==> e1 == e && CreatePanel(e1, again).0 == sent)
            && (sent.Some? && accepted ==> e1 == DefaultEditor && CreatePanel(e1, again).0.None?)
  {
    DefaultPanelNeedsChannel(again);
  }

  /** The dialog as it opens cannot create a panel: no channel is chosen. */
  lemma DefaultPanelNeedsChannel(accepted: bool)
    ensures CreatePanel(DefaultEditor, accepted) == (None, DefaultEditor)
  {
  }

  // ------------------------------------------------ editing a stored panel

  /** A panel as the server returns it; its lists may be missing. */
  datatype StoredPanel = StoredPanel(id: string, channelId: string, settings: Doc,
                                     categories: Option<seq<Category>>, customFields: Option<seq<Field>>,
                                     supportRoles: Option<seq<string>>, pingRoles: Option<seq<string>>)

  /** All four lists are present. */
  predicate Opened(p: StoredPanel) {
    p.categories.Some? && p.customFields.Some? && p.supportRoles.Some? && p.pingRoles.Some?
  }

  /** `openEditPanel`: the panel with each missing list replaced by an empty one. */
  function OpenEditPanel(p: StoredPanel): (r: StoredPanel)
    ensures Opened(r)
    ensures r.id == p.id && r.channelId == p.channelId && r.settings == p.settings
    ensures p.categories.Some? ==> r.categories == p.categories
    ensures p.customFields.Some? ==> r.customFields == p.customFields
    ensures p.supportRoles.Some? ==> r.supportRoles == p.supportRoles
    ensures p.pingRoles.Some? ==> r.pingRoles == p.pingRoles
    ensures p.categories.None? ==> r.categories == Some([])
    ensures p.customFields.None? ==> r.customFields == Some([])
    ensures p.supportRoles.None? ==> r.supportRoles == Some([])
    ensures p.pingRoles.None? ==> r.pingRoles == Some([])
  {
    p.(categories := Some(p.categories.GetOr([])), customFields := Some(p.customFields.GetOr([])),
       supportRoles := Some(p.supportRoles.GetOr([])), pingRoles := Some(p.pingRoles.GetOr([])))
  }

  /** Opening an opened panel changes nothing. */
  lemma OpenEditPanelIdempotent(p: StoredPanel)
    ensures OpenEditPanel(OpenEditPanel(p)) == OpenEditPanel(p)
    ensures Opened(p) ==> OpenEditPanel(p) == p
  {
  }

  /** `addCategoryToEdit`: as `addCategory`, on the edited panel (a missing
      list counts as empty). Returns the panel and the reset inputs. */
  function AddCategoryToEdit(p: StoredPanel, d: CategoryDraft, id: string): (r: (StoredPanel, CategoryDraft))
    ensures d.name == "" ==> r == (p, d)
    ensures d.name != "" ==>
              r.0 == p.(categories := Some(p.categories.GetOr([]) + [CategoryFrom(d, id)])) && r.1 == EmptyCategory
  {
    if d.name == "" then (p, d)
    else (p.(categories := Some(p.categories.GetOr([]) + [CategoryFrom(d, id)])), EmptyCategory)
  }

  /** `removeCategoryFromEdit(i)`; `None` is the `TypeError` a missing list raises. */
  function RemoveCategoryFromEdit(p: StoredPanel, i: int): (r: Option<StoredPanel>)
    ensures r.Some? <==> p.categories.Some?
    ensures r.Some? ==> r.value == p.(categories := Some(SeqOps.RemoveAt(p.categories.value, i)))
  {
    match p.categories
    case None => None
    case Some(cs) => Some(p.(categories := Some(SeqOps.RemoveAt(cs, i))))
  }

  /** `addFieldToEdit`. */
  function AddFieldToEdit(p: StoredPanel, d: FieldDraft, id: string): (r: (StoredPanel, FieldDraft))
    ensures d.caption == "" ==> r == (p, d)
    ensures d.caption != "" ==>
              r.0 == p.(customFields := Some(p.customFields.GetOr([]) + [FieldFrom(d, id)])) && r.1 == EmptyField
  {
    if d.caption == "" then (p, d)
    else (p.(customFields := Some(p.customFields.GetOr([]) + [FieldFrom(d, id)])), EmptyField)
  }

  /** `removeFieldFromEdit(i)`; `None` is the `TypeError` a missing list raises. */
  function RemoveFieldFromEdit(p: StoredPanel, i: int): (r: Option<StoredPanel>)
    ensures r.Some? <==> p.customFields.Some?
    ensures r.Some? ==> r.value == p.(customFields := Some(SeqOps.RemoveAt(p.customFields.value, i)))
  {
    match p.customFields
    case None => None
    case Some(fs) => Some(p.(customFields := Some(SeqOps.RemoveAt(fs, i))))
  }

  /** A panel opened for editing stays opened under every editor, so the
      removals never hit a missing list. */
  lemma EditorsKeepPanelOpened(p: StoredPanel, c: CategoryDraft, f: FieldDraft, id: string, i: int)
    requires Opened(p)
    ensures Opened(AddCategoryToEdit(p, c, id).0) && Opened(AddFieldToEdit(p, f, id).0)
    ensures RemoveCategoryFromEdit(p, i).Some? && Opened(RemoveCategoryFromEdit(p, i).value)
    ensures RemoveFieldFromEdit(p, i).Some? && Opened(RemoveFieldFromEdit(p, i).value)
  {
  }

  /** The edit variants do to the edited panel's lists what the new-panel
      editors do to the draft's. */
  lemma EditorsAgree(p: StoredPanel, e: Editor, id: string, i: int)
    requires Opened(p)
    requires p.categories.value == e.panel.categories && p.customFields.value == e.panel.customFields
    ensures AddCategoryToEdit(p, e.category, id).0.categories == Some(AddCategory(e, id).panel.categories)
    ensures AddFieldToEdit(p, e.field, id).0.customFields == Some(AddField(e, id).panel.customFields)
    ensures RemoveCategoryFromEdit(p, i).value.categories == Some(RemoveCategory(e, i).panel.categories)
    ensures RemoveFieldFromEdit(p, i).value.customFields == Some(RemoveField(e, i).panel.customFields)
  {
  }
}

=== FILE: translations.dfy ===
/** backend/translations.py: the message tables and the lookup with fallback
    to German and then to the key itself. */
module Translations {
  import opened Wrappers
  import Text

  const De: map<string, string> := map[
    "welcome_default" := "Willkommen auf dem Server, {user}! 🎉",
    "goodbye_default" := "Auf Wiedersehen, {user}! 👋",
    "level_up" := "🎉 Herzlichen Glückwunsch {user}! Du hast Level {level} erreicht!",
    "warn_dm" := "⚠️ Du wurdest auf **{server}** verwarnt!\nGrund: {reason}",
    "mute_dm" := "🔇 Du wurdest auf **{server}** stummgeschaltet!\nDauer: {duration}\nGrund: {reason}",
    "kick_dm" := "👢 Du wurdest von **{server}** gekickt!\nGrund: {reason}",
    "ban_dm" := "🔨 Du wurdest von **{server}** gebannt!\nGrund: {reason}",
    "temp_channel_created" := "🎤 Dein temporärer Kanal wurde erstellt: {channel}",
    "no_permission" := "❌ Du hast keine Berechtigung für diesen Befehl!",
    "user_not_found" := "❌ Benutzer nicht gefunden!",
    "success" := "✅ Erfolgreich!",
    "error" := "❌ Ein Fehler ist aufgetreten!",
    "ai_thinking" := "🤔 Ich denke nach...",
    "xp_gained" := "+{xp} XP",
    "leaderboard_title" := "🏆 XP Rangliste",
    "modlog_warn" := "⚠️ **Verwarnung**",
    "modlog_mute" := "🔇 **Stummschaltung**",
    "modlog_kick" := "👢 **Kick**",
    "modlog_ban" := "🔨 **Bann**",
    "news_posted" := "📢 News wurde gepostet!"
  ]

  const En: map<string, string> := map[
    "welcome_default" := "Welcome to the server, {user}! 🎉",
    "goodbye_default" := "Goodbye, {user}! 👋",
    "level_up" := "🎉 Congratulations {user}! You reached Level {level}!",
    "warn_dm" := "⚠️ You have been warned on **{server}**!\nReason: {reason}",
    "mute_dm" := "🔇 You have been muted on **{server}**!\nDuration: {duration}\nReason: {reason}",
    "kick_dm" := "👢 You have been kicked from **{server}**!\nReason: {reason}",
    "ban_dm" := "🔨 You have been banned from **{server}**!\nReason: {reason}",
    "temp_channel_created" := "🎤 Your temporary channel was created: {channel}",
    "no_permission" := "❌ You don't have permission for this command!",
    "user_not_found" := "❌ User not found!",
    "success" := "✅ Success!",
    "error" := "❌ An error occurred!",
    "ai_thinking" := "🤔 Thinking...",
    "xp_gained" := "+{xp} XP",
    "leaderboard_title" := "🏆 XP Leaderboard",
    "modlog_warn" := "⚠️ **Warning**",
    "modlog_mute" := "🔇 **Mute**",
    "modlog_kick" := "👢 **Kick**",
    "modlog_ban" := "🔨 **Ban**",
    "news_posted" := "📢 News has been posted!"
  ]

  /** `TRANSLATIONS`: language code to message table. */
  const Tables: map<string, map<string, string>> := map["de" := De, "en" := En]

  /** Both languages define the same messages. */
  lemma TablesShareKeys()
    ensures De.Keys == En.Keys
  {
  }

  /** The `{name}` placeholder at the front of `s`, if there is one: the name
      (non-empty, brace-free) and the text after the closing brace. */
  function PlaceholderAt(s: string): (r: Option<(string, string)>)
    ensures r.Some? ==> s == "{" + r.value.0 + "}" + r.value.1
    ensures r.Some? ==> |r.value.0| > 0 && '{' !in r.value.0 && '}' !in r.value.0
  {
    if |s| == 0 || s[0] != '{' then None
    else
      var close := Text.IndexOf(s[1..], '}');
      if close == 0 || close == |s| - 1 || '{' in s[1..1 + close] then None
      else
        assert s == "{" + s[1..1 + close] + "}" + s[2 + close..];
        Some((s[1..1 + close], s[2 + close..]))
  }

  /** `text.format(**kwargs)` restricted to `{name}` placeholders: `None` where
      Python raises `KeyError` for a placeholder with no matching argument. */
  function Format(text: string, kwargs: map<string, string>): Option<string>
    decreases |text|
  {
    if |text| == 0 then Some("")
    else
      var ph := PlaceholderAt(text);
      if ph.Some? then
        var name := ph.value.0;
        if name !in kwargs then None
        else
          var tail := Format(ph.value.1, kwargs);
          if tail.None? then None else Some(kwargs[name] + tail.value)
      else
        var tail := Format(text[1..], kwargs);
        if tail.None? then None else Some([text[0]] + tail.value)
  }

  /** Text without placeholders formats to itself. */
  lemma {:induction false} FormatPlain(text: string, kwargs: map<string, string>)
    requires '{' !in text
    ensures Format(text, kwargs) == Some(text)
    decreases |text|
  {
    if |text| > 0 {
      FormatPlain(text[1..], kwargs);
      assert [text[0]] + text[1..] == text;
    }
  }

  /** Literal text is copied and formatting continues behind it. */
  lemma {:induction false} FormatLiteralPrefix(a: string, b: string, kwargs: map<string, string>)
    requires '{' !in a
    ensures Format(a + b, kwargs).None? <==> Format(b, kwargs).None?
    ensures Format(b, kwargs).Some? ==> Format(a + b, kwargs) == Some(a + Format(b, kwargs).value)
    decreases |a|
  {
    if |a| > 0 {
      assert (a + b)[0] == a[0] && (a + b)[1..] == a[1..] + b;
      FormatLiteralPrefix(a[1..], b, kwargs);
      if Format(b, kwargs).Some? {
        assert [a[0]] + (a[1..] + Format(b, kwargs).value) == a + Format(b, kwargs).value;
      }
    } else {
      assert a + b == b;
      if Format(b, kwargs).Some? {
        assert a + Format(b, kwargs).value == Format(b, kwargs).value;
      }
    }
  }

  /** A placeholder is replaced by its argument; one without an argument makes
      the whole formatting fail. */
  lemma {:induction false} FormatPlaceholder(name: string, b: string, kwargs: map<string, string>)
    requires |name| > 0 && '{' !in name && '}' !in name
    ensures name !in kwargs ==> Format("{" + name + "}" + b, kwargs).None?
    ensures name in kwargs ==> (Format("{" + name + "}" + b, kwargs).None? <==> Format(b, kwargs).None?)
    ensures name in kwargs && Format(b, kwargs).Some? ==>
              Format("{" + name + "}" + b, kwargs) == Some(kwargs[name] + Format(b, kwargs).value)
  {
    var s := "{" + name + "}" + b;
    assert s[1..] == name + ("}" + b);
    assert Text.IndexOf(s[1..], '}') == |name| by {
      IndexOfAfter(name, "}" + b, '}');
    }
    assert s[1..1 + |name|] == name;
    assert s[2 + |name|..] == b;
  }

  lemma {:induction false} IndexOfAfter(a: string, b: string, c: char)
    requires c !in a && |b| > 0 && b[0] == c
    ensures Text.IndexOf(a + b, c) == |a|
    decreases |a|
  {
    if |a| > 0 {
      assert (a + b)[1..] == a[1..] + b;
      IndexOfAfter(a[1..], b, c);
    } else {
      assert a + b == b;
    }
  }

  /** The table for `lang`, German when the language is unknown. */
  function TableFor(lang: string): (table: map<string, string>)
    ensures lang == "en" ==> table == En
    ensures lang != "en" ==> table == De
  {
    if lang in Tables then Tables[lang] else De
  }

  /** The unformatted message: the chosen table's entry, else the German
      entry, else the key itself. */
  function Lookup(lang: string, key: string): string {
    var table := TableFor(lang);
    if key in table then table[key] else if key in De then De[key] else key
  }

  /** `get_translation(lang, key, **kwargs)`. */
  function GetTranslation(lang: string, key: string, kwargs: map<string, string>): string {
    var text := Lookup(lang, key);
    if |kwargs| == 0 then text
    else
      match Format(text, kwargs)
      case Some(s) => s
      case None => text
  }

  /** `t(lang, key, **kwargs)`: an alias of `get_translation`. */
  function T(lang: string, key: string, kwargs: map<string, string>): string {
    GetTranslation(lang, key, kwargs)
  }

  /** With arguments, `t` is the formatted message whenever formatting succeeds. */
  lemma TranslationIsFormatted(lang: string, key: string, kwargs: map<string, string>, s: string)
    requires |kwargs| > 0 && Format(Lookup(lang, key), kwargs) == Some(s)
    ensures T(lang, key, kwargs) == s
  {
  }

  /** Every language other than English reads the German table. */
  lemma UnknownLanguageIsGerman(lang: string, key: string, kwargs: map<string, string>)
    requires lang !in Tables
    ensures GetTranslation(lang, key, kwargs) == GetTranslation("de", key, kwargs)
  {
  }

  /** A key the chosen table lacks falls back to German; a key no table has is
      its own message. */
  lemma KeyFallback(lang: string, key: string)
    ensures key !in TableFor(lang) && key in De ==> Lookup(lang, key) == De[key]
    ensures key !in De && key !in En ==> Lookup(lang, key) == key
  {
  }

  /** Without arguments the looked-up text comes back untouched, braces and all. */
  lemma NoArgumentsNoFormatting(lang: string, key: string)
    ensures GetTranslation(lang, key, map[]) == Lookup(lang, key)
  {
  }

  /** When the message's first placeholder is one the arguments do not name,
      the unformatted message is returned. */
  lemma MissingArgumentKeepsText(lang: string, key: string, kwargs: map<string, string>,
                                 a: string, name: string, rest: string)
    requires |kwargs| > 0 && '{' !in a
    requires |name| > 0 && '{' !in name && '}' !in name && name !in kwargs
    requires Lookup(lang, key) == a + "{" + name + "}" + rest
    ensures GetTranslation(lang, key, kwargs) == Lookup(lang, key)
  {
    FirstPlaceholderMissing(a, name, rest, kwargs);
  }

  /** Formatting fails when the first placeholder has no argument. */
  lemma FirstPlaceholderMissing(a: string, name: string, rest: string, kwargs: map<string, string>)
    requires '{' !in a
    requires |name| > 0 && '{' !in name && '}' !in name && name !in kwargs
    ensures Format(a + "{" + name + "}" + rest, kwargs).None?
  {
    FormatPlaceholder(name, rest, kwargs);
    FormatLiteralPrefix(a, "{" + name + "}" + rest, kwargs);
    assert a + "{" + name + "}" + rest == a + ("{" + name + "}" + rest);
  }

  /** A message of the form `a{name}b` with plain `a` and `b` and a matching
      argument is `a`, the argument, `b`. */
  lemma {:induction false} SinglePlaceholderSubstituted(a: string, name: string, b: string, kwargs: map<string, string>)
    requires '{' !in a && '{' !in b
    requires |name| > 0 && '{' !in name && '}' !in name && name in kwargs
    ensures Format(a + "{" + name + "}" + b, kwargs) == Some(a + kwargs[name] + b)
  {
    var ph := "{" + name + "}" + b;
    FormatPlain(b, kwargs);
    FormatPlaceholder(name, b, kwargs);
    assert Format(ph, kwargs) == Some(kwargs[name] + b);
    FormatLiteralPrefix(a, ph, kwargs);
    assert a + "{" + name + "}" + b == a + ph;
    assert a + (kwargs[name] + b) == a + kwargs[name] + b;
  }
}

=== FILE: values.dfy ===
/** The JSON-like values stored in a guild configuration document. */
module Values {

  /** One field value of a configuration document: the shapes the documents use
      (`None`, flags, numbers, ids, id lists, `{level: role_id}` and
      `{command: [role_ids]}` dictionaries). */
  datatype Value =
    | Null
    | Bool(flag: bool)
    | Int(number: int)
    | Str(text: string)
    | StrList(items: seq<string>)
    | StrMap(entries: map<string, string>)
    | ListMap(lists: map<string, seq<string>>)

  /** A document: field name to value. */
  type Doc = map<string, Value>

  /** Python truthiness (`if config.get(...)`): empty containers are false. */
  predicate PyTruthy(v: Value) {
    match v
    case Null => false
    case Bool(b) => b
    case Int(n) => n != 0
    case Str(s) => s != ""
    case StrList(xs) => |xs| > 0
    case StrMap(m) => |m| > 0
    case ListMap(m) => |m| > 0
  }

  /** JavaScript truthiness (`x || default`): every array and object is true. */
  predicate JsTruthy(v: Value) {
    match v
    case Null => false
    case Bool(b) => b
    case Int(n) => n != 0
    case Str(s) => s != ""
    case StrList(_) => true
    case StrMap(_) => true
    case ListMap(_) => true
  }

  /** Python's `d.get(key)` followed by a truthiness test; a missing key is `None`. */
  predicate FieldTruthy(d: Doc, key: string) {
    key in d && PyTruthy(d[key])
  }
}

=== FILE: welcome_page.dfy ===
/** frontend/src/pages/Welcome.jsx: the welcome/goodbye form as it is loaded
    from the guild configuration, and its auto-role list. */
module WelcomePage {
  import opened Wrappers
  import opened Values
  import SeqOps
  import Store
  import Server

  /** The form's fields and the value each takes when the configuration has
      nothing truthy for it. */
  const FormDefaults: Doc := map[
    "welcome_enabled" := Bool(false),
    "welcome_channel" := Str(""),
    "welcome_message" := Str(""),
    "goodbye_enabled" := Bool(false),
    "goodbye_message" := Str(""),
    "auto_roles" := StrList([])
  ]

  /** `res.data[key] || default`. */
  function OrDefault(data: Doc, key: string, default: Value): Value {
    if key in data && JsTruthy(data[key]) then data[key] else default
  }

  /** `fetchConfig`: the six form fields, each the configuration's value when
      it is truthy and the field's default otherwise; nothing else is kept. */
  function FetchConfig(data: Doc): (r: Doc)
    ensures r.Keys == FormDefaults.Keys
    ensures forall k :: k in FormDefaults && k in data && JsTruthy(data[k]) ==> r[k] == data[k]
    ensures forall k :: k in FormDefaults && !(k in data && JsTruthy(data[k])) ==> r[k] == FormDefaults[k]
    ensures forall k :: k in r ==> r[k] != Null
  {
    map k | k in FormDefaults :: OrDefault(data, k, FormDefaults[k])
  }

  /** Loading the form from its own contents changes nothing. */
  lemma FetchConfigIdempotent(data: Doc)
    ensures FetchConfig(FetchConfig(data)) == FetchConfig(data)
  {
    var once := FetchConfig(data);
    forall k | k in FormDefaults ensures FetchConfig(once)[k] == once[k] {
      if !(k in data && JsTruthy(data[k])) {
        assert once[k] == FormDefaults[k];
      }
    }
  }

  /** Loading the form and saving it straight back keeps every truthy setting
      of the guild and every setting the form does not show; falsy form
      settings come back as their defaults. */
  lemma LoadSaveRoundTrip(db: Store.Db, guild: string, key: string)
    requires guild in db.guilds && key in db.guilds[guild]
    ensures var config := Store.GetGuildConfig(db, guild).0;
            var db1 := Server.UpdateGuild(db, guild, FetchConfig(config)).1;
            && key in db1.guilds[guild]
            && (key !in FormDefaults || JsTruthy(db.guilds[guild][key]) ==> db1.guilds[guild][key] == db.guilds[guild][key])
            && (key in FormDefaults && !JsTruthy(db.guilds[guild][key]) ==> db1.guilds[guild][key] == FormDefaults[key])
  {
    var config := Store.GetGuildConfig(db, guild).0;
    assert config[key] == db.guilds[guild][key];
  }

  const DuplicateRole := "Rolle bereits hinzugefügt"

  /** The auto-role list and its input. */
  datatype AutoRoles = AutoRoles(roles: seq<string>, input: string)

  /** `addAutoRole`: an empty input does nothing; a listed role is refused
      with a notice; otherwise it is appended and the input cleared. */
  function AddAutoRole(a: AutoRoles): (r: (AutoRoles, Option<string>))
    ensures a.input == "" ==> r == (a, None)
    ensures a.input != "" && a.input in a.roles ==> r == (a, Some(DuplicateRole))
    ensures a.input != "" && a.input !in a.roles ==> r == (AutoRoles(a.roles + [a.input], ""), None)
  {
    if a.input == "" then (a, None)
    else match SeqOps.AppendNew(a.roles, a.input)
      case None => (a, Some(DuplicateRole))
      case Some(roles) => (AutoRoles(roles, ""), None)
  }

  /** `removeAutoRole`: every copy goes, the rest keep their order. */
  function RemoveAutoRole(a: AutoRoles, roleId: string): (r: AutoRoles)
    ensures forall x :: x in r.roles <==> x in a.roles && x != roleId
    ensures r.input == a.input
    ensures roleId !in a.roles ==> r == a
  {
    SeqOps.RemoveAllMembers(a.roles, roleId);
    if roleId !in a.roles then SeqOps.RemoveAllAbsent(a.roles, roleId); a
    else a.(roles := SeqOps.RemoveAll(a.roles, roleId))
  }

  /** Adding a new role and removing it again gives the list back. */
  lemma AddThenRemoveAutoRole(a: AutoRoles)
    requires a.input != "" && a.input !in a.roles
    ensures RemoveAutoRole(AddAutoRole(a).0, a.input).roles == a.roles
  {
    SeqOps.AppendNewThenRemove(a.roles, a.input);
  }

  /** The list stays free of duplicates. */
  lemma AddAutoRoleKeepsNoDups(a: AutoRoles)
    requires SeqOps.NoDups(a.roles)
    ensures SeqOps.NoDups(AddAutoRole(a).0.roles)
  {
    SeqOps.AppendNewNoDups(a.roles, a.input);
  }
}

=== FILE: wrappers.dfy ===
/** Failure-carrying result types shared by every module of the model. */
module Wrappers {

  /** A value that may be absent: Python's `None`, a missing dictionary key,
      JavaScript's `undefined`/`null`. */
  datatype Option<+T> = None | Some(value: T) {

    /** The wrapped value, or `default` when absent (Python's `d.get(k, default)`). */
    function GetOr(default: T): T {
      match this
      case Some(v) => v
      case None => default
    }
  }

  /** Either a computed value or the error the source raises instead. */
  datatype Result<+T, +E> = Ok(value: T) | Err(error: E)
}
